=== FILE: README.md ===
# ColocFact core in Dafny

ColocFact is an expense-sharing application for flat-shares. A **group** has
**members**, each an `admin` or a plain `member`. Members record
**expenses**. An expense is paid by one member and split into **shares**
under one of three policies: equal, percentage or exact. Members also record
**payments** to each other. A payment stays `pending` until its receiver
confirms or rejects it.

From these records the application computes:
- each member's **balance**: what the member paid minus what the member owes;
- a short list of suggested **settlement** payments, from greedy matching of debtors to creditors;
- summary **statistics** per group, per category, per month and per member.

This project models that core as pure functions over immutable data and
proves properties about it. The store is one relational value,
`Domain.Db`, holding five tables: groups, memberships, expenses, share
rows and payments. Each controller action becomes a function from a `Db`
and a request to either a new `Db` or an error (`Wrappers.Result`). A
failing action returns no store, just as the source rolls back its
transaction or returns before writing.

Money is integer **cents**. The source's `parseFloat(x.toFixed(2))` becomes
`Money.RoundDiv`, which rounds to the nearest unit with ties going away from
zero. Tolerances of 0.01 become one cent. Percentages in share requests are
in hundredths of a percent (10000 is 100%). Category percentages are in
tenths of a percent, matching `toFixed(1)`.

Modules, following the program's structure:

| file | module | models |
|---|---|---|
| wrappers.dfy | Wrappers | `Option` and `Result` |
| money.dfy | Money | cents, absolute value, minimum, rounding |
| seqs.dfy | Seqs | filter, map and find over sequences (the store's `where` clauses) |
| sorting.dfy | Sorting | stable descending sort (`Array.prototype.sort` with `b.x - a.x`) |
| domain.dfy | Domain | rows, errors, schema invariants, read queries |
| allocation.dfy | Allocation | the equal, percentage and exact split policies |
| balances.dfy | Balances | `calculateBalances` |
| settlement.dfy | Settlement | `calculateDebts`, `getUserDebts` |
| expenses.dfy | Expenses | create, update and delete of expenses and their shares |
| payments.dfy | Payments | the payment lifecycle |
| groups.dfy | Groups | groups, membership and roles |
| statistics.dfy | Statistics | the four statistics reports |

Behaviour of the code worth knowing:
- **Equal-split base.** The base share is `amount / n` rounded to the *nearest* cent. When it rounds up, the remainder is negative and is never handed back, so the shares can exceed the amount. See `Allocation.EqualSplitRoundedUp` and `Allocation.EqualSplitOverchargeExample`.
- **Allocation input.** The split policies do not reject negative percentages, negative amounts, duplicate members or an empty roster.
  - An empty roster gives an equal split with no shares.
  - A duplicate member is refused only by the store's unique index on (expense, user), modelled as `DuplicateShare`.
- **Invite codes.** Nothing in the controllers checks a new invite code against the existing ones. Only the unique index on the code column refuses a code another group holds, and the error is then thrown to the caller. This refusal is modelled as `InviteCodeTaken`.
- **Unknown ids.** The balance fold silently skips a payer, share holder, sender or receiver that is not on the roster, rather than failing. See `Balances.UnknownExpenseIgnored`.

## Model

| member | source | states |
|---|---|---|
| Money.RoundDiv | server/controllers/expense.controller.js:167-168 | The result is the quotient to the nearest integer: within half a unit of it, below half on the positive side and above it on the negative side, with a tie going away from zero. The same `toFixed` rounding is used for percentage shares (line 197) and for the statistics (statistics.controller.js lines 70-72 and 125). |
| Sorting.SortDesc | server/services/debt.service.js:119-120 | The result is a permutation of the input (same length and multiset) sorted by descending key. |
| Sorting.InsertSorted | server/services/debt.service.js:119-120 | Inserting into a descending sequence keeps it descending. |
| Sorting.SortDescStable | server/services/debt.service.js:119-120 | The sort is stable: for every key, the elements with that key appear in their original order. |
| Domain.FindMembership | server/controllers/expense.controller.js:5-10 | A found membership is a row of the table for that group and user; nothing is found exactly when no such row exists. |
| Domain.FindExpense | server/controllers/expense.controller.js:271-279 | A found expense is a row of the table with that id in that group; nothing is found exactly when no such row exists. |
| Domain.FindPayment | server/controllers/balance.controller.js:174-180 | A found payment is a row of the table with that id in that group; nothing is found exactly when no such row exists. |
| Domain.Roster | server/services/debt.service.js:11-31 | The roster has one user per membership row of the group: entry i is the user of the group's i-th membership row, in table order. |
| Allocation.Distribute | server/controllers/expense.controller.js:170-182 | One share per user, in order; the first `remainder` users get base + 1 cent and the rest get base. |
| Allocation.EqualBase | server/controllers/expense.controller.js:167 | The base is within half a cent of amount / n. |
| Allocation.EqualSplit | server/controllers/expense.controller.js:160-182 | One share per roster member, in roster order, and any two shares differ by at most one cent. |
| Allocation.DistributeSum | server/controllers/expense.controller.js:168-175 | The shares sum to base × n plus the number of extra cents handed out: the positive part of the remainder, capped at n. |
| Allocation.EqualSplitExact | server/controllers/expense.controller.js:167-182 | When the base does not round up, the first `remainder` members get one more cent and the shares sum exactly to the amount. |
| Allocation.EqualSplitRoundedUp | server/controllers/expense.controller.js:168-175 | When the base rounds up, every share equals the base and the sum exceeds the amount by more than 0 and at most half a cent per member. |
| Allocation.EqualSplitOverchargeExample | server/controllers/expense.controller.js:167-174 | 200.00 split three ways gives 66.67 each, 200.01 in all. |
| Allocation.EqualSplitRemainderExample | server/controllers/expense.controller.js:167-182 | 100.00 split three ways gives 33.34, 33.33 and 33.33. |
| Allocation.PercentShare | server/controllers/expense.controller.js:197 | A percentage share is within half a cent of p % of the amount. |
| Allocation.PercentageSplit | server/controllers/expense.controller.js:183-199 | Rejected (percentages must sum to 100) exactly when the total misses 100% by more than 0.01 points; otherwise one share per entry, for that entry's user, within half a cent of its percentage of the amount. |
| Allocation.PercentageSplitSum | server/controllers/expense.controller.js:193-199 | Accepted percentage shares are not corrected: their sum is within half a cent per entry of the percentages' total applied to the amount. |
| Allocation.PercentageSplitShortfallExample | server/controllers/expense.controller.js:193-199 | 33.33%, 33.33% and 33.34% of 1.00 are accepted but sum to 0.99. |
| Allocation.ExactSplit | server/controllers/expense.controller.js:200-216 | Rejected (amounts must sum to the total) exactly when the amounts miss the total by more than a cent; otherwise the requested shares are copied verbatim. |
| Allocation.ExactSplitSum | server/controllers/expense.controller.js:202-216 | Accepted exact shares sum to the amount within one cent. |
| Allocation.AllocateOnCreate | server/controllers/expense.controller.js:160-217 | Only a percentage or exact request with a non-empty share list can fail. |
| Allocation.AllocateOnUpdate | server/controllers/expense.controller.js:317-349 | Only the percentage and exact policies can fail. |
| Allocation.CreateEqualOnePerMember | backend/controllers/expense.controller.js:156-178 | The equal policy, or an empty share list, gives one share per roster member in roster order. |
| Allocation.CreateWithoutSplitTypeCreatesNothing | server/controllers/expense.controller.js:160-217 | A non-empty share list with no split type matches no branch and creates no share. |
| Allocation.UpdateEqualCreatesNothing | backend/controllers/expense.controller.js:302-348 | On update, the equal policy recreates no share. |
| Balances.Init | server/services/debt.service.js:22-31 | One entry per roster member, in order, at paid = owed = balance = 0. |
| Balances.Adjust | server/services/debt.service.js:50-57 | Adds to the totals of the user's entry only; a user with no entry changes nothing. |
| Balances.ApplyShares | server/services/debt.service.js:55-59 | Each entry's owed total grows by the sum of that user's share rows. |
| Balances.ApplyExpenses | server/services/debt.service.js:45-60 | Each entry's paid total grows by the expenses the user paid and its owed total by the user's shares of them. |
| Balances.ApplyPayments | server/services/debt.service.js:63-79 | Each entry's paid total grows by the confirmed payments the user sent and its owed total by those the user received. |
| Balances.Finalize | server/services/debt.service.js:82-88 | Every entry keeps its user, paid and owed totals, and its balance becomes paid minus owed. |
| Balances.CalculateBalances | server/services/debt.service.js:9-91 | One entry per roster member, in roster order. Paid is the member's expenses plus confirmed payments sent; owed is the member's shares plus confirmed payments received; balance is paid minus owed. |
| Balances.UntouchedMemberIsZero | server/services/debt.service.js:22-31 | A member no expense, share or confirmed payment mentions ends at all zeros. |
| Balances.UnconfirmedPaymentIgnored | server/services/debt.service.js:63-68 | A pending or rejected payment, wherever it sits in the list, changes no balance. |
| Balances.ConfirmedPaymentEffect | server/services/debt.service.js:71-79 | Appending a confirmed payment adds its amount to the sender's paid total and the receiver's owed total, and nothing else. |
| Balances.NetAdjust | server/services/debt.service.js:50-57 | An adjustment moves the net total by paid − owed when the user has an entry, and not at all otherwise. |
| Balances.NetApplyExpenses | server/services/debt.service.js:45-60 | When every id is known, folding the expenses raises the net total by their discrepancy: amounts minus shares. |
| Balances.NetTransfer | server/services/debt.service.js:71-79 | A confirmed payment between two known members leaves the net total unchanged. |
| Balances.NetApplyPayments | server/services/debt.service.js:63-79 | Folding confirmed payments between known members leaves the net total unchanged. |
| Balances.BalancesSumToDiscrepancy | server/services/debt.service.js:45-88 | With every id on a roster without repeats, the balances sum to the expenses' total discrepancy. |
| Balances.ZeroDiscrepancy | server/services/debt.service.js:45-60 | Fully shared expenses have zero discrepancy. |
| Balances.Conservation | server/services/debt.service.js:45-88 | When every expense's shares sum to its amount and every id is on the roster, the balances sum to zero. |
| Balances.UnknownExpenseIgnored | server/services/debt.service.js:50-57 | An expense whose payer and share holders are all off the roster is skipped silently. |
| Balances.BalancesSharesAgree | server/services/debt.service.js:55-59 | Balances depend on the share table only through the shares of the listed expenses. |
| Settlement.Creditors | server/services/debt.service.js:104-109 | At most one creditor per member, each with a claim above 0.01. |
| Settlement.Debtors | server/services/debt.service.js:110-115 | At most one debtor per member, each with a debt above 0.01. |
| Settlement.CreditorsSound | server/services/debt.service.js:104-109 | Every creditor is a member read as a claim, and every member above 0.01 is a creditor. |
| Settlement.DebtorsSound | server/services/debt.service.js:110-115 | Every debtor is a member read as a debt, and every member below -0.01 is a debtor. |
| Settlement.Remaining | server/services/debt.service.js:139-147 | A party stays, for the same user and with at least a cent left, or is dropped. |
| Settlement.Settle | server/services/debt.service.js:125-148 | Every suggested payment is above 0.01 and goes from a debtor to a creditor. There are at most creditors + debtors − 1 of them, and none when either side is empty. |
| Settlement.SettleIsEmittedMatches | server/services/debt.service.js:129-147 | The suggestions are exactly the matching rounds above 0.01, in order; a round of one cent is consumed without an edge. |
| Settlement.SettleBounded | server/services/debt.service.js:125-148 | No debtor pays more than its debt and no creditor receives more than its claim. |
| Settlement.MatchesExact | server/services/debt.service.js:125-148 | Counting every round, the matching moves the smaller side's total; with equal totals every party is matched exactly. |
| Settlement.CalculateDebts | server/services/debt.service.js:97-151 | Every suggestion is above 0.01; there are at most creditors + debtors − 1, and none without both a creditor and a debtor. |
| Settlement.DebtsJoinDebtorsToCreditors | server/services/debt.service.js:104-137 | Every suggested payment goes from a member below -0.01 to a member above 0.01. |
| Settlement.AmountOfSort | server/services/debt.service.js:119-120 | Sorting keeps every party's amount and the total. |
| Settlement.AmountOfDebtors | server/services/debt.service.js:104-116 | The partition records exactly the member's debt below -0.01 and claim above 0.01, and zero otherwise. |
| Settlement.DebtsBounded | server/services/debt.service.js:104-148 | A member pays at most its debt and receives at most its claim; a member within 0.01 of zero takes part in no suggestion. |
| Settlement.PartitionTotals | server/services/debt.service.js:104-116 | With no balance exactly 0.01 from zero, total claims minus total debts equal the sum of balances. |
| Settlement.DebtsSettleEverything | server/services/debt.service.js:97-151 | With balances summing to zero and none exactly 0.01 from zero, the matching rounds bring every member to zero, and the suggestions are those rounds above 0.01. |
| Settlement.RoundsMatchClaims | server/services/debt.service.js:125-148 | Under the same conditions, each member pays out exactly its debt and receives exactly its claim over all rounds. |
| Settlement.FirstDebtPairsLargest | server/services/debt.service.js:119-137 | The first suggestion goes from the largest debtor to the largest creditor, for the smaller of their two amounts. |
| Settlement.OwesTotal | server/services/debt.service.js:159-163 | The filtered lists' totals are the member's outgoing and incoming sums. |
| Settlement.GetUserDebts | server/services/debt.service.js:156-172 | `owes` holds exactly the suggestions from the member and `owedBy` those to the member. The totals are their sums, and the net is received minus paid. |
| Settlement.UserDebtsBounded | server/services/debt.service.js:156-172 | A member is never told to pay more than its debt nor to expect more than its claim. |
| Settlement.ThreeWaySplitExample | server/services/debt.service.js:97-151 | One member paid 66.66 for three: each of the others pays that member 22.22. |
| Expenses.ShareRows | server/controllers/expense.controller.js:177-181 | One share row per computed share, for the expense, with the share's user and amount. |
| Expenses.ReplaceExpense | server/controllers/expense.controller.js:305 | Only the row with the expense's id is replaced; every other row is kept in place. |
| Expenses.Revise | server/controllers/expense.controller.js:290-303 | A present field overwrites the stored value and an absent one keeps it; id and group never change. |
| Expenses.CreateExpense | server/controllers/expense.controller.js:121-252 | Fails exactly when the requester or the payer is not a member, the policy rejects the shares, or a user gets two shares. Errors come in the source's order. On success it appends the expense, its payer defaulting to the requester, plus one share row per allocated share. |
| Expenses.CreatedShares | server/controllers/expense.controller.js:147-219 | A new expense owns exactly the rows of its allocation, with the same sum. |
| Expenses.CreateEqualExpenseBalanced | server/controllers/expense.controller.js:160-182 | An equal split whose base does not round up gives one share per member, in roster order, summing to the amount. |
| Expenses.CreateKeepsSharesUnique | backend/models/ExpenseShare.js:26-31 | Creating an expense under a fresh id keeps one share row per (expense, user). |
| Expenses.UpdateExpense | server/controllers/expense.controller.js:255-388 | Fails exactly when the requester is not a member, the expense is not in the group, the requester is neither payer nor admin, a new payer is not a member, or a non-empty share list is rejected. Errors come in the source's order. On success the expense row is revised; a non-empty share list replaces all the expense's shares and an empty one keeps them. |
| Expenses.UpdateReplacesShares | server/controllers/expense.controller.js:306-354 | A non-empty share list leaves the expense with exactly the new allocation's rows, and every other expense's rows untouched. |
| Expenses.UpdateUnderEqualDropsShares | server/controllers/expense.controller.js:308-354 | Under the equal policy, after the update, sending shares deletes all the expense's shares and creates none. |
| Expenses.DeleteCheck | server/controllers/expense.controller.js:397-416 | Deletion is allowed exactly when the requester is a member, the expense is in the group, and the requester is its payer or an admin; a member who is neither is refused with the payer-or-admin error. |
| Expenses.DeleteExpense | server/controllers/expense.controller.js:391-431 | Fails exactly when the deletion checks refuse, with the refusal those checks give. On success the expense and exactly its share rows are gone, and everything else stays. |
| Expenses.DeleteExpenseKeepingShares | backend/controllers/expense.controller.js:385-416 | The same checks, failing with the same refusal. On success the expense row is gone and the share table is unchanged. |
| Expenses.DeleteVariantsAgreeOnBalances | backend/controllers/expense.controller.js:410 | The orphan shares the older deletion leaves behind change no group's balances. |
| Payments.SetStatus | server/controllers/balance.controller.js:195 | Only the selected payment's status changes. |
| Payments.CreatePayment | server/controllers/balance.controller.js:105-159 | Fails exactly when the requester or recipient is not a member, or they are the same user, with errors in the source's order. On success it appends a pending payment from the requester, and nothing else changes. |
| Payments.UpdatePaymentStatus | server/controllers/balance.controller.js:162-219 | Fails exactly when the requester is not a member, the payment is not in the group, the requester is not its receiver, or it is no longer pending. Each check has its own error, in that order. On success only that payment's status changes. |
| Payments.DeletePayment | server/controllers/balance.controller.js:222-260 | Fails exactly when the requester is not a member, the payment is not in the group, the requester is neither sender nor admin, or it is no longer pending. Each check has its own error, in that order. On success only that payment is gone. |
| Payments.FindAfterSetStatus | server/controllers/balance.controller.js:195 | After a status change the payment is found again, carrying the new status. |
| Payments.ProcessedPaymentIsFinal | server/controllers/balance.controller.js:189-193 | Once confirmed or rejected, a payment's status cannot change again and the payment cannot be deleted. |
| Payments.CreatePaymentKeepsBalances | server/controllers/balance.controller.js:127-135 | Recording a payment changes no group's balances, since it is pending. |
| Payments.SetStatusSums | server/controllers/balance.controller.js:195 | Moving a pending payment to a status changes the group's confirmed sums by its amount exactly when the status is confirmed. |
| Payments.StatusChangeEffect | server/controllers/balance.controller.js:162-219 | Confirming raises the sender's balance and lowers the receiver's by the amount; rejecting changes no balance; other members are unchanged. |
| Payments.DeletePaymentKeepsBalances | server/controllers/balance.controller.js:222-260 | Withdrawing a payment changes no group's balances. |
| Groups.ToUpper | server/controllers/group.controller.js:217 | Each character is upper-cased in place and the length is kept. |
| Groups.ToUpperIdempotent | server/controllers/group.controller.js:217 | Upper-casing twice is upper-casing once, and no lower-case letter remains. |
| Groups.FindGroupByCode | server/controllers/group.controller.js:216-222 | A found group carries the code; nothing is found exactly when no group has it. |
| Groups.CreateGroup | server/controllers/group.controller.js:71-108 | Fails, writing nothing, exactly when some group already holds the invite code (the unique index of backend/models/Group.js lines 19-22). Otherwise it appends the group row and the creator's admin membership, and nothing else. |
| Groups.CreateGroupSoleAdmin | server/controllers/group.controller.js:76-87 | A successfully created group's only member and only admin is its creator, and the group is found under its id. |
| Groups.CreateGroupKeepsCodesUnique | backend/models/Group.js:19-22 | Creating a group keeps invite codes unique. |
| Groups.UpdateGroup | server/controllers/group.controller.js:111-141 | Fails exactly when the group is missing or the requester is not its admin. On success only the named fields of that group change. |
| Groups.DeleteGroup | server/controllers/group.controller.js:144-208 | Fails exactly when the group is missing or the requester is not its admin. On success the group, its memberships, expenses, payments and its expenses' shares are gone, and all else stays. |
| Groups.DeleteGroupKeepsOtherBalances | server/controllers/group.controller.js:165-202 | Deleting one group leaves every other group's balances unchanged. |
| Groups.JoinGroup | server/controllers/group.controller.js:211-257 | Fails exactly when no group has the upper-cased code (invalid code) or the requester already belongs to it (already a member). On success it adds one plain membership. |
| Groups.JoinGroupAddsMember | server/controllers/group.controller.js:233-237 | The joiner is a plain member, not an admin, and memberships stay unique. |
| Groups.RemoveMember | server/controllers/group.controller.js:282-332 | Fails exactly when the requester is not a member, removes someone else without being an admin, the target is missing, or the target is the last admin. Each check has its own error, in that order. On success exactly the target's membership is gone. |
| Groups.RemoveMemberKeepsAnAdmin | server/controllers/group.controller.js:313-324 | A group with an admin still has one after a removal, and the removed user is no longer a member. |
| Groups.UpdateMemberRole | server/controllers/group.controller.js:335-368 | Fails exactly when the requester is not an admin (admins only) or the target is not a member (member not found). On success only the target's role changes. |
| Groups.DemoteLastAdminExample | server/controllers/group.controller.js:347-359 | As written, the only admin can demote itself, leaving the group with no admin. |
| Groups.UpdateMemberRoleGuarded | server/controllers/group.controller.js:313-324 | The role change with the removal's guard. Wherever the original refuses, it refuses the same way. It refuses in exactly one further case: demoting the last admin, with the last-admin error. Otherwise it gives the original's result. |
| Groups.GuardedRoleChangeKeepsAnAdmin | server/controllers/group.controller.js:335-368 | With the guard, a group that had an admin keeps one. |
| Groups.RegenerateInviteCode | server/controllers/group.controller.js:371-403 | Fails exactly when the group is missing, the requester is not its admin, or another group holds the new code (the unique index), with errors in that order. On success only that group's code changes. |
| Groups.RegenerateKeepsCodesUnique | backend/models/Group.js:19-22 | Regenerating a code keeps invite codes unique, given that group ids are unique. |
| Groups.RegeneratedCodeFindsGroup | server/controllers/group.controller.js:391-394 | After a successful regeneration, looking up the new code finds this group. |
| Statistics.Average | server/controllers/statistics.controller.js:35 | The total over the count to the nearest cent, or 0 when the count is 0. |
| Statistics.AverageOfEqualAmounts | server/controllers/statistics.controller.js:35 | When all n expenses have the same amount, the average is that amount. |
| Statistics.Richest | server/controllers/statistics.controller.js:49-64 | The result is a candidate and no candidate paid more. |
| Statistics.TopSpender | server/controllers/statistics.controller.js:49-64 | None exactly when there is no expense. Otherwise a payer of some expense with its total paid, and no payer paid more. |
| Statistics.GroupStatistics | server/controllers/statistics.controller.js:10-83 | Access is denied exactly to non-members. The total is the sum of the group's expense amounts, the payment total is the sum of its confirmed payments, the count and member count are the table counts, both averages are rounded quotients (0 for a zero count), and the top spender is the member who paid most, present exactly when there are expenses. |
| Statistics.CreatePaymentKeepsTotalPayments | server/controllers/statistics.controller.js:44-46 | Recording a payment leaves the confirmed-payment total unchanged. |
| Statistics.SetStatusConfirmedTotal | server/controllers/statistics.controller.js:44-46 | Moving the one pending payment with a given id to a new status changes the group's confirmed total by its amount exactly when the new status is confirmed. |
| Statistics.StatusChangeTotalPayments | server/controllers/statistics.controller.js:44-46 | Confirming a pending payment raises the confirmed-payment total by its amount; rejecting it leaves the total unchanged. |
| Statistics.Dedup | server/controllers/statistics.controller.js:111 | Each value once, with the same values as the input. |
| Statistics.Categories | server/controllers/statistics.controller.js:104-113 | The categories used by some expense, each once. |
| Statistics.CategoryRows | server/controllers/statistics.controller.js:104-113 | Each row is its category with that category's total and count. |
| Statistics.GroupByCategory | server/controllers/statistics.controller.js:104-113 | The rows are a permutation of the per-category rows, sorted by descending total. |
| Statistics.CategoryShares | server/controllers/statistics.controller.js:115-127 | Category, total and count are kept. The percentage is the share of the grand total in tenths of a percent, to the nearest tenth, or 0 when the grand total is not positive. |
| Statistics.CategoryStatistics | server/controllers/statistics.controller.js:86-133 | Access is denied exactly to non-members; otherwise one entry per category used, ordered by total, largest first, each carrying the percentage column over the grouped rows. |
| Statistics.PercentageBounds | server/controllers/statistics.controller.js:120-127 | A percentage of a non-negative total lies between 0 and 100.0. |
| Statistics.CategoryRowsCover | server/controllers/statistics.controller.js:104-118 | Rows over categories covering every expense sum to all the expenses, in amount and in count. |
| Statistics.RowTotalSort | server/controllers/statistics.controller.js:112-118 | Sorting the rows keeps the grand total and count. |
| Statistics.CategoriesAddUpToSummary | server/controllers/statistics.controller.js:29-32 | The category report's totals and counts add up to the summary's total and expense count. |
| Statistics.CategoryPercentages | server/controllers/statistics.controller.js:120-127 | Each category's percentage is its total over the group's expense total, in tenths of a percent, to the nearest; all are 0 when the group has spent nothing. |
| Statistics.MonthKey | server/controllers/statistics.controller.js:175 | Two decimal digits whose value is the month, as `padStart(2, '0')` writes it. |
| Statistics.MonthKeyInjective | server/controllers/statistics.controller.js:175 | Different months get different keys. |
| Statistics.MonthEntry | server/controllers/statistics.controller.js:174-184 | Month m with its name. It carries the first query row for m, or zeros when there is none. |
| Statistics.FillMonths | server/controllers/statistics.controller.js:168-184 | Exactly twelve entries; entry i is month i + 1 with its name. |
| Statistics.MonthRowReported | server/controllers/statistics.controller.js:176-183 | With one row per month, every row for a real month is reported under it. |
| Statistics.MonthlyStatistics | server/controllers/statistics.controller.js:136-193 | Access is denied exactly to non-members; otherwise the twelve months January to December, each filled from the query row for that month or zero. |
| Statistics.MemberEntries | server/controllers/statistics.controller.js:228-264 | One entry per member, in roster order: what the member paid, what the member owes over the group's expenses, how many expenses the member paid, and a balance of paid minus owed. |
| Statistics.MemberStatistics | server/controllers/statistics.controller.js:196-273 | Access is denied exactly to non-members. Otherwise it is a permutation of the member entries sorted by descending amount paid, and members who paid the same keep their roster order. |
| Statistics.OwedInMatchesOwedFor | server/controllers/statistics.controller.js:240-255 | Reading a member's shares from the share table gives the balance engine's owed total, when expense ids are unique. |
| Statistics.MemberEntriesIgnorePayments | server/controllers/statistics.controller.js:228-264 | Paid and owed match the balance engine without payments; the balance differs from the group balance by exactly the member's confirmed payments. |

## Left out

- Database I/O: queries, transactions, `reload`/`include`, pagination and the read-only list and detail endpoints. The store is a value, and a rolled-back transaction is a `Failure` with no new store.
- Date filters (`startDate`, `endDate`, `year`) in the statistics reports: dates are not modelled, so every report covers all of a group's expenses.
- The monthly report's `strftime` grouping query: its rows are an input to `Statistics.MonthlyStatistics`. Only the twelve-month fill is modelled.
- Statistics.TopSpender: among payers with equal totals it picks the earliest; the SQL `ORDER BY SUM DESC` leaves the tie order to the database.
- Statistics.GroupByCategory: categories with equal totals come out in an order the model fixes (stable sort of the distinct categories), while SQL leaves that order to the database; the contract states the result only up to that permutation.
- Expense dates, notes, descriptions in outputs, and the `user`/`payer` objects that replies include: identities are plain ids.
- Invite-code generation (`crypto.randomBytes`) and generated ids: the new code and the new ids are parameters.
- Groups.ToUpper: upper-cases ASCII letters only; `toUpperCase` also maps other alphabets.
- Authentication (JWT middleware, the auth controller): the requester's id is a parameter.
- Request validation schemas: used only as preconditions (amount of at least 0.01, status confirmed or rejected, eight-character invite code).
- Notifications (web push, e-mail), routes, app wiring, and the client and frontend code: I/O and UI.
- Floating-point artefacts of `toFixed` and `parseFloat`, and `NaN` from a share entry that lacks its `percentage` or `amount`: money is exact integer cents, and a missing number is read as 0.
- Expenses.UpdateExpense: reads an absent field as "keep the stored value". The source also skips `undefined` fields, and it uses `amount || stored amount` for the new shares, which agrees because the amount is positive.
- Expenses.DeleteExpenseKeepingShares: assumes the store neither enforces nor cascades the foreign key from a share's `expense_id` to its expense. backend/models/index.js:42-43 declares the association and backend/models/ExpenseShare.js:10-13 makes the column non-null, but the database and sync settings that would decide this are not part of this model. With `ON DELETE CASCADE` the shares would go with the expense; with an enforced key and no cascade the delete would fail.
- Allocation.PercentageSplit: percentages are whole hundredths of a percent. The request schema (server/middleware/validate.middleware.js:96) accepts any number, so a percentage such as 33.333% has no counterpart in the model.
- Domain.Roster: lists members in the order of the membership table. The source's `GroupMember.findAll({ where: { groupId } })` (server/services/debt.service.js:11-20, server/controllers/expense.controller.js:162-165) has no `order`, so the database decides the order. That order decides which members get the equal split's extra cents (server/controllers/expense.controller.js:170-175), and the order of the balances and member statistics. Every result that depends on roster order is stated for table order.
- Balances.CalculateBalances: keys balances by roster position. The source's object merges two roster entries for one user, but memberships are unique.

## Findings

| source | as written | input that shows it | evidently intended | confidence | as-written member | corrected member |
|---|---|---|---|---|---|---|
| server/controllers/group.controller.js:351-359 | `updateMemberRole` changes the target's role with no last-admin check | Group 1 whose only admin is user 1, and user 1 sets its own role to `member`: the update succeeds and the group has no admin left | the same guard as `removeMember` (lines 313-324): refuse to demote an admin when the admin count is at most 1 | medium, not executed | Groups.DemoteLastAdminExample | Groups.GuardedRoleChangeKeepsAnAdmin |

=== FILE: allocation.dfy ===
/**
 * Share allocation: how an expense amount becomes per-member shares under
 * the three split policies (equal, percentage, exact), as both expense
 * controllers compute it when an expense is created or its shares replaced.
 */
module Allocation {
  import opened Wrappers
  import opened Money
  import opened Seqs
  import opened Domain

  /** A member's computed portion of an expense, before it is stored. */
  datatype Share = Share(userId: UserId, amount: Cents)

  /**
   * One entry of the caller's `shares` list. `percentage` is in hundredths of
   * a percent (10000 is 100%), `amount` in cents; each policy reads one of them.
   */
  datatype ShareRequest = ShareRequest(userId: UserId, percentage: int, amount: Cents)

  /** Percentages are compared with 100% in hundredths of a percent. */
  const FullPercentage: int := 10000

  function SumShares(s: seq<Share>): Cents {
    if |s| == 0 then 0 else s[0].amount + SumShares(s[1..])
  }

  function TotalPercentage(reqs: seq<ShareRequest>): int {
    if |reqs| == 0 then 0 else reqs[0].percentage + TotalPercentage(reqs[1..])
  }

  function TotalRequested(reqs: seq<ShareRequest>): Cents {
    if |reqs| == 0 then 0 else reqs[0].amount + TotalRequested(reqs[1..])
  }

  // ---------------------------------------------------------------------
  // Equal split
  // ---------------------------------------------------------------------

  /**
   * Hands out `base` to each user in order, plus one extra cent to each user
   * visited while the running `remainder` is still positive.
   */
  function Distribute(users: seq<UserId>, base: Cents, remainder: int): (r: seq<Share>)
    ensures |r| == |users|
    ensures forall i :: 0 <= i < |r| ==> r[i].userId == users[i]
    ensures forall i :: 0 <= i < |r| ==>
              r[i].amount == (if i < remainder then base + 1 else base)
  {
    if |users| == 0 then []
    else if remainder > 0 then
      [Share(users[0], base + 1)] + Distribute(users[1..], base, remainder - 1)
    else
      [Share(users[0], base)] + Distribute(users[1..], base, remainder)
  }

  /** The per-member amount of an equal split: the amount over n, to the nearest cent. */
  function EqualBase(amount: Cents, n: nat): (base: Cents)
    requires n > 0
    ensures -(n as int) <= 2 * (amount - base * n) <= n
  {
    RoundDiv(amount, n)
  }

  /**
   * One share per roster member, in roster order. With an empty roster the
   * division yields no number and the loop over members creates nothing.
   */
  function EqualSplit(roster: seq<UserId>, amount: Cents): (r: seq<Share>)
    ensures |r| == |roster|
    ensures forall i :: 0 <= i < |r| ==> r[i].userId == roster[i]
    ensures forall i, j :: 0 <= i < |r| && 0 <= j < |r| ==> r[i].amount - r[j].amount <= 1
  {
    if |roster| == 0 then []
    else
      var base := EqualBase(amount, |roster|);
      Distribute(roster, base, amount - base * |roster|)
  }

  /** How many members receive the extra cent: the positive part of the remainder, at most n. */
  function Extra(remainder: int, n: nat): nat {
    if remainder <= 0 then 0 else if remainder >= n then n else remainder
  }

  lemma MulSucc(a: int, n: nat)
    ensures a * (n + 1) == a + a * n
  {
  }

  lemma {:induction false} DistributeSum(users: seq<UserId>, base: Cents, remainder: int)
    ensures SumShares(Distribute(users, base, remainder)) == base * |users| + Extra(remainder, |users|)
  {
    if |users| > 0 {
      var n := |users| - 1;
      var rest := if remainder > 0 then remainder - 1 else remainder;
      var d := Distribute(users, base, remainder);
      assert d[1..] == Distribute(users[1..], base, rest);
      DistributeSum(users[1..], base, rest);
      assert SumShares(d) == d[0].amount + base * n + Extra(rest, n);
      MulSucc(base, n);
      assert d[0].amount + Extra(rest, n) == base + Extra(remainder, n + 1);
    }
  }

  lemma {:induction false} SumSharesAppend(a: seq<Share>, b: seq<Share>)
    ensures SumShares(a + b) == SumShares(a) + SumShares(b)
  {
    if |a| == 0 {
      assert a + b == b;
    } else {
      assert (a + b)[1..] == a[1..] + b;
      SumSharesAppend(a[1..], b);
    }
  }

  lemma SumSharesThree(x: Share, y: Share, z: Share)
    ensures SumShares([x, y, z]) == x.amount + y.amount + z.amount
  {
    assert [x, y, z][1..] == [y, z];
    assert [y, z][1..] == [z];
    assert [z][1..] == [];
    assert SumShares([z]) == z.amount;
    assert SumShares([y, z]) == y.amount + z.amount;
  }

  /**
   * When the rounded base is not above the exact quotient, the extra cents go
   * to the first members and the shares add up to the amount exactly.
   */
  lemma EqualSplitExact(roster: seq<UserId>, amount: Cents)
    requires |roster| > 0
    requires EqualBase(amount, |roster|) * |roster| <= amount
    ensures SumShares(EqualSplit(roster, amount)) == amount
    ensures forall i :: 0 <= i < |roster| ==>
              EqualSplit(roster, amount)[i].amount
              == EqualBase(amount, |roster|) + (if i < amount - EqualBase(amount, |roster|) * |roster| then 1 else 0)
  {
    var n := |roster|;
    var base := EqualBase(amount, n);
    DistributeSum(roster, base, amount - base * n);
  }

  /**
   * When the base rounded up, the remainder is negative and never handed
   * back: every member pays the base and the shares exceed the amount by
   * the (negative) remainder, less than half a cent per member.
   */
  lemma EqualSplitRoundedUp(roster: seq<UserId>, amount: Cents)
    requires |roster| > 0
    requires EqualBase(amount, |roster|) * |roster| > amount
    ensures forall i :: 0 <= i < |roster| ==>
              EqualSplit(roster, amount)[i].amount == EqualBase(amount, |roster|)
    ensures SumShares(EqualSplit(roster, amount)) == EqualBase(amount, |roster|) * |roster|
    ensures 0 < 2 * (SumShares(EqualSplit(roster, amount)) - amount) <= |roster|
  {
    var n := |roster|;
    var base := EqualBase(amount, n);
    DistributeSum(roster, base, amount - base * n);
  }

  /** 200.00 split three ways gives 66.67 each, 200.01 in all. */
  lemma EqualSplitOverchargeExample(a: UserId, b: UserId, c: UserId)
    ensures EqualSplit([a, b, c], 20000) == [Share(a, 6667), Share(b, 6667), Share(c, 6667)]
    ensures SumShares(EqualSplit([a, b, c], 20000)) == 20001
  {
    assert EqualBase(20000, 3) == 6667;
    var r := EqualSplit([a, b, c], 20000);
    assert r[0].amount == 6667 && r[1].amount == 6667 && r[2].amount == 6667;
    assert r == [Share(a, 6667), Share(b, 6667), Share(c, 6667)];
    SumSharesThree(Share(a, 6667), Share(b, 6667), Share(c, 6667));
  }

  /** 100.00 split three ways gives 33.34, 33.33, 33.33: the first member takes the cent. */
  lemma EqualSplitRemainderExample(a: UserId, b: UserId, c: UserId)
    ensures EqualSplit([a, b, c], 10000) == [Share(a, 3334), Share(b, 3333), Share(c, 3333)]
  {
    assert EqualBase(10000, 3) == 3333;
    var r := EqualSplit([a, b, c], 10000);
    assert r[0].amount == 3334 && r[1].amount == 3333 && r[2].amount == 3333;
  }

  // ---------------------------------------------------------------------
  // Percentage and exact splits
  // ---------------------------------------------------------------------

  function PercentShare(r: ShareRequest, amount: Cents): (s: Share)
    ensures s.userId == r.userId
    ensures -FullPercentage <= 2 * (s.amount * FullPercentage - r.percentage * amount) <= FullPercentage
  {
    Share(r.userId, RoundDiv(r.percentage * amount, FullPercentage))
  }

  /**
   * Rejects percentages that miss 100% by more than 0.01 points; otherwise
   * one share per entry, each its percentage of the amount to the nearest cent.
   */
  function PercentageSplit(reqs: seq<ShareRequest>, amount: Cents): (r: Result<seq<Share>, Error>)
    ensures r.Failure? <==> Abs(TotalPercentage(reqs) - FullPercentage) > 1
    ensures r.Failure? ==> r.error == PercentagesMustSumTo100
    ensures r.Success? ==> |r.value| == |reqs|
    ensures r.Success? ==> forall i :: 0 <= i < |reqs| ==>
              r.value[i].userId == reqs[i].userId
              && -FullPercentage <= 2 * (r.value[i].amount * FullPercentage - reqs[i].percentage * amount) <= FullPercentage
  {
    if Abs(TotalPercentage(reqs) - FullPercentage) > 1 then Failure(PercentagesMustSumTo100)
    else Success(Map(reqs, (q: ShareRequest) => PercentShare(q, amount)))
  }

  /** Rejects amounts that miss the total by more than a cent; otherwise copies them verbatim. */
  function ExactSplit(reqs: seq<ShareRequest>, amount: Cents): (r: Result<seq<Share>, Error>)
    ensures r.Failure? <==> Abs(TotalRequested(reqs) - amount) > 1
    ensures r.Failure? ==> r.error == SharesMustSumToAmount
    ensures r.Success? ==> |r.value| == |reqs|
    ensures r.Success? ==> forall i :: 0 <= i < |reqs| ==>
              r.value[i] == Share(reqs[i].userId, reqs[i].amount)
  {
    if Abs(TotalRequested(reqs) - amount) > 1 then Failure(SharesMustSumToAmount)
    else Success(Map(reqs, (q: ShareRequest) => Share(q.userId, q.amount)))
  }

  lemma {:induction false} ExactSum(reqs: seq<ShareRequest>, shares: seq<Share>)
    requires |shares| == |reqs|
    requires forall i :: 0 <= i < |reqs| ==> shares[i].amount == reqs[i].amount
    ensures SumShares(shares) == TotalRequested(reqs)
  {
    if |reqs| > 0 {
      ExactSum(reqs[1..], shares[1..]);
    }
  }

  /** Accepted exact shares add up to the amount within one cent. */
  lemma ExactSplitSum(reqs: seq<ShareRequest>, amount: Cents)
    requires ExactSplit(reqs, amount).Success?
    ensures WithinOneCent(SumShares(ExactSplit(reqs, amount).value), amount)
  {
    ExactSum(reqs, ExactSplit(reqs, amount).value);
  }

  lemma {:induction false} PercentSum(reqs: seq<ShareRequest>, shares: seq<Share>, amount: Cents)
    requires |shares| == |reqs|
    requires forall i :: 0 <= i < |reqs| ==>
               -FullPercentage <= 2 * (shares[i].amount * FullPercentage - reqs[i].percentage * amount) <= FullPercentage
    ensures -FullPercentage * |reqs| <= 2 * (SumShares(shares) * FullPercentage - TotalPercentage(reqs) * amount)
                                     <= FullPercentage * |reqs|
  {
    if |reqs| > 0 {
      PercentSum(reqs[1..], shares[1..], amount);
      assert SumShares(shares) * FullPercentage
             == shares[0].amount * FullPercentage + SumShares(shares[1..]) * FullPercentage;
      assert TotalPercentage(reqs) * amount
             == reqs[0].percentage * amount + TotalPercentage(reqs[1..]) * amount;
    }
  }

  /**
   * Percentage shares are not corrected to add up to the amount: their sum is
   * only within half a cent per entry of the percentages' total share.
   */
  lemma PercentageSplitSum(reqs: seq<ShareRequest>, amount: Cents)
    requires PercentageSplit(reqs, amount).Success?
    ensures -FullPercentage * |reqs|
            <= 2 * (SumShares(PercentageSplit(reqs, amount).value) * FullPercentage - TotalPercentage(reqs) * amount)
            <= FullPercentage * |reqs|
  {
    PercentSum(reqs, PercentageSplit(reqs, amount).value, amount);
  }

  /** 33.33%, 33.33% and 33.34% of 1.00 are each 0.33: the shares total 0.99. */
  lemma PercentageSplitShortfallExample(a: UserId, b: UserId, c: UserId)
    ensures PercentageSplit([ShareRequest(a, 3333, 0), ShareRequest(b, 3333, 0), ShareRequest(c, 3334, 0)], 100).Success?
    ensures SumShares(PercentageSplit([ShareRequest(a, 3333, 0), ShareRequest(b, 3333, 0), ShareRequest(c, 3334, 0)], 100).value) == 99
  {
    var reqs := [ShareRequest(a, 3333, 0), ShareRequest(b, 3333, 0), ShareRequest(c, 3334, 0)];
    assert reqs[1..] == [ShareRequest(b, 3333, 0), ShareRequest(c, 3334, 0)];
    assert reqs[1..][1..] == [ShareRequest(c, 3334, 0)];
    assert reqs[1..][1..][1..] == [];
    assert TotalPercentage(reqs[1..][1..]) == 3334;
    assert TotalPercentage(reqs[1..]) == 6667;
    assert TotalPercentage(reqs) == 10000;
    var r := PercentageSplit(reqs, 100).value;
    assert r[0].amount == 33 && r[1].amount == 33 && r[2].amount == 33;
    assert r == [r[0], r[1], r[2]];
    SumSharesThree(r[0], r[1], r[2]);
  }

  // ---------------------------------------------------------------------
  // Policy selection
  // ---------------------------------------------------------------------

  /**
   * The allocation a new expense gets. Equal is chosen when asked for or when
   * no shares are supplied; with shares but no split type, no branch applies
   * and no share is created.
   */
  function AllocateOnCreate(roster: seq<UserId>, amount: Cents, splitType: Option<SplitType>,
                            reqs: seq<ShareRequest>): (r: Result<seq<Share>, Error>)
    ensures r.Failure? ==> |reqs| > 0 && (splitType == Some(Percentage) || splitType == Some(Exact))
  {
    if splitType == Some(Equal) || |reqs| == 0 then Success(EqualSplit(roster, amount))
    else if splitType == Some(Percentage) then PercentageSplit(reqs, amount)
    else if splitType == Some(Exact) then ExactSplit(reqs, amount)
    else Success([])
  }

  /**
   * The allocation that replaces an expense's shares on update, by the split
   * type the expense has after the update. The equal policy has no branch
   * here, so it recreates nothing.
   */
  function AllocateOnUpdate(splitType: SplitType, reqs: seq<ShareRequest>, amount: Cents): (r: Result<seq<Share>, Error>)
    ensures r.Failure? ==> splitType != Equal
  {
    match splitType
    case Percentage => PercentageSplit(reqs, amount)
    case Exact => ExactSplit(reqs, amount)
    case Equal => Success([])
  }

  /** Equal split, or no shares supplied, gives exactly one share per roster member, in order. */
  lemma CreateEqualOnePerMember(roster: seq<UserId>, amount: Cents, splitType: Option<SplitType>,
                                reqs: seq<ShareRequest>)
    requires splitType == Some(Equal) || |reqs| == 0
    ensures AllocateOnCreate(roster, amount, splitType, reqs).Success?
    ensures |AllocateOnCreate(roster, amount, splitType, reqs).value| == |roster|
    ensures forall i :: 0 <= i < |roster| ==>
              AllocateOnCreate(roster, amount, splitType, reqs).value[i].userId == roster[i]
  {
  }

  /** A non-empty share list without a split type creates no shares at all. */
  lemma CreateWithoutSplitTypeCreatesNothing(roster: seq<UserId>, amount: Cents, reqs: seq<ShareRequest>)
    requires |reqs| > 0
    ensures AllocateOnCreate(roster, amount, None, reqs) == Success([])
  {
  }

  /** On update under the equal policy, the old shares are replaced by nothing. */
  lemma UpdateEqualCreatesNothing(reqs: seq<ShareRequest>, amount: Cents)
    ensures AllocateOnUpdate(Equal, reqs, amount) == Success([])
  {
  }
}

=== FILE: balances.dfy ===
/**
 * Balance aggregation: one (paid, owed, balance) entry per group member,
 * folded over the group's expenses, their shares and its confirmed payments.
 * Ids that are not on the roster are skipped without complaint.
 */
module Balances {
  import opened Money
  import opened Seqs
  import opened Domain

  /** A member's totals; `balance` is positive when others owe this member. */
  datatype Balance = Balance(user: UserId, totalPaid: Cents, totalOwed: Cents, balance: Cents)

  predicate HasUser(bs: seq<Balance>, u: UserId) {
    exists i :: 0 <= i < |bs| && bs[i].user == u
  }

  predicate DistinctUsers(bs: seq<Balance>) {
    forall i, j :: 0 <= i < j < |bs| ==> bs[i].user != bs[j].user
  }

  // ---------------------------------------------------------------------
  // Reference sums: what each member's totals should come to
  // ---------------------------------------------------------------------

  /** Total of the expenses `u` paid for. */
  function PaidFor(expenses: seq<ExpenseRow>, u: UserId): Cents {
    if |expenses| == 0 then 0
    else (if expenses[0].paidBy == u then expenses[0].amount else 0) + PaidFor(expenses[1..], u)
  }

  /** Total of the share rows that belong to `u`. */
  function ShareTotalFor(shares: seq<ShareRow>, u: UserId): Cents {
    if |shares| == 0 then 0
    else (if shares[0].userId == u then shares[0].amount else 0) + ShareTotalFor(shares[1..], u)
  }

  /** Total of `u`'s shares over the given expenses. */
  function OwedFor(expenses: seq<ExpenseRow>, shareTable: seq<ShareRow>, u: UserId): Cents {
    if |expenses| == 0 then 0
    else ShareTotalFor(SharesOf(shareTable, expenses[0].id), u) + OwedFor(expenses[1..], shareTable, u)
  }

  /** Total of the confirmed payments `u` sent. */
  function SentBy(payments: seq<PaymentRow>, u: UserId): Cents {
    if |payments| == 0 then 0
    else (if payments[0].status == Confirmed && payments[0].fromUser == u then payments[0].amount else 0)
         + SentBy(payments[1..], u)
  }

  /** Total of the confirmed payments `u` received. */
  function ReceivedBy(payments: seq<PaymentRow>, u: UserId): Cents {
    if |payments| == 0 then 0
    else (if payments[0].status == Confirmed && payments[0].toUser == u then payments[0].amount else 0)
         + ReceivedBy(payments[1..], u)
  }

  function SumRows(shares: seq<ShareRow>): Cents {
    if |shares| == 0 then 0 else shares[0].amount + SumRows(shares[1..])
  }

  // ---------------------------------------------------------------------
  // The fold
  // ---------------------------------------------------------------------

  /** Every roster member starts at paid = owed = balance = 0. */
  function Init(roster: seq<UserId>): (r: seq<Balance>)
    ensures |r| == |roster|
    ensures forall i :: 0 <= i < |r| ==> r[i] == Balance(roster[i], 0, 0, 0)
  {
    seq(|roster|, i requires 0 <= i < |roster| => Balance(roster[i], 0, 0, 0))
  }

  /** Adds to the totals of `u`'s entry; a user without an entry is skipped. */
  function Adjust(bs: seq<Balance>, u: UserId, paid: Cents, owed: Cents): (r: seq<Balance>)
    ensures |r| == |bs|
    ensures forall i :: 0 <= i < |bs| ==>
              r[i].user == bs[i].user && r[i].balance == bs[i].balance
              && r[i].totalPaid == bs[i].totalPaid + (if bs[i].user == u then paid else 0)
              && r[i].totalOwed == bs[i].totalOwed + (if bs[i].user == u then owed else 0)
  {
    seq(|bs|, i requires 0 <= i < |bs| =>
      if bs[i].user == u
      then bs[i].(totalPaid := bs[i].totalPaid + paid, totalOwed := bs[i].totalOwed + owed)
      else bs[i])
  }

  /** Adds each share to its holder's `totalOwed`. */
  function ApplyShares(bs: seq<Balance>, shares: seq<ShareRow>): (r: seq<Balance>)
    ensures |r| == |bs|
    ensures forall i :: 0 <= i < |bs| ==>
              r[i].user == bs[i].user && r[i].balance == bs[i].balance
              && r[i].totalPaid == bs[i].totalPaid
              && r[i].totalOwed == bs[i].totalOwed + ShareTotalFor(shares, bs[i].user)
    decreases |shares|
  {
    if |shares| == 0 then bs
    else ApplyShares(Adjust(bs, shares[0].userId, 0, shares[0].amount), shares[1..])
  }

  /** For each expense: the amount to the payer's `totalPaid`, each share to its holder's `totalOwed`. */
  function ApplyExpenses(bs: seq<Balance>, expenses: seq<ExpenseRow>, shareTable: seq<ShareRow>): (r: seq<Balance>)
    ensures |r| == |bs|
    ensures forall i :: 0 <= i < |bs| ==>
              r[i].user == bs[i].user && r[i].balance == bs[i].balance
              && r[i].totalPaid == bs[i].totalPaid + PaidFor(expenses, bs[i].user)
              && r[i].totalOwed == bs[i].totalOwed + OwedFor(expenses, shareTable, bs[i].user)
    decreases |expenses|
  {
    if |expenses| == 0 then bs
    else
      var e := expenses[0];
      ApplyExpenses(ApplyShares(Adjust(bs, e.paidBy, e.amount, 0), SharesOf(shareTable, e.id)),
                    expenses[1..], shareTable)
  }

  /** For each confirmed payment: the amount to the sender's `totalPaid` and the receiver's `totalOwed`. */
  function ApplyPayments(bs: seq<Balance>, payments: seq<PaymentRow>): (r: seq<Balance>)
    ensures |r| == |bs|
    ensures forall i :: 0 <= i < |bs| ==>
              r[i].user == bs[i].user && r[i].balance == bs[i].balance
              && r[i].totalPaid == bs[i].totalPaid + SentBy(payments, bs[i].user)
              && r[i].totalOwed == bs[i].totalOwed + ReceivedBy(payments, bs[i].user)
    decreases |payments|
  {
    if |payments| == 0 then bs
    else
      var p := payments[0];
      var next := if p.status == Confirmed
                  then Adjust(Adjust(bs, p.fromUser, p.amount, 0), p.toUser, 0, p.amount)
                  else bs;
      ApplyPayments(next, payments[1..])
  }

  /** Sets each entry's balance to paid minus owed (both already whole cents). */
  function Finalize(bs: seq<Balance>): (r: seq<Balance>)
    ensures |r| == |bs|
    ensures forall i :: 0 <= i < |bs| ==>
              && r[i].user == bs[i].user && r[i].totalPaid == bs[i].totalPaid && r[i].totalOwed == bs[i].totalOwed
              && r[i].balance == bs[i].totalPaid - bs[i].totalOwed
  {
    seq(|bs|, i requires 0 <= i < |bs| => bs[i].(balance := bs[i].totalPaid - bs[i].totalOwed))
  }

  /**
   * The balances of a group given its roster, its expenses, the share table
   * and its payments: one entry per roster member, in roster order, whose
   * totals are that member's reference sums and whose balance is their difference.
   */
  function CalculateBalances(roster: seq<UserId>, expenses: seq<ExpenseRow>, shareTable: seq<ShareRow>,
                             payments: seq<PaymentRow>): (r: seq<Balance>)
    ensures |r| == |roster|
    ensures forall i :: 0 <= i < |roster| ==>
              && r[i].user == roster[i]
              && r[i].totalPaid == PaidFor(expenses, roster[i]) + SentBy(payments, roster[i])
              && r[i].totalOwed == OwedFor(expenses, shareTable, roster[i]) + ReceivedBy(payments, roster[i])
              && r[i].balance == r[i].totalPaid - r[i].totalOwed
  {
    Finalize(ApplyPayments(ApplyExpenses(Init(roster), expenses, shareTable), payments))
  }

  /** The balances of group `g` as stored. */
  function GroupBalances(db: Db, g: GroupId): (r: seq<Balance>)
    ensures |r| == |Roster(db, g)|
  {
    CalculateBalances(Roster(db, g), GroupExpenses(db, g), db.shares, GroupPayments(db, g))
  }

  // ---------------------------------------------------------------------
  // Properties
  // ---------------------------------------------------------------------

  /** A member no expense, share or confirmed payment mentions ends at zero. */
  lemma UntouchedMemberIsZero(roster: seq<UserId>, expenses: seq<ExpenseRow>, shareTable: seq<ShareRow>,
                              payments: seq<PaymentRow>, i: nat)
    requires i < |roster|
    requires PaidFor(expenses, roster[i]) == 0 && OwedFor(expenses, shareTable, roster[i]) == 0
    requires SentBy(payments, roster[i]) == 0 && ReceivedBy(payments, roster[i]) == 0
    ensures CalculateBalances(roster, expenses, shareTable, payments)[i] == Balance(roster[i], 0, 0, 0)
  {
  }

  lemma {:induction false} SentByAppend(p1: seq<PaymentRow>, p2: seq<PaymentRow>, u: UserId)
    ensures SentBy(p1 + p2, u) == SentBy(p1, u) + SentBy(p2, u)
    ensures ReceivedBy(p1 + p2, u) == ReceivedBy(p1, u) + ReceivedBy(p2, u)
  {
    if |p1| == 0 {
      assert p1 + p2 == p2;
    } else {
      assert (p1 + p2)[1..] == p1[1..] + p2;
      SentByAppend(p1[1..], p2, u);
    }
  }

  /** A payment that is pending or rejected changes no balance, wherever it sits. */
  lemma UnconfirmedPaymentIgnored(roster: seq<UserId>, expenses: seq<ExpenseRow>, shareTable: seq<ShareRow>,
                                  p1: seq<PaymentRow>, p: PaymentRow, p2: seq<PaymentRow>)
    requires p.status != Confirmed
    ensures CalculateBalances(roster, expenses, shareTable, p1 + [p] + p2)
            == CalculateBalances(roster, expenses, shareTable, p1 + p2)
  {
    var a := CalculateBalances(roster, expenses, shareTable, p1 + [p] + p2);
    var b := CalculateBalances(roster, expenses, shareTable, p1 + p2);
    forall i | 0 <= i < |roster|
      ensures a[i] == b[i]
    {
      SentByAppend(p1 + [p], p2, roster[i]);
      SentByAppend(p1, [p], roster[i]);
      SentByAppend(p1, p2, roster[i]);
      assert [p][1..] == [];
    }
  }

  /**
   * Appending a confirmed payment adds its amount to the sender's paid total
   * and to the receiver's owed total, and changes nothing else.
   */
  lemma ConfirmedPaymentEffect(roster: seq<UserId>, expenses: seq<ExpenseRow>, shareTable: seq<ShareRow>,
                               payments: seq<PaymentRow>, p: PaymentRow)
    requires p.status == Confirmed
    ensures forall i :: 0 <= i < |roster| ==>
              var a := CalculateBalances(roster, expenses, shareTable, payments + [p])[i];
              var b := CalculateBalances(roster, expenses, shareTable, payments)[i];
              && a.totalPaid == b.totalPaid + (if roster[i] == p.fromUser then p.amount else 0)
              && a.totalOwed == b.totalOwed + (if roster[i] == p.toUser then p.amount else 0)
  {
    var a := CalculateBalances(roster, expenses, shareTable, payments + [p]);
    var b := CalculateBalances(roster, expenses, shareTable, payments);
    forall i | 0 <= i < |roster|
      ensures a[i].totalPaid == b[i].totalPaid + (if roster[i] == p.fromUser then p.amount else 0)
      ensures a[i].totalOwed == b[i].totalOwed + (if roster[i] == p.toUser then p.amount else 0)
    {
      SentByAppend(payments, [p], roster[i]);
      assert [p][1..] == [];
    }
  }

  // ---------------------------------------------------------------------
  // Conservation
  // ---------------------------------------------------------------------

  /** Sum of paid minus owed over all entries. */
  function NetTotal(bs: seq<Balance>): int {
    if |bs| == 0 then 0 else bs[0].totalPaid - bs[0].totalOwed + NetTotal(bs[1..])
  }

  function BalanceTotal(bs: seq<Balance>): int {
    if |bs| == 0 then 0 else bs[0].balance + BalanceTotal(bs[1..])
  }

  lemma {:induction false} NetAdjust(bs: seq<Balance>, u: UserId, paid: Cents, owed: Cents)
    requires DistinctUsers(bs)
    ensures NetTotal(Adjust(bs, u, paid, owed)) == NetTotal(bs) + (if HasUser(bs, u) then paid - owed else 0)
  {
    if |bs| > 0 {
      var r := Adjust(bs, u, paid, owed);
      assert r[1..] == Adjust(bs[1..], u, paid, owed);
      NetAdjust(bs[1..], u, paid, owed);
      if bs[0].user == u {
        assert !HasUser(bs[1..], u);
      } else if HasUser(bs, u) {
        var k :| 0 <= k < |bs| && bs[k].user == u;
        assert bs[1..][k - 1].user == u;
      }
    }
  }

  lemma {:induction false} NetApplyShares(bs: seq<Balance>, shares: seq<ShareRow>)
    requires DistinctUsers(bs)
    requires forall k :: 0 <= k < |shares| ==> HasUser(bs, shares[k].userId)
    ensures NetTotal(ApplyShares(bs, shares)) == NetTotal(bs) - SumRows(shares)
    decreases |shares|
  {
    if |shares| > 0 {
      var next := Adjust(bs, shares[0].userId, 0, shares[0].amount);
      NetAdjust(bs, shares[0].userId, 0, shares[0].amount);
      assert forall k :: 0 <= k < |shares[1..]| ==> HasUser(next, shares[1..][k].userId) by {
        forall k | 0 <= k < |shares[1..]|
          ensures HasUser(next, shares[1..][k].userId)
        {
          assert HasUser(bs, shares[k + 1].userId);
          var j :| 0 <= j < |bs| && bs[j].user == shares[k + 1].userId;
          assert next[j].user == shares[k + 1].userId;
        }
      }
      NetApplyShares(next, shares[1..]);
    }
  }

  /** Every id the expenses, their shares and the confirmed payments mention has an entry. */
  predicate AllKnown(bs: seq<Balance>, expenses: seq<ExpenseRow>, shareTable: seq<ShareRow>, payments: seq<PaymentRow>) {
    && (forall e :: e in expenses ==> HasUser(bs, e.paidBy))
    && (forall e, s :: e in expenses && s in SharesOf(shareTable, e.id) ==> HasUser(bs, s.userId))
    && (forall p :: p in payments && p.status == Confirmed ==> HasUser(bs, p.fromUser) && HasUser(bs, p.toUser))
  }

  /** The sum of (amount minus share total) over the expenses: zero when every expense is fully shared. */
  function Discrepancy(expenses: seq<ExpenseRow>, shareTable: seq<ShareRow>): int {
    if |expenses| == 0 then 0
    else expenses[0].amount - SumRows(SharesOf(shareTable, expenses[0].id)) + Discrepancy(expenses[1..], shareTable)
  }

  lemma SameUsers(a: seq<Balance>, b: seq<Balance>)
    requires |a| == |b|
    requires forall i :: 0 <= i < |a| ==> a[i].user == b[i].user
    ensures forall u :: HasUser(a, u) <==> HasUser(b, u)
    ensures DistinctUsers(a) <==> DistinctUsers(b)
  {
    forall u
      ensures HasUser(a, u) <==> HasUser(b, u)
    {
      if HasUser(a, u) {
        var k :| 0 <= k < |a| && a[k].user == u;
        assert b[k].user == u;
      }
      if HasUser(b, u) {
        var k :| 0 <= k < |b| && b[k].user == u;
        assert a[k].user == u;
      }
    }
  }

  lemma {:induction false} NetApplyExpenses(bs: seq<Balance>, expenses: seq<ExpenseRow>, shareTable: seq<ShareRow>)
    requires DistinctUsers(bs)
    requires forall e :: e in expenses ==> HasUser(bs, e.paidBy)
    requires forall e, s :: e in expenses && s in SharesOf(shareTable, e.id) ==> HasUser(bs, s.userId)
    ensures NetTotal(ApplyExpenses(bs, expenses, shareTable)) == NetTotal(bs) + Discrepancy(expenses, shareTable)
    decreases |expenses|
  {
    if |expenses| > 0 {
      var e := expenses[0];
      var paid := Adjust(bs, e.paidBy, e.amount, 0);
      var shares := SharesOf(shareTable, e.id);
      var next := ApplyShares(paid, shares);
      NetAdjust(bs, e.paidBy, e.amount, 0);
      SameUsers(bs, paid);
      SameUsers(paid, next);
      NetApplyShares(paid, shares);
      NetApplyExpenses(next, expenses[1..], shareTable);
    }
  }

  /** A transfer between two members moves money without changing the net total. */
  lemma NetTransfer(bs: seq<Balance>, from: UserId, to: UserId, amount: Cents)
    requires DistinctUsers(bs) && HasUser(bs, from) && HasUser(bs, to)
    ensures NetTotal(Adjust(Adjust(bs, from, amount, 0), to, 0, amount)) == NetTotal(bs)
    ensures forall u :: HasUser(Adjust(Adjust(bs, from, amount, 0), to, 0, amount), u) <==> HasUser(bs, u)
    ensures DistinctUsers(Adjust(Adjust(bs, from, amount, 0), to, 0, amount))
  {
    var sent := Adjust(bs, from, amount, 0);
    var next := Adjust(sent, to, 0, amount);
    NetAdjust(bs, from, amount, 0);
    SameUsers(bs, sent);
    SameUsers(sent, next);
    NetAdjust(sent, to, 0, amount);
  }

  lemma {:induction false} NetApplyPayments(bs: seq<Balance>, payments: seq<PaymentRow>)
    requires DistinctUsers(bs)
    requires forall p :: p in payments && p.status == Confirmed ==> HasUser(bs, p.fromUser) && HasUser(bs, p.toUser)
    ensures NetTotal(ApplyPayments(bs, payments)) == NetTotal(bs)
    decreases |payments|
  {
    if |payments| > 0 {
      var p := payments[0];
      if p.status == Confirmed {
        var next := Adjust(Adjust(bs, p.fromUser, p.amount, 0), p.toUser, 0, p.amount);
        NetTransfer(bs, p.fromUser, p.toUser, p.amount);
        NetApplyPayments(next, payments[1..]);
      } else {
        NetApplyPayments(bs, payments[1..]);
      }
    }
  }

  lemma {:induction false} NetFinalize(bs: seq<Balance>)
    ensures BalanceTotal(Finalize(bs)) == NetTotal(bs)
  {
    if |bs| > 0 {
      assert Finalize(bs)[1..] == Finalize(bs[1..]);
      NetFinalize(bs[1..]);
    }
  }

  lemma {:induction false} NetInit(roster: seq<UserId>)
    ensures NetTotal(Init(roster)) == 0
  {
    if |roster| > 0 {
      assert Init(roster)[1..] == Init(roster[1..]);
      NetInit(roster[1..]);
    }
  }

  /**
   * When every id is on a roster without repeats, the balances add up to the
   * expenses' total discrepancy: what was charged but not shared out.
   */
  lemma BalancesSumToDiscrepancy(roster: seq<UserId>, expenses: seq<ExpenseRow>, shareTable: seq<ShareRow>,
                                 payments: seq<PaymentRow>)
    requires Distinct(roster)
    requires forall e :: e in expenses ==> e.paidBy in roster
    requires forall e, s :: e in expenses && s in SharesOf(shareTable, e.id) ==> s.userId in roster
    requires forall p :: p in payments && p.status == Confirmed ==> p.fromUser in roster && p.toUser in roster
    ensures BalanceTotal(CalculateBalances(roster, expenses, shareTable, payments)) == Discrepancy(expenses, shareTable)
  {
    var init := Init(roster);
    forall u | u in roster
      ensures HasUser(init, u)
    {
      var k :| 0 <= k < |roster| && roster[k] == u;
      assert init[k].user == u;
    }
    NetInit(roster);
    NetApplyExpenses(init, expenses, shareTable);
    var afterExpenses := ApplyExpenses(init, expenses, shareTable);
    SameUsers(init, afterExpenses);
    NetApplyPayments(afterExpenses, payments);
    NetFinalize(ApplyPayments(afterExpenses, payments));
  }

  lemma {:induction false} ZeroDiscrepancy(expenses: seq<ExpenseRow>, shareTable: seq<ShareRow>)
    requires forall e :: e in expenses ==> SumRows(SharesOf(shareTable, e.id)) == e.amount
    ensures Discrepancy(expenses, shareTable) == 0
  {
    if |expenses| > 0 {
      assert expenses[0] in expenses;
      ZeroDiscrepancy(expenses[1..], shareTable);
    }
  }

  /**
   * Conservation: when every expense's shares add up to its amount and every
   * id is on the roster, the balances sum to zero.
   */
  lemma Conservation(roster: seq<UserId>, expenses: seq<ExpenseRow>, shareTable: seq<ShareRow>,
                     payments: seq<PaymentRow>)
    requires Distinct(roster)
    requires forall e :: e in expenses ==> e.paidBy in roster
    requires forall e, s :: e in expenses && s in SharesOf(shareTable, e.id) ==> s.userId in roster
    requires forall p :: p in payments && p.status == Confirmed ==> p.fromUser in roster && p.toUser in roster
    requires forall e :: e in expenses ==> SumRows(SharesOf(shareTable, e.id)) == e.amount
    ensures BalanceTotal(CalculateBalances(roster, expenses, shareTable, payments)) == 0
  {
    BalancesSumToDiscrepancy(roster, expenses, shareTable, payments);
    ZeroDiscrepancy(expenses, shareTable);
  }

  /**
   * An expense whose payer and share holders are all off the roster is
   * skipped: the balances are those computed without it.
   */
  lemma UnknownExpenseIgnored(roster: seq<UserId>, e: ExpenseRow, expenses: seq<ExpenseRow>,
                              shareTable: seq<ShareRow>, payments: seq<PaymentRow>)
    requires e.paidBy !in roster
    requires forall s :: s in SharesOf(shareTable, e.id) ==> s.userId !in roster
    ensures CalculateBalances(roster, [e] + expenses, shareTable, payments)
            == CalculateBalances(roster, expenses, shareTable, payments)
  {
    var a := CalculateBalances(roster, [e] + expenses, shareTable, payments);
    var b := CalculateBalances(roster, expenses, shareTable, payments);
    forall i | 0 <= i < |roster|
      ensures a[i] == b[i]
    {
      assert ([e] + expenses)[1..] == expenses;
      ShareTotalSkips(SharesOf(shareTable, e.id), roster[i]);
    }
  }

  lemma {:induction false} ShareTotalSkips(shares: seq<ShareRow>, u: UserId)
    requires forall s :: s in shares ==> s.userId != u
    ensures ShareTotalFor(shares, u) == 0
  {
    if |shares| > 0 {
      assert shares[0] in shares;
      ShareTotalSkips(shares[1..], u);
    }
  }

  /** Two share tables that agree on the given expenses give every member the same owed total. */
  lemma {:induction false} OwedForSharesAgree(expenses: seq<ExpenseRow>, s1: seq<ShareRow>, s2: seq<ShareRow>, u: UserId)
    requires forall i :: 0 <= i < |expenses| ==> SharesOf(s1, expenses[i].id) == SharesOf(s2, expenses[i].id)
    ensures OwedFor(expenses, s1, u) == OwedFor(expenses, s2, u)
  {
    if |expenses| > 0 {
      assert forall i :: 0 <= i < |expenses[1..]| ==> expenses[1..][i] == expenses[i + 1];
      OwedForSharesAgree(expenses[1..], s1, s2, u);
    }
  }

  /** Balances depend on the share table only through the shares of the listed expenses. */
  lemma BalancesSharesAgree(roster: seq<UserId>, expenses: seq<ExpenseRow>, s1: seq<ShareRow>, s2: seq<ShareRow>,
                            payments: seq<PaymentRow>)
    requires forall i :: 0 <= i < |expenses| ==> SharesOf(s1, expenses[i].id) == SharesOf(s2, expenses[i].id)
    ensures CalculateBalances(roster, expenses, s1, payments) == CalculateBalances(roster, expenses, s2, payments)
  {
    var a := CalculateBalances(roster, expenses, s1, payments);
    var b := CalculateBalances(roster, expenses, s2, payments);
    forall i | 0 <= i < |roster|
      ensures a[i] == b[i]
    {
      OwedForSharesAgree(expenses, s1, s2, roster[i]);
    }
  }
}

=== FILE: domain.dfy ===
/**
 * The persisted entities of the expense-sharing application, as rows of a
 * relational store, and the read queries the controllers run against it.
 * One `Db` value stands for the whole store: every group's rows live side by
 * side and a query selects them by group or expense id.
 */
module Domain {
  import opened Wrappers
  import opened Money
  import opened Seqs

  type UserId = nat
  type GroupId = nat
  type ExpenseId = nat
  type PaymentId = nat

  datatype Role = Admin | Member

  datatype SplitType = Equal | Percentage | Exact

  datatype PaymentStatus = Pending | Confirmed | Rejected

  datatype GroupRow = GroupRow(
    id: GroupId,
    name: string,
    description: string,
    inviteCode: string,
    createdBy: UserId)

  /** Membership of one user in one group, with that user's role there. */
  datatype MemberRow = MemberRow(groupId: GroupId, userId: UserId, role: Role)

  datatype ExpenseRow = ExpenseRow(
    id: ExpenseId,
    groupId: GroupId,
    paidBy: UserId,
    amount: Cents,
    description: string,
    category: string,
    splitType: SplitType)

  /** One member's portion of one expense. */
  datatype ShareRow = ShareRow(expenseId: ExpenseId, userId: UserId, amount: Cents)

  datatype PaymentRow = PaymentRow(
    id: PaymentId,
    groupId: GroupId,
    fromUser: UserId,
    toUser: UserId,
    amount: Cents,
    status: PaymentStatus)

  datatype Db = Db(
    groups: seq<GroupRow>,
    members: seq<MemberRow>,
    expenses: seq<ExpenseRow>,
    shares: seq<ShareRow>,
    payments: seq<PaymentRow>)

  /** The failures the controllers report, one per distinct message. */
  datatype Error =
    | AccessDenied
    | GroupNotFound
    | OnlyAdmins
    | InvalidInviteCode
    | AlreadyMember
    | MemberNotFound
    | OnlyAdminsRemoveOthers
    | LastAdmin
    | PayerNotMember
    | ExpenseNotFound
    | OnlyPayerOrAdmin
    | PercentagesMustSumTo100
    | SharesMustSumToAmount
    | DuplicateShare
    | InviteCodeTaken
    | RecipientNotMember
    | PaymentToSelf
    | PaymentNotFound
    | OnlyReceiver
    | AlreadyProcessed
    | OnlySenderOrAdmin
    | CannotDeleteProcessed

  // ---------------------------------------------------------------------
  // Entity invariants enforced by the store's schema
  // ---------------------------------------------------------------------

  /** Expense and payment amounts are at least 0.01. */
  predicate ValidAmount(amount: Cents) {
    amount >= 1
  }

  /** At most one membership row per (user, group) pair. */
  predicate UniqueMemberships(members: seq<MemberRow>) {
    forall i, j :: 0 <= i < j < |members| ==>
      members[i].groupId != members[j].groupId || members[i].userId != members[j].userId
  }

  /** At most one share row per (expense, user) pair. */
  predicate UniqueShares(shares: seq<ShareRow>) {
    forall i, j :: 0 <= i < j < |shares| ==>
      shares[i].expenseId != shares[j].expenseId || shares[i].userId != shares[j].userId
  }

  /** Payment ids are primary keys. */
  predicate UniquePaymentIds(payments: seq<PaymentRow>) {
    forall i, j :: 0 <= i < j < |payments| ==> payments[i].id != payments[j].id
  }

  /** Expense ids are primary keys. */
  predicate UniqueExpenseIds(expenses: seq<ExpenseRow>) {
    forall i, j :: 0 <= i < j < |expenses| ==> expenses[i].id != expenses[j].id
  }

  /** Group ids are primary keys. */
  predicate UniqueGroupIds(groups: seq<GroupRow>) {
    forall i, j :: 0 <= i < j < |groups| ==> groups[i].id != groups[j].id
  }

  /** The invite-code column carries a unique index. */
  predicate UniqueInviteCodes(groups: seq<GroupRow>) {
    forall i, j :: 0 <= i < j < |groups| ==> groups[i].inviteCode != groups[j].inviteCode
  }

  /** Under unique memberships, a (group, user) pair names at most one row. */
  lemma SameMembership(members: seq<MemberRow>, a: MemberRow, b: MemberRow)
    requires UniqueMemberships(members)
    requires a in members && b in members && a.groupId == b.groupId && a.userId == b.userId
    ensures a == b
  {
  }

  /** Under unique expense ids, an id names at most one expense row. */
  lemma SameExpense(expenses: seq<ExpenseRow>, a: ExpenseRow, b: ExpenseRow)
    requires UniqueExpenseIds(expenses)
    requires a in expenses && b in expenses && a.id == b.id
    ensures a == b
  {
  }

  predicate Distinct<T(==)>(xs: seq<T>) {
    forall i, j :: 0 <= i < j < |xs| ==> xs[i] != xs[j]
  }

  // ---------------------------------------------------------------------
  // Queries
  // ---------------------------------------------------------------------

  function FindGroup(db: Db, g: GroupId): Option<GroupRow> {
    Find(db.groups, (r: GroupRow) => r.id == g)
  }

  /** The membership rows of group `g`, in storage order. */
  function MembersOfGroup(members: seq<MemberRow>, g: GroupId): seq<MemberRow> {
    Filter(members, (m: MemberRow) => m.groupId == g)
  }

  function MembersOf(db: Db, g: GroupId): seq<MemberRow> {
    MembersOfGroup(db.members, g)
  }

  function FindMembership(db: Db, g: GroupId, u: UserId): (r: Option<MemberRow>)
    ensures r.Some? ==> r.value in db.members && r.value.groupId == g && r.value.userId == u
    ensures r.None? <==> forall m :: m in db.members ==> m.groupId != g || m.userId != u
  {
    Find(db.members, (m: MemberRow) => m.groupId == g && m.userId == u)
  }

  predicate IsMember(db: Db, g: GroupId, u: UserId) {
    FindMembership(db, g, u).Some?
  }

  predicate IsAdmin(db: Db, g: GroupId, u: UserId) {
    var m := FindMembership(db, g, u);
    m.Some? && m.value.role == Admin
  }

  /** The user ids of group `g`'s members, in storage order. */
  function Roster(db: Db, g: GroupId): (r: seq<UserId>)
    ensures |r| == |MembersOf(db, g)|
    ensures forall i :: 0 <= i < |r| ==> r[i] == MembersOf(db, g)[i].userId
  {
    Map(MembersOf(db, g), (m: MemberRow) => m.userId)
  }

  function Admins(db: Db, g: GroupId): seq<MemberRow> {
    Filter(db.members, (m: MemberRow) => m.groupId == g && m.role == Admin)
  }

  function ExpensesOfGroup(expenses: seq<ExpenseRow>, g: GroupId): seq<ExpenseRow> {
    Filter(expenses, (e: ExpenseRow) => e.groupId == g)
  }

  function GroupExpenses(db: Db, g: GroupId): seq<ExpenseRow> {
    ExpensesOfGroup(db.expenses, g)
  }

  function FindExpense(db: Db, g: GroupId, id: ExpenseId): (r: Option<ExpenseRow>)
    ensures r.Some? ==> r.value in db.expenses && r.value.groupId == g && r.value.id == id
    ensures r.None? <==> forall e :: e in db.expenses ==> e.groupId != g || e.id != id
  {
    Find(db.expenses, (e: ExpenseRow) => e.id == id && e.groupId == g)
  }

  /** The share rows of expense `id`: the `shares` association of an expense. */
  function SharesOf(shares: seq<ShareRow>, id: ExpenseId): seq<ShareRow> {
    Filter(shares, (s: ShareRow) => s.expenseId == id)
  }

  function PaymentsOfGroup(payments: seq<PaymentRow>, g: GroupId): seq<PaymentRow> {
    Filter(payments, (p: PaymentRow) => p.groupId == g)
  }

  function GroupPayments(db: Db, g: GroupId): seq<PaymentRow> {
    PaymentsOfGroup(db.payments, g)
  }

  /** Selects payment `id` of group `g`. */
  function PaymentKey(g: GroupId, id: PaymentId): PaymentRow -> bool {
    (p: PaymentRow) => p.id == id && p.groupId == g
  }

  function FindPayment(db: Db, g: GroupId, id: PaymentId): (r: Option<PaymentRow>)
    ensures r.Some? ==> r.value in db.payments && r.value.groupId == g && r.value.id == id
    ensures r.None? <==> forall p :: p in db.payments ==> p.groupId != g || p.id != id
  {
    Find(db.payments, PaymentKey(g, id))
  }
}

=== FILE: expenses.dfy ===
/**
 * Expense creation, update and deletion, with the share rows each expense
 * owns. The allocation policies themselves live in `Allocation`; this module
 * decides who may act, which policy applies, and how the tables change. A
 * failure returns no store: the source rolls its transaction back.
 */
module Expenses {
  import opened Wrappers
  import opened Money
  import opened Seqs
  import opened Domain
  import opened Allocation
  import opened Balances

  /** The fields of a create request; optional fields are `None` when absent. */
  datatype CreateRequest = CreateRequest(
    amount: Cents,
    description: string,
    category: Option<string>,
    splitType: Option<SplitType>,
    paidBy: Option<UserId>,
    shares: seq<ShareRequest>)

  /** The fields of an update request; an empty share list means none was sent. */
  datatype UpdateRequest = UpdateRequest(
    amount: Option<Cents>,
    description: Option<string>,
    category: Option<string>,
    splitType: Option<SplitType>,
    paidBy: Option<UserId>,
    shares: seq<ShareRequest>)

  // ---------------------------------------------------------------------
  // Table updates
  // ---------------------------------------------------------------------

  /** The share rows expense `id` gets for an allocation. */
  function ShareRows(id: ExpenseId, shares: seq<Share>): (r: seq<ShareRow>)
    ensures |r| == |shares|
    ensures forall i :: 0 <= i < |shares| ==> r[i] == ShareRow(id, shares[i].userId, shares[i].amount)
  {
    seq(|shares|, i requires 0 <= i < |shares| => ShareRow(id, shares[i].userId, shares[i].amount))
  }

  function ShareUsers(shares: seq<Share>): seq<UserId> {
    Map(shares, (s: Share) => s.userId)
  }

  /** The share table without the rows of expense `id`. */
  function WithoutShares(shares: seq<ShareRow>, id: ExpenseId): seq<ShareRow> {
    Filter(shares, (s: ShareRow) => s.expenseId != id)
  }

  /** The expense table without the row(s) whose id is `id`. */
  function WithoutExpense(expenses: seq<ExpenseRow>, id: ExpenseId): seq<ExpenseRow> {
    Filter(expenses, (e: ExpenseRow) => e.id != id)
  }

  /** The expense table with the row(s) whose id is `e.id` replaced by `e`. */
  function ReplaceExpense(expenses: seq<ExpenseRow>, e: ExpenseRow): (r: seq<ExpenseRow>)
    ensures |r| == |expenses|
    ensures forall k :: 0 <= k < |expenses| ==> r[k] == if expenses[k].id == e.id then e else expenses[k]
  {
    seq(|expenses|, k requires 0 <= k < |expenses| => if expenses[k].id == e.id then e else expenses[k])
  }

  /** An expense with the fields present in the request overwritten. */
  function Revise(e: ExpenseRow, req: UpdateRequest): (r: ExpenseRow)
    ensures r.id == e.id && r.groupId == e.groupId
    ensures r.amount == req.amount.GetOr(e.amount) && r.splitType == req.splitType.GetOr(e.splitType)
    ensures r.paidBy == req.paidBy.GetOr(e.paidBy)
  {
    e.(amount := req.amount.GetOr(e.amount),
       description := req.description.GetOr(e.description),
       category := req.category.GetOr(e.category),
       splitType := req.splitType.GetOr(e.splitType),
       paidBy := req.paidBy.GetOr(e.paidBy))
  }

  // ---------------------------------------------------------------------
  // Operations
  // ---------------------------------------------------------------------

  /** The expense row a create request produces. */
  function NewExpense(g: GroupId, requester: UserId, req: CreateRequest, id: ExpenseId): ExpenseRow {
    ExpenseRow(id, g, req.paidBy.GetOr(requester), req.amount, req.description,
               req.category.GetOr("other"), req.splitType.GetOr(Equal))
  }

  /** The allocation a create request asks for, over the group's roster. */
  function CreateAllocation(db: Db, g: GroupId, req: CreateRequest): Result<seq<Share>, Error> {
    AllocateOnCreate(Roster(db, g), req.amount, req.splitType, req.shares)
  }

  /**
   * Records expense `id` in group `g` with its shares. The requester and the
   * payer (the requester unless another is named) must be members; the split
   * policy may reject the request; the store's unique index refuses two
   * shares of one user.
   */
  function CreateExpense(db: Db, g: GroupId, requester: UserId, req: CreateRequest, id: ExpenseId)
    : (r: Result<Db, Error>)
    requires ValidAmount(req.amount)
    ensures r.Failure? <==>
              || !IsMember(db, g, requester)
              || !IsMember(db, g, req.paidBy.GetOr(requester))
              || CreateAllocation(db, g, req).Failure?
              || !Distinct(ShareUsers(CreateAllocation(db, g, req).value))
    ensures !IsMember(db, g, requester) ==> r == Failure(AccessDenied)
    ensures IsMember(db, g, requester) && !IsMember(db, g, req.paidBy.GetOr(requester)) ==> r == Failure(PayerNotMember)
    ensures (IsMember(db, g, requester) && IsMember(db, g, req.paidBy.GetOr(requester))
             && CreateAllocation(db, g, req).Failure?) ==> r == Failure(CreateAllocation(db, g, req).error)
    ensures (IsMember(db, g, requester) && IsMember(db, g, req.paidBy.GetOr(requester))
             && CreateAllocation(db, g, req).Success? && !Distinct(ShareUsers(CreateAllocation(db, g, req).value)))
            ==> r == Failure(DuplicateShare)
    ensures r.Success? ==>
              && r.value.expenses == db.expenses + [NewExpense(g, requester, req, id)]
              && r.value.shares == db.shares + ShareRows(id, CreateAllocation(db, g, req).value)
              && r.value.groups == db.groups && r.value.members == db.members && r.value.payments == db.payments
  {
    if !IsMember(db, g, requester) then Failure(AccessDenied)
    else if !IsMember(db, g, req.paidBy.GetOr(requester)) then Failure(PayerNotMember)
    else match CreateAllocation(db, g, req)
      case Failure(err) => Failure(err)
      case Success(shares) =>
        if !Distinct(ShareUsers(shares)) then Failure(DuplicateShare)
        else Success(db.(expenses := db.expenses + [NewExpense(g, requester, req, id)],
                         shares := db.shares + ShareRows(id, shares)))
  }

  /**
   * Whether the requester may edit or delete the expense: it paid for it or
   * it is an admin of the group.
   */
  predicate MayEdit(db: Db, g: GroupId, requester: UserId, e: ExpenseRow) {
    e.paidBy == requester || IsAdmin(db, g, requester)
  }

  /** The allocation that replaces the expense's shares, by its split type and amount after the update. */
  function UpdateAllocation(e: ExpenseRow, req: UpdateRequest): Result<seq<Share>, Error> {
    var revised := Revise(e, req);
    AllocateOnUpdate(revised.splitType, req.shares, revised.amount)
  }

  /**
   * Updates expense `id` of group `g`. The requester must be a member and
   * the payer or an admin; a newly named payer must be a member. A non-empty
   * share list replaces all the expense's shares.
   */
  function UpdateExpense(db: Db, g: GroupId, requester: UserId, id: ExpenseId, req: UpdateRequest)
    : (r: Result<Db, Error>)
    requires req.amount.Some? ==> ValidAmount(req.amount.value)
    ensures r.Failure? <==>
              || !IsMember(db, g, requester)
              || FindExpense(db, g, id).None?
              || !MayEdit(db, g, requester, FindExpense(db, g, id).value)
              || (req.paidBy.Some? && !IsMember(db, g, req.paidBy.value))
              || (|req.shares| > 0 && UpdateAllocation(FindExpense(db, g, id).value, req).Failure?)
              || (|req.shares| > 0 && !Distinct(ShareUsers(UpdateAllocation(FindExpense(db, g, id).value, req).value)))
    ensures !IsMember(db, g, requester) ==> r == Failure(AccessDenied)
    ensures IsMember(db, g, requester) && FindExpense(db, g, id).None? ==> r == Failure(ExpenseNotFound)
    ensures (IsMember(db, g, requester) && FindExpense(db, g, id).Some?
             && !MayEdit(db, g, requester, FindExpense(db, g, id).value)) ==> r == Failure(OnlyPayerOrAdmin)
    ensures (IsMember(db, g, requester) && FindExpense(db, g, id).Some?
             && MayEdit(db, g, requester, FindExpense(db, g, id).value)
             && req.paidBy.Some? && !IsMember(db, g, req.paidBy.value)) ==> r == Failure(PayerNotMember)
    ensures (IsMember(db, g, requester) && FindExpense(db, g, id).Some?
             && MayEdit(db, g, requester, FindExpense(db, g, id).value)
             && (req.paidBy.Some? ==> IsMember(db, g, req.paidBy.value))
             && |req.shares| > 0 && UpdateAllocation(FindExpense(db, g, id).value, req).Failure?)
            ==> r == Failure(UpdateAllocation(FindExpense(db, g, id).value, req).error)
    ensures (IsMember(db, g, requester) && FindExpense(db, g, id).Some?
             && MayEdit(db, g, requester, FindExpense(db, g, id).value)
             && (req.paidBy.Some? ==> IsMember(db, g, req.paidBy.value))
             && |req.shares| > 0 && UpdateAllocation(FindExpense(db, g, id).value, req).Success?
             && !Distinct(ShareUsers(UpdateAllocation(FindExpense(db, g, id).value, req).value)))
            ==> r == Failure(DuplicateShare)
    ensures r.Success? ==>
              && r.value.expenses == ReplaceExpense(db.expenses, Revise(FindExpense(db, g, id).value, req))
              && r.value.groups == db.groups && r.value.members == db.members && r.value.payments == db.payments
              && (|req.shares| == 0 ==> r.value.shares == db.shares)
              && (|req.shares| > 0 ==>
                    r.value.shares == WithoutShares(db.shares, id)
                                      + ShareRows(id, UpdateAllocation(FindExpense(db, g, id).value, req).value))
  {
    match FindMembership(db, g, requester)
    case None => Failure(AccessDenied)
    case Some(m) =>
      match FindExpense(db, g, id)
      case None => Failure(ExpenseNotFound)
      case Some(e) =>
        if e.paidBy != requester && m.role != Admin then Failure(OnlyPayerOrAdmin)
        else if req.paidBy.Some? && !IsMember(db, g, req.paidBy.value) then Failure(PayerNotMember)
        else
          var expenses := ReplaceExpense(db.expenses, Revise(e, req));
          if |req.shares| == 0 then Success(db.(expenses := expenses))
          else match UpdateAllocation(e, req)
            case Failure(err) => Failure(err)
            case Success(shares) =>
              if !Distinct(ShareUsers(shares)) then Failure(DuplicateShare)
              else Success(db.(expenses := expenses, shares := WithoutShares(db.shares, id) + ShareRows(id, shares)))
  }

  /** The checks both deletion variants run before removing anything. */
  function DeleteCheck(db: Db, g: GroupId, requester: UserId, id: ExpenseId): (r: Option<Error>)
    ensures r.None? <==> IsMember(db, g, requester) && FindExpense(db, g, id).Some?
                         && MayEdit(db, g, requester, FindExpense(db, g, id).value)
    ensures !IsMember(db, g, requester) ==> r == Some(AccessDenied)
    ensures IsMember(db, g, requester) && FindExpense(db, g, id).None? ==> r == Some(ExpenseNotFound)
    ensures (IsMember(db, g, requester) && FindExpense(db, g, id).Some?
             && !MayEdit(db, g, requester, FindExpense(db, g, id).value)) ==> r == Some(OnlyPayerOrAdmin)
  {
    match FindMembership(db, g, requester)
    case None => Some(AccessDenied)
    case Some(m) =>
      match FindExpense(db, g, id)
      case None => Some(ExpenseNotFound)
      case Some(e) =>
        if e.paidBy != requester && m.role != Admin then Some(OnlyPayerOrAdmin) else None
  }

  /** Deletes expense `id` together with its shares. */
  function DeleteExpense(db: Db, g: GroupId, requester: UserId, id: ExpenseId): (r: Result<Db, Error>)
    ensures r.Failure? <==> DeleteCheck(db, g, requester, id).Some?
    ensures r.Failure? ==> DeleteCheck(db, g, requester, id) == Some(r.error)
    ensures r.Success? ==>
              && (forall e :: e in r.value.expenses <==> e in db.expenses && e.id != id)
              && (forall s :: s in r.value.shares <==> s in db.shares && s.expenseId != id)
              && r.value.groups == db.groups && r.value.members == db.members && r.value.payments == db.payments
  {
    match DeleteCheck(db, g, requester, id)
    case Some(err) => Failure(err)
    case None => Success(db.(expenses := WithoutExpense(db.expenses, id), shares := WithoutShares(db.shares, id)))
  }

  /**
   * The older controller's deletion: it removes the expense row only and
   * leaves the expense's share rows behind.
   */
  function DeleteExpenseKeepingShares(db: Db, g: GroupId, requester: UserId, id: ExpenseId): (r: Result<Db, Error>)
    ensures r.Failure? <==> DeleteCheck(db, g, requester, id).Some?
    ensures r.Failure? ==> DeleteCheck(db, g, requester, id) == Some(r.error)
    ensures r.Success? ==>
              && (forall e :: e in r.value.expenses <==> e in db.expenses && e.id != id)
              && r.value.shares == db.shares
              && r.value.groups == db.groups && r.value.members == db.members && r.value.payments == db.payments
  {
    match DeleteCheck(db, g, requester, id)
    case Some(err) => Failure(err)
    case None => Success(db.(expenses := WithoutExpense(db.expenses, id)))
  }

  // ---------------------------------------------------------------------
  // Properties
  // ---------------------------------------------------------------------

  lemma {:induction false} SharesOfRows(id: ExpenseId, shares: seq<Share>)
    ensures SharesOf(ShareRows(id, shares), id) == ShareRows(id, shares)
  {
    var rows := ShareRows(id, shares);
    FilterKeepsAll(rows, (s: ShareRow) => s.expenseId == id);
  }

  lemma {:induction false} SumRowsOfShares(id: ExpenseId, shares: seq<Share>)
    ensures SumRows(ShareRows(id, shares)) == SumShares(shares)
  {
    if |shares| > 0 {
      SumRowsOfShares(id, shares[1..]);
      assert ShareRows(id, shares)[1..] == ShareRows(id, shares[1..]);
    }
  }

  /**
   * The shares a fresh expense owns after creation are exactly the rows of
   * its allocation, and they sum to what the allocation sums to.
   */
  lemma CreatedShares(db: Db, g: GroupId, requester: UserId, req: CreateRequest, id: ExpenseId)
    requires ValidAmount(req.amount)
    requires forall s :: s in db.shares ==> s.expenseId != id
    requires CreateExpense(db, g, requester, req, id).Success?
    ensures SharesOf(CreateExpense(db, g, requester, req, id).value.shares, id)
            == ShareRows(id, CreateAllocation(db, g, req).value)
    ensures SumRows(SharesOf(CreateExpense(db, g, requester, req, id).value.shares, id))
            == SumShares(CreateAllocation(db, g, req).value)
  {
    var shares := CreateAllocation(db, g, req).value;
    FilterAppend(db.shares, ShareRows(id, shares), (s: ShareRow) => s.expenseId == id);
    FilterNone(db.shares, (s: ShareRow) => s.expenseId == id);
    SharesOfRows(id, shares);
    SumRowsOfShares(id, shares);
  }

  /**
   * An equal split whose rounded base does not overshoot gives the new
   * expense one share per member, in roster order, summing exactly to its
   * amount.
   */
  lemma CreateEqualExpenseBalanced(db: Db, g: GroupId, requester: UserId, req: CreateRequest, id: ExpenseId)
    requires ValidAmount(req.amount)
    requires forall s :: s in db.shares ==> s.expenseId != id
    requires req.splitType == Some(Equal) || |req.shares| == 0
    requires CreateExpense(db, g, requester, req, id).Success?
    requires EqualBase(req.amount, |Roster(db, g)|) * |Roster(db, g)| <= req.amount
    ensures |SharesOf(CreateExpense(db, g, requester, req, id).value.shares, id)| == |Roster(db, g)|
    ensures forall i :: 0 <= i < |Roster(db, g)| ==>
              SharesOf(CreateExpense(db, g, requester, req, id).value.shares, id)[i].userId == Roster(db, g)[i]
    ensures SumRows(SharesOf(CreateExpense(db, g, requester, req, id).value.shares, id)) == req.amount
  {
    CreatedShares(db, g, requester, req, id);
    assert IsMember(db, g, requester);
    var m := FindMembership(db, g, requester).value;
    assert m in MembersOf(db, g);
    EqualSplitExact(Roster(db, g), req.amount);
  }

  /** Appending the rows of an allocation with distinct users under a fresh id keeps share rows unique. */
  lemma AppendFreshKeepsUnique(before: seq<ShareRow>, id: ExpenseId, shares: seq<Share>)
    requires UniqueShares(before)
    requires forall s :: s in before ==> s.expenseId != id
    requires Distinct(ShareUsers(shares))
    ensures UniqueShares(before + ShareRows(id, shares))
  {
    var all := before + ShareRows(id, shares);
    forall i, j | 0 <= i < j < |all|
      ensures all[i].expenseId != all[j].expenseId || all[i].userId != all[j].userId
    {
      if j < |before| {
      } else if i < |before| {
        assert all[i] in before;
      } else {
        assert ShareUsers(shares)[i - |before|] != ShareUsers(shares)[j - |before|];
      }
    }
  }

  /** Creating an expense with a fresh id keeps each (expense, user) pair to one share row. */
  lemma CreateKeepsSharesUnique(db: Db, g: GroupId, requester: UserId, req: CreateRequest, id: ExpenseId)
    requires ValidAmount(req.amount)
    requires UniqueShares(db.shares)
    requires forall s :: s in db.shares ==> s.expenseId != id
    requires CreateExpense(db, g, requester, req, id).Success?
    ensures UniqueShares(CreateExpense(db, g, requester, req, id).value.shares)
  {
    AppendFreshKeepsUnique(db.shares, id, CreateAllocation(db, g, req).value);
  }

  /** Rows of expense `id` put in place of its old rows are all that `id` then owns. */
  lemma {:induction false} ReplacedSharesOf(shares: seq<ShareRow>, id: ExpenseId, alloc: seq<Share>)
    ensures SharesOf(WithoutShares(shares, id) + ShareRows(id, alloc), id) == ShareRows(id, alloc)
  {
    var kept := WithoutShares(shares, id);
    FilterAppend(kept, ShareRows(id, alloc), (s: ShareRow) => s.expenseId == id);
    FilterNone(kept, (s: ShareRow) => s.expenseId == id);
    SharesOfRows(id, alloc);
  }

  /** Replacing the rows of expense `id` leaves every other expense's rows as they were. */
  lemma {:induction false} ReplacedSharesOfOther(shares: seq<ShareRow>, id: ExpenseId, alloc: seq<Share>, other: ExpenseId)
    requires other != id
    ensures SharesOf(WithoutShares(shares, id) + ShareRows(id, alloc), other) == SharesOf(shares, other)
  {
    var kept := WithoutShares(shares, id);
    var rows := ShareRows(id, alloc);
    FilterAppend(kept, rows, (s: ShareRow) => s.expenseId == other);
    FilterNone(rows, (s: ShareRow) => s.expenseId == other);
    FilterFilter(shares, (s: ShareRow) => s.expenseId != id, (s: ShareRow) => s.expenseId == other);
  }

  /**
   * An update with a non-empty share list leaves the expense exactly the rows
   * of the new allocation, and the shares of every other expense untouched.
   */
  lemma UpdateReplacesShares(db: Db, g: GroupId, requester: UserId, id: ExpenseId, req: UpdateRequest, other: ExpenseId)
    requires req.amount.Some? ==> ValidAmount(req.amount.value)
    requires |req.shares| > 0
    requires UpdateExpense(db, g, requester, id, req).Success?
    requires other != id
    ensures SharesOf(UpdateExpense(db, g, requester, id, req).value.shares, id)
            == ShareRows(id, UpdateAllocation(FindExpense(db, g, id).value, req).value)
    ensures SharesOf(UpdateExpense(db, g, requester, id, req).value.shares, other) == SharesOf(db.shares, other)
  {
    var alloc := UpdateAllocation(FindExpense(db, g, id).value, req).value;
    ReplacedSharesOf(db.shares, id, alloc);
    ReplacedSharesOfOther(db.shares, id, alloc, other);
  }

  /**
   * Under the equal policy, after the update, an update that sends shares
   * deletes all the expense's shares and creates none.
   */
  lemma UpdateUnderEqualDropsShares(db: Db, g: GroupId, requester: UserId, id: ExpenseId, req: UpdateRequest)
    requires req.amount.Some? ==> ValidAmount(req.amount.value)
    requires |req.shares| > 0
    requires UpdateExpense(db, g, requester, id, req).Success?
    requires req.splitType.GetOr(FindExpense(db, g, id).value.splitType) == Equal
    ensures SharesOf(UpdateExpense(db, g, requester, id, req).value.shares, id) == []
  {
    UpdateReplacesShares(db, g, requester, id, req, id + 1);
  }

  /**
   * The two deletion variants agree on every group's balances: the share
   * rows the older one leaves behind belong to no remaining expense.
   */
  lemma DeleteVariantsAgreeOnBalances(db: Db, g: GroupId, requester: UserId, id: ExpenseId, h: GroupId)
    requires DeleteExpense(db, g, requester, id).Success?
    ensures DeleteExpenseKeepingShares(db, g, requester, id).Success?
    ensures GroupBalances(DeleteExpense(db, g, requester, id).value, h)
            == GroupBalances(DeleteExpenseKeepingShares(db, g, requester, id).value, h)
  {
    var a := DeleteExpense(db, g, requester, id).value;
    var b := DeleteExpenseKeepingShares(db, g, requester, id).value;
    assert a.expenses == b.expenses;
    var es := GroupExpenses(a, h);
    forall i | 0 <= i < |es|
      ensures SharesOf(a.shares, es[i].id) == SharesOf(db.shares, es[i].id)
    {
      assert es[i] in a.expenses;
      FilterFilter(db.shares, (s: ShareRow) => s.expenseId != id, (s: ShareRow) => s.expenseId == es[i].id);
    }
    assert Roster(a, h) == Roster(b, h) && GroupPayments(a, h) == GroupPayments(b, h);
    BalancesSharesAgree(Roster(a, h), es, a.shares, db.shares, GroupPayments(a, h));
  }
}

=== FILE: groups.dfy ===
/**
 * Group administration: creating, renaming and deleting a group, joining by
 * invite code, removing members, changing roles and regenerating the invite
 * code. Group, expense and payment ids and invite codes are generated by the
 * store or by a random source, so they arrive here as parameters.
 */
module Groups {
  import opened Wrappers
  import opened Seqs
  import opened Domain
  import opened Balances

  // ---------------------------------------------------------------------
  // Invite codes
  // ---------------------------------------------------------------------

  function UpperChar(c: char): char {
    if 'a' <= c <= 'z' then (c as int - 32) as char else c
  }

  /** Upper-cases the ASCII letters of `s`; every other character is kept. */
  function ToUpper(s: string): (r: string)
    ensures |r| == |s|
    ensures forall i :: 0 <= i < |s| ==> r[i] == UpperChar(s[i])
  {
    seq(|s|, i requires 0 <= i < |s| => UpperChar(s[i]))
  }

  /** Upper-casing is idempotent, and leaves no lower-case ASCII letter behind. */
  lemma ToUpperIdempotent(s: string)
    ensures ToUpper(ToUpper(s)) == ToUpper(s)
    ensures forall i :: 0 <= i < |s| ==> !('a' <= ToUpper(s)[i] <= 'z')
  {
  }

  /** The first group whose invite code is `code`. */
  function FindGroupByCode(db: Db, code: string): (r: Option<GroupRow>)
    ensures r.Some? ==> r.value in db.groups && r.value.inviteCode == code
    ensures r.None? <==> forall gr :: gr in db.groups ==> gr.inviteCode != code
  {
    Find(db.groups, (gr: GroupRow) => gr.inviteCode == code)
  }

  // ---------------------------------------------------------------------
  // Table updates
  // ---------------------------------------------------------------------

  /** Group rows with `f` applied to the row(s) whose id is `g`. */
  function UpdateGroupRows(groups: seq<GroupRow>, g: GroupId, f: GroupRow -> GroupRow): (r: seq<GroupRow>)
    ensures |r| == |groups|
    ensures forall k :: 0 <= k < |groups| ==> r[k] == if groups[k].id == g then f(groups[k]) else groups[k]
  {
    seq(|groups|, k requires 0 <= k < |groups| => if groups[k].id == g then f(groups[k]) else groups[k])
  }

  function SelectsMember(m: MemberRow, g: GroupId, u: UserId): bool {
    m.groupId == g && m.userId == u
  }

  /** Membership rows with user `u`'s row in group `g` moved to `role`. */
  function SetRole(members: seq<MemberRow>, g: GroupId, u: UserId, role: Role): (r: seq<MemberRow>)
    ensures |r| == |members|
    ensures forall k :: 0 <= k < |members| ==>
              r[k] == if SelectsMember(members[k], g, u) then members[k].(role := role) else members[k]
  {
    seq(|members|, k requires 0 <= k < |members| =>
      if SelectsMember(members[k], g, u) then members[k].(role := role) else members[k])
  }

  function WithoutMember(members: seq<MemberRow>, g: GroupId, u: UserId): seq<MemberRow> {
    Filter(members, (m: MemberRow) => !SelectsMember(m, g, u))
  }

  // ---------------------------------------------------------------------
  // Operations
  // ---------------------------------------------------------------------

  /**
   * Creates group `g` with the requester as its creator and sole admin. The
   * store's unique index on invite codes refuses a code some group already
   * holds, and then nothing is written.
   */
  function CreateGroup(db: Db, requester: UserId, g: GroupId, name: string, description: string, code: string)
    : (r: Result<Db, Error>)
    ensures r.Failure? <==> exists k :: 0 <= k < |db.groups| && db.groups[k].inviteCode == code
    ensures r.Failure? ==> r.error == InviteCodeTaken
    ensures r.Success? ==>
              && r.value.groups == db.groups + [GroupRow(g, name, description, code, requester)]
              && r.value.members == db.members + [MemberRow(g, requester, Admin)]
              && r.value.expenses == db.expenses && r.value.shares == db.shares && r.value.payments == db.payments
  {
    if FindGroupByCode(db, code).Some? then Failure(InviteCodeTaken)
    else Success(db.(groups := db.groups + [GroupRow(g, name, description, code, requester)],
                     members := db.members + [MemberRow(g, requester, Admin)]))
  }

  /**
   * Renames group `g` or changes its description; an absent field is left
   * as it was. Only an admin of the group may do it.
   */
  function UpdateGroup(db: Db, requester: UserId, g: GroupId, name: Option<string>, description: Option<string>)
    : (r: Result<Db, Error>)
    ensures r.Failure? <==> FindGroup(db, g).None? || !IsAdmin(db, g, requester)
    ensures FindGroup(db, g).None? ==> r == Failure(GroupNotFound)
    ensures FindGroup(db, g).Some? && !IsAdmin(db, g, requester) ==> r == Failure(OnlyAdmins)
    ensures r.Success? ==>
              && r.value.(groups := db.groups) == db
              && |r.value.groups| == |db.groups|
              && forall k :: 0 <= k < |db.groups| ==>
                   var before, after := db.groups[k], r.value.groups[k];
                   && after.id == before.id && after.inviteCode == before.inviteCode
                   && after.createdBy == before.createdBy
                   && after.name == (if before.id == g then name.GetOr(before.name) else before.name)
                   && after.description == (if before.id == g then description.GetOr(before.description)
                                            else before.description)
  {
    if FindGroup(db, g).None? then Failure(GroupNotFound)
    else if !IsAdmin(db, g, requester) then Failure(OnlyAdmins)
    else
      Success(db.(groups := UpdateGroupRows(db.groups, g,
        (gr: GroupRow) => gr.(name := name.GetOr(gr.name), description := description.GetOr(gr.description)))))
  }

  /** The ids of group `g`'s expenses. */
  function ExpenseIds(db: Db, g: GroupId): (r: seq<ExpenseId>)
    ensures forall e :: e in db.expenses && e.groupId == g ==> e.id in r
    ensures forall id :: id in r ==> exists e :: e in db.expenses && e.groupId == g && e.id == id
  {
    var es := GroupExpenses(db, g);
    var r := Map(es, (e: ExpenseRow) => e.id);
    assert forall e :: e in db.expenses && e.groupId == g ==> e in es;
    assert forall k :: 0 <= k < |r| ==> r[k] == es[k].id && es[k] in db.expenses && es[k].groupId == g;
    r
  }

  /**
   * Deletes group `g` with everything attached to it: the shares of its
   * expenses, its expenses, its payments, its memberships and the group row.
   * Only an admin of the group may do it.
   */
  function DeleteGroup(db: Db, requester: UserId, g: GroupId): (r: Result<Db, Error>)
    ensures r.Failure? <==> FindGroup(db, g).None? || !IsAdmin(db, g, requester)
    ensures FindGroup(db, g).None? ==> r == Failure(GroupNotFound)
    ensures FindGroup(db, g).Some? && !IsAdmin(db, g, requester) ==> r == Failure(OnlyAdmins)
    ensures r.Success? ==>
              && (forall gr :: gr in r.value.groups <==> gr in db.groups && gr.id != g)
              && (forall m :: m in r.value.members <==> m in db.members && m.groupId != g)
              && (forall e :: e in r.value.expenses <==> e in db.expenses && e.groupId != g)
              && (forall p :: p in r.value.payments <==> p in db.payments && p.groupId != g)
              && (forall s :: s in r.value.shares <==>
                    s in db.shares && forall e :: e in db.expenses && e.groupId == g ==> e.id != s.expenseId)
  {
    if FindGroup(db, g).None? then Failure(GroupNotFound)
    else if !IsAdmin(db, g, requester) then Failure(OnlyAdmins)
    else
      var ids := ExpenseIds(db, g);
      Success(Db(
        Filter(db.groups, (gr: GroupRow) => gr.id != g),
        Filter(db.members, (m: MemberRow) => m.groupId != g),
        Filter(db.expenses, (e: ExpenseRow) => e.groupId != g),
        Filter(db.shares, (s: ShareRow) => s.expenseId !in ids),
        Filter(db.payments, (p: PaymentRow) => p.groupId != g)))
  }

  /**
   * Joins the group whose invite code is `code` upper-cased, as a plain
   * member. Fails when no group has that code or the requester already
   * belongs to it.
   */
  function JoinGroup(db: Db, requester: UserId, code: string): (r: Result<Db, Error>)
    requires |code| == 8
    ensures r.Failure? <==>
              || FindGroupByCode(db, ToUpper(code)).None?
              || IsMember(db, FindGroupByCode(db, ToUpper(code)).value.id, requester)
    ensures FindGroupByCode(db, ToUpper(code)).None? ==> r == Failure(InvalidInviteCode)
    ensures (FindGroupByCode(db, ToUpper(code)).Some?
             && IsMember(db, FindGroupByCode(db, ToUpper(code)).value.id, requester)) ==> r == Failure(AlreadyMember)
    ensures r.Success? ==>
              var g := FindGroupByCode(db, ToUpper(code)).value.id;
              && r.value == db.(members := db.members + [MemberRow(g, requester, Member)])
              && !IsMember(db, g, requester)
  {
    match FindGroupByCode(db, ToUpper(code))
    case None => Failure(InvalidInviteCode)
    case Some(gr) =>
      if IsMember(db, gr.id, requester) then Failure(AlreadyMember)
      else Success(db.(members := db.members + [MemberRow(gr.id, requester, Member)]))
  }

  /**
   * Removes `target` from group `g`. The requester must be a member and may
   * remove itself; removing anybody else takes an admin. The last admin of a
   * group cannot be removed.
   */
  function RemoveMember(db: Db, requester: UserId, g: GroupId, target: UserId): (r: Result<Db, Error>)
    ensures r.Failure? <==>
              || !IsMember(db, g, requester)
              || (target != requester && !IsAdmin(db, g, requester))
              || !IsMember(db, g, target)
              || (IsAdmin(db, g, target) && |Admins(db, g)| <= 1)
    ensures !IsMember(db, g, requester) ==> r == Failure(AccessDenied)
    ensures IsMember(db, g, requester) && target != requester && !IsAdmin(db, g, requester) ==>
              r == Failure(OnlyAdminsRemoveOthers)
    ensures (IsMember(db, g, requester) && (target == requester || IsAdmin(db, g, requester))
             && !IsMember(db, g, target)) ==> r == Failure(MemberNotFound)
    ensures (IsMember(db, g, requester) && (target == requester || IsAdmin(db, g, requester))
             && IsAdmin(db, g, target) && |Admins(db, g)| <= 1) ==> r == Failure(LastAdmin)
    ensures r.Success? ==>
              && r.value.(members := db.members) == db
              && forall m :: m in r.value.members <==> m in db.members && !SelectsMember(m, g, target)
  {
    match FindMembership(db, g, requester)
    case None => Failure(AccessDenied)
    case Some(mine) =>
      if target != requester && mine.role != Admin then Failure(OnlyAdminsRemoveOthers)
      else match FindMembership(db, g, target)
        case None => Failure(MemberNotFound)
        case Some(theirs) =>
          if theirs.role == Admin && |Admins(db, g)| <= 1 then Failure(LastAdmin)
          else Success(db.(members := WithoutMember(db.members, g, target)))
  }

  /**
   * Gives `target` the role `role` in group `g`. Only an admin may do it, and
   * the target must be a member. There is no guard for the last admin.
   */
  function UpdateMemberRole(db: Db, requester: UserId, g: GroupId, target: UserId, role: Role)
    : (r: Result<Db, Error>)
    ensures r.Failure? <==> !IsAdmin(db, g, requester) || !IsMember(db, g, target)
    ensures !IsAdmin(db, g, requester) ==> r == Failure(OnlyAdmins)
    ensures IsAdmin(db, g, requester) && !IsMember(db, g, target) ==> r == Failure(MemberNotFound)
    ensures r.Success? ==>
              && r.value.(members := db.members) == db
              && |r.value.members| == |db.members|
              && forall k :: 0 <= k < |db.members| ==>
                   && r.value.members[k].groupId == db.members[k].groupId
                   && r.value.members[k].userId == db.members[k].userId
                   && r.value.members[k].role == (if SelectsMember(db.members[k], g, target) then role
                                                  else db.members[k].role)
  {
    if !IsAdmin(db, g, requester) then Failure(OnlyAdmins)
    else if !IsMember(db, g, target) then Failure(MemberNotFound)
    else Success(db.(members := SetRole(db.members, g, target, role)))
  }

  /** Gives group `g` the invite code `code`. Only an admin may do it. */
  function RegenerateInviteCode(db: Db, requester: UserId, g: GroupId, code: string): (r: Result<Db, Error>)
    ensures r.Failure? <==>
              || FindGroup(db, g).None?
              || !IsAdmin(db, g, requester)
              || exists k :: 0 <= k < |db.groups| && db.groups[k].id != g && db.groups[k].inviteCode == code
    ensures FindGroup(db, g).None? ==> r == Failure(GroupNotFound)
    ensures FindGroup(db, g).Some? && !IsAdmin(db, g, requester) ==> r == Failure(OnlyAdmins)
    ensures FindGroup(db, g).Some? && IsAdmin(db, g, requester) && r.Failure? ==> r == Failure(InviteCodeTaken)
    ensures r.Success? ==>
              && r.value.(groups := db.groups) == db
              && |r.value.groups| == |db.groups|
              && forall k :: 0 <= k < |db.groups| ==>
                   r.value.groups[k] == if db.groups[k].id == g then db.groups[k].(inviteCode := code)
                                        else db.groups[k]
  {
    if FindGroup(db, g).None? then Failure(GroupNotFound)
    else if !IsAdmin(db, g, requester) then Failure(OnlyAdmins)
    else if Find(db.groups, (gr: GroupRow) => gr.id != g && gr.inviteCode == code).Some? then Failure(InviteCodeTaken)
    else Success(db.(groups := UpdateGroupRows(db.groups, g, (gr: GroupRow) => gr.(inviteCode := code))))
  }


  // ---------------------------------------------------------------------
  // Properties
  // ---------------------------------------------------------------------

  /** A freshly created group has its creator as only member and only admin. */
  lemma CreateGroupSoleAdmin(db: Db, requester: UserId, g: GroupId, name: string, description: string, code: string)
    requires forall m :: m in db.members ==> m.groupId != g
    requires forall gr :: gr in db.groups ==> gr.id != g
    requires CreateGroup(db, requester, g, name, description, code).Success?
    ensures MembersOf(CreateGroup(db, requester, g, name, description, code).value, g) == [MemberRow(g, requester, Admin)]
    ensures Admins(CreateGroup(db, requester, g, name, description, code).value, g) == [MemberRow(g, requester, Admin)]
    ensures Roster(CreateGroup(db, requester, g, name, description, code).value, g) == [requester]
    ensures FindGroup(CreateGroup(db, requester, g, name, description, code).value, g)
            == Some(GroupRow(g, name, description, code, requester))
  {
    var r := CreateGroup(db, requester, g, name, description, code).value;
    NewGroupMembers(db.members, MemberRow(g, requester, Admin));
    assert Roster(r, g) == Map([MemberRow(g, requester, Admin)], (m: MemberRow) => m.userId);
    NewGroupFound(db.groups, GroupRow(g, name, description, code, requester));
  }

  /** Creating a group keeps invite codes unique: a taken code is refused. */
  lemma CreateGroupKeepsCodesUnique(db: Db, requester: UserId, g: GroupId, name: string, description: string, code: string)
    requires UniqueInviteCodes(db.groups)
    requires CreateGroup(db, requester, g, name, description, code).Success?
    ensures UniqueInviteCodes(CreateGroup(db, requester, g, name, description, code).value.groups)
  {
    var gs := CreateGroup(db, requester, g, name, description, code).value.groups;
    forall i, j | 0 <= i < j < |gs|
      ensures gs[i].inviteCode != gs[j].inviteCode
    {
      assert gs[i] == db.groups[i];
      if j < |db.groups| {
        assert gs[j] == db.groups[j];
      }
    }
  }

  /**
   * Regenerating a code keeps invite codes unique: a code held by another
   * group is refused, and group ids name one row each.
   */
  lemma RegenerateKeepsCodesUnique(db: Db, requester: UserId, g: GroupId, code: string)
    requires UniqueGroupIds(db.groups) && UniqueInviteCodes(db.groups)
    requires RegenerateInviteCode(db, requester, g, code).Success?
    ensures UniqueInviteCodes(RegenerateInviteCode(db, requester, g, code).value.groups)
  {
    var gs := RegenerateInviteCode(db, requester, g, code).value.groups;
    forall i, j | 0 <= i < j < |gs|
      ensures gs[i].inviteCode != gs[j].inviteCode
    {
      assert db.groups[i].id != g || db.groups[j].id != g;
    }
  }


  /** A group row appended under an unused id is the one found under that id. */
  lemma NewGroupFound(groups: seq<GroupRow>, row: GroupRow)
    requires forall gr :: gr in groups ==> gr.id != row.id
    ensures Find(groups + [row], (r: GroupRow) => r.id == row.id) == Some(row)
  {
    var all := groups + [row];
    assert all[|groups|] == row;
    assert forall j :: 0 <= j < |groups| ==> all[j] in groups;
  }

  /** A membership row appended for a group nobody belonged to is its only member and only admin. */
  lemma NewGroupMembers(members: seq<MemberRow>, row: MemberRow)
    requires row.role == Admin
    requires forall m :: m in members ==> m.groupId != row.groupId
    ensures MembersOfGroup(members + [row], row.groupId) == [row]
    ensures Filter(members + [row], (m: MemberRow) => m.groupId == row.groupId && m.role == Admin) == [row]
  {
    var g := row.groupId;
    FilterAppend(members, [row], (m: MemberRow) => m.groupId == g);
    FilterAppend(members, [row], (m: MemberRow) => m.groupId == g && m.role == Admin);
    FilterNone(members, (m: MemberRow) => m.groupId == g);
    FilterNone(members, (m: MemberRow) => m.groupId == g && m.role == Admin);
    assert [row][1..] == [];
  }

  /** Joining adds the requester as a plain member and keeps memberships unique. */
  lemma JoinGroupAddsMember(db: Db, requester: UserId, code: string)
    requires |code| == 8
    requires JoinGroup(db, requester, code).Success?
    ensures var g := FindGroupByCode(db, ToUpper(code)).value.id;
            && FindMembership(JoinGroup(db, requester, code).value, g, requester) == Some(MemberRow(g, requester, Member))
            && !IsAdmin(JoinGroup(db, requester, code).value, g, requester)
    ensures UniqueMemberships(db.members) ==> UniqueMemberships(JoinGroup(db, requester, code).value.members)
  {
    var g := FindGroupByCode(db, ToUpper(code)).value.id;
    var ms := JoinGroup(db, requester, code).value.members;
    assert ms == db.members + [MemberRow(g, requester, Member)];
    assert ms[|db.members|] == MemberRow(g, requester, Member);
  }

  /**
   * An admin other than `target` exists when the group has an admin and,
   * should `target` itself be one, at least two.
   */
  lemma OtherAdmin(db: Db, g: GroupId, target: UserId) returns (k: nat)
    requires UniqueMemberships(db.members)
    requires |Admins(db, g)| >= 1 && IsMember(db, g, target)
    requires IsAdmin(db, g, target) ==> |Admins(db, g)| >= 2
    ensures k < |db.members| && db.members[k].groupId == g && db.members[k].role == Admin
    ensures db.members[k].userId != target
  {
    var ms := db.members;
    var theirs := FindMembership(db, g, target).value;
    if theirs.role == Admin {
      FilterTwo(ms, (m: MemberRow) => m.groupId == g && m.role == Admin);
      var i, j :| 0 <= i < j < |ms| && ms[i].groupId == g && ms[i].role == Admin
                                    && ms[j].groupId == g && ms[j].role == Admin;
      k := if ms[i].userId != target then i else j;
    } else {
      var a := Admins(db, g)[0];
      k :| 0 <= k < |ms| && ms[k] == a;
      assert a.userId != target by {
        if a.userId == target {
          SameMembership(ms, a, theirs);
        }
      }
    }
  }

  /**
   * When the group has an admin, removing a member leaves it with an admin,
   * and the removed user is no longer a member.
   */
  lemma RemoveMemberKeepsAnAdmin(db: Db, requester: UserId, g: GroupId, target: UserId)
    requires UniqueMemberships(db.members)
    requires |Admins(db, g)| >= 1
    requires RemoveMember(db, requester, g, target).Success?
    ensures |Admins(RemoveMember(db, requester, g, target).value, g)| >= 1
    ensures !IsMember(RemoveMember(db, requester, g, target).value, g, target)
  {
    var r := RemoveMember(db, requester, g, target).value;
    assert IsMember(db, g, target);
    assert IsAdmin(db, g, target) ==> |Admins(db, g)| >= 2;
    var k := OtherAdmin(db, g, target);
    var survivor := db.members[k];
    assert survivor in r.members;
    var i :| 0 <= i < |r.members| && r.members[i] == survivor;
    assert survivor in Admins(r, g);
  }

  /**
   * As written, an admin may demote the group's only admin (itself), which
   * leaves the group with no admin at all.
   */
  lemma DemoteLastAdminExample()
    ensures var db := Db([GroupRow(1, "Flat", "", "AB12CD34", 1)], [MemberRow(1, 1, Admin), MemberRow(1, 2, Member)], [], [], []);
            && |Admins(db, 1)| == 1
            && UpdateMemberRole(db, 1, 1, 1, Member).Success?
            && Admins(UpdateMemberRole(db, 1, 1, 1, Member).value, 1) == []
  {
    var db := Db([GroupRow(1, "Flat", "", "AB12CD34", 1)], [MemberRow(1, 1, Admin), MemberRow(1, 2, Member)], [], [], []);
    var adminRow := (m: MemberRow) => m.groupId == 1 && m.role == Admin;
    assert db.members[1..][1..] == [];
    assert Admins(db, 1) == [MemberRow(1, 1, Admin)];
    var r := UpdateMemberRole(db, 1, 1, 1, Member).value;
    assert r.members == [MemberRow(1, 1, Member), MemberRow(1, 2, Member)];
    FilterNone(r.members, (m: MemberRow) => m.groupId == 1 && m.role == Admin);
  }

  /**
   * The role change with the guard `removeMember` applies: demoting an admin
   * fails while it is the group's only admin.
   */
  function UpdateMemberRoleGuarded(db: Db, requester: UserId, g: GroupId, target: UserId, role: Role)
    : (r: Result<Db, Error>)
    ensures r.Failure? <==>
              || !IsAdmin(db, g, requester)
              || !IsMember(db, g, target)
              || (IsAdmin(db, g, target) && role == Member && |Admins(db, g)| <= 1)
    ensures UpdateMemberRole(db, requester, g, target, role).Failure? ==> r == UpdateMemberRole(db, requester, g, target, role)
    ensures UpdateMemberRole(db, requester, g, target, role).Success? && r.Failure? ==> r == Failure(LastAdmin)
    ensures r.Success? ==> r == UpdateMemberRole(db, requester, g, target, role)
  {
    if !IsAdmin(db, g, requester) then Failure(OnlyAdmins)
    else if !IsMember(db, g, target) then Failure(MemberNotFound)
    else if IsAdmin(db, g, target) && role == Member && |Admins(db, g)| <= 1 then Failure(LastAdmin)
    else Success(db.(members := SetRole(db.members, g, target, role)))
  }

  /** With the guard, a role change never leaves a group that had an admin without one. */
  lemma GuardedRoleChangeKeepsAnAdmin(db: Db, requester: UserId, g: GroupId, target: UserId, role: Role)
    requires UniqueMemberships(db.members)
    requires |Admins(db, g)| >= 1
    requires UpdateMemberRoleGuarded(db, requester, g, target, role).Success?
    ensures |Admins(UpdateMemberRoleGuarded(db, requester, g, target, role).value, g)| >= 1
  {
    var r := UpdateMemberRoleGuarded(db, requester, g, target, role).value;
    assert r.members == SetRole(db.members, g, target, role);
    var k: nat;
    if role == Admin {
      var theirs := FindMembership(db, g, target).value;
      k :| 0 <= k < |db.members| && db.members[k] == theirs;
    } else {
      assert IsAdmin(db, g, target) ==> |Admins(db, g)| >= 2;
      k := OtherAdmin(db, g, target);
    }
    assert r.members[k].groupId == g && r.members[k].role == Admin;
    assert r.members[k] in Admins(r, g);
  }

  /** After a successful regeneration, the new code leads to this group. */
  lemma RegeneratedCodeFindsGroup(db: Db, requester: UserId, g: GroupId, code: string)
    requires RegenerateInviteCode(db, requester, g, code).Success?
    ensures FindGroupByCode(RegenerateInviteCode(db, requester, g, code).value, code).Some?
    ensures FindGroupByCode(RegenerateInviteCode(db, requester, g, code).value, code).value.id == g
  {
    var r := RegenerateInviteCode(db, requester, g, code).value;
    var found := FindGroup(db, g).value;
    var i :| 0 <= i < |db.groups| && db.groups[i] == found;
    assert r.groups[i].inviteCode == code;
    var hit := FindGroupByCode(r, code).value;
    var j :| 0 <= j < |r.groups| && r.groups[j] == hit;
  }

  /** Deleting a group leaves the balances of every other group unchanged. */
  lemma DeleteGroupKeepsOtherBalances(db: Db, requester: UserId, g: GroupId, h: GroupId)
    requires h != g
    requires UniqueExpenseIds(db.expenses)
    requires DeleteGroup(db, requester, g).Success?
    ensures GroupBalances(DeleteGroup(db, requester, g).value, h) == GroupBalances(db, h)
  {
    var r := DeleteGroup(db, requester, g).value;
    var ids := ExpenseIds(db, g);
    assert r.members == Filter(db.members, (m: MemberRow) => m.groupId != g);
    assert r.expenses == Filter(db.expenses, (e: ExpenseRow) => e.groupId != g);
    assert r.shares == Filter(db.shares, (s: ShareRow) => s.expenseId !in ids);
    assert r.payments == Filter(db.payments, (p: PaymentRow) => p.groupId != g);
    FilterFilter(db.members, (m: MemberRow) => m.groupId != g, (m: MemberRow) => m.groupId == h);
    FilterFilter(db.expenses, (e: ExpenseRow) => e.groupId != g, (e: ExpenseRow) => e.groupId == h);
    FilterFilter(db.payments, (p: PaymentRow) => p.groupId != g, (p: PaymentRow) => p.groupId == h);
    assert Roster(r, h) == Roster(db, h);
    assert GroupExpenses(r, h) == GroupExpenses(db, h);
    assert GroupPayments(r, h) == GroupPayments(db, h);
    var es := GroupExpenses(db, h);
    forall i | 0 <= i < |es|
      ensures SharesOf(r.shares, es[i].id) == SharesOf(db.shares, es[i].id)
    {
      var e := es[i];
      assert e.id !in ids by {
        if e.id in ids {
          var e' :| e' in db.expenses && e'.groupId == g && e'.id == e.id;
          SameExpense(db.expenses, e, e');
        }
      }
      FilterFilter(db.shares, (s: ShareRow) => s.expenseId !in ids, (s: ShareRow) => s.expenseId == e.id);
    }
    BalancesSharesAgree(Roster(db, h), es, r.shares, db.shares, GroupPayments(db, h));
  }
}

=== FILE: money.dfy ===
/**
 * Currency amounts as integer cents, and the decimal rounding the
 * application applies with `toFixed`: to the nearest unit, a tie going away
 * from zero.
 */
module Money {

  /** An amount of money in cents (0.01 currency unit). */
  type Cents = int

  function Abs(x: int): (r: nat)
    ensures r == x || r == -x
  {
    if x < 0 then -x else x
  }

  function Min(a: int, b: int): (r: int)
    ensures r <= a && r <= b
    ensures r == a || r == b
  {
    if a <= b then a else b
  }

  /**
   * The quotient `num / den` rounded to the nearest integer, a tie going away
   * from zero, which is how `toFixed` rounds a quotient to its last digit.
   */
  function RoundDiv(num: int, den: int): (r: int)
    requires den > 0
    ensures -den <= 2 * (num - r * den) <= den
    ensures num >= 0 ==> r >= 0 && 2 * (num - r * den) < den
    ensures num < 0 ==> r <= 0 && -den < 2 * (num - r * den)
  {
    if num >= 0 then
      var q := (2 * num + den) / (2 * den);
      DivBounds(2 * num + den, 2 * den);
      q
    else
      var q := (2 * -num + den) / (2 * den);
      DivBounds(2 * -num + den, 2 * den);
      -q
  }

  lemma DivBounds(a: int, b: int)
    requires a >= 0 && b > 0
    ensures (a / b) * b <= a < (a / b) * b + b
    ensures a / b >= 0
  {
  }

  /** Two amounts agree within the application's tolerance of one cent. */
  predicate WithinOneCent(x: int, y: int) {
    Abs(x - y) <= 1
  }
}

=== FILE: payments.dfy ===
/**
 * Payments between members of a group: recording one (always pending),
 * confirming or rejecting it by its receiver, and withdrawing a pending one.
 * Only confirmed payments take part in the balances.
 */
module Payments {
  import opened Wrappers
  import opened Money
  import opened Seqs
  import opened Domain
  import opened Balances

  // ---------------------------------------------------------------------
  // Table updates
  // ---------------------------------------------------------------------

  function Selects(p: PaymentRow, g: GroupId, id: PaymentId): bool {
    p.id == id && p.groupId == g
  }

  /** The payments table with payment `id` of group `g` moved to status `st`. */
  function SetStatus(ps: seq<PaymentRow>, g: GroupId, id: PaymentId, st: PaymentStatus): (r: seq<PaymentRow>)
    ensures |r| == |ps|
    ensures forall k :: 0 <= k < |ps| ==> r[k].id == ps[k].id && r[k].groupId == ps[k].groupId
    ensures forall k :: 0 <= k < |ps| && !Selects(ps[k], g, id) ==> r[k] == ps[k]
    ensures forall k :: 0 <= k < |ps| && Selects(ps[k], g, id) ==> r[k] == ps[k].(status := st)
  {
    if |ps| == 0 then []
    else [if Selects(ps[0], g, id) then ps[0].(status := st) else ps[0]] + SetStatus(ps[1..], g, id, st)
  }

  /** The payments table without payment `id` of group `g`. */
  function WithoutPayment(ps: seq<PaymentRow>, g: GroupId, id: PaymentId): seq<PaymentRow> {
    Filter(ps, (q: PaymentRow) => !Selects(q, g, id))
  }

  // ---------------------------------------------------------------------
  // Operations
  // ---------------------------------------------------------------------

  /**
   * Records a payment from the requester to `toUser`. Both must belong to the
   * group and they must differ; the new payment is pending.
   */
  function CreatePayment(db: Db, g: GroupId, requester: UserId, toUser: UserId, amount: Cents, id: PaymentId)
    : (r: Result<Db, Error>)
    requires ValidAmount(amount)
    ensures r.Failure? <==> !IsMember(db, g, requester) || !IsMember(db, g, toUser) || toUser == requester
    ensures !IsMember(db, g, requester) ==> r == Failure(AccessDenied)
    ensures IsMember(db, g, requester) && !IsMember(db, g, toUser) ==> r == Failure(RecipientNotMember)
    ensures IsMember(db, g, requester) && IsMember(db, g, toUser) && toUser == requester ==> r == Failure(PaymentToSelf)
    ensures r.Success? ==>
              && r.value.payments == db.payments + [PaymentRow(id, g, requester, toUser, amount, Pending)]
              && r.value.(payments := db.payments) == db
  {
    if !IsMember(db, g, requester) then Failure(AccessDenied)
    else if !IsMember(db, g, toUser) then Failure(RecipientNotMember)
    else if toUser == requester then Failure(PaymentToSelf)
    else Success(db.(payments := db.payments + [PaymentRow(id, g, requester, toUser, amount, Pending)]))
  }

  /**
   * The receiver of a pending payment confirms or rejects it. The requester
   * must be a member, the payment must exist in the group, the requester must
   * be its receiver and it must still be pending.
   */
  function UpdatePaymentStatus(db: Db, g: GroupId, requester: UserId, id: PaymentId, status: PaymentStatus)
    : (r: Result<Db, Error>)
    requires status != Pending
    ensures r.Failure? <==>
              || !IsMember(db, g, requester)
              || FindPayment(db, g, id).None?
              || FindPayment(db, g, id).value.toUser != requester
              || FindPayment(db, g, id).value.status != Pending
    ensures !IsMember(db, g, requester) ==> r == Failure(AccessDenied)
    ensures IsMember(db, g, requester) && FindPayment(db, g, id).None? ==> r == Failure(PaymentNotFound)
    ensures (IsMember(db, g, requester) && FindPayment(db, g, id).Some?
             && FindPayment(db, g, id).value.toUser != requester) ==> r == Failure(OnlyReceiver)
    ensures (IsMember(db, g, requester) && FindPayment(db, g, id).Some?
             && FindPayment(db, g, id).value.toUser == requester
             && FindPayment(db, g, id).value.status != Pending) ==> r == Failure(AlreadyProcessed)
    ensures r.Success? ==>
              && r.value.payments == SetStatus(db.payments, g, id, status)
              && r.value.(payments := db.payments) == db
  {
    if !IsMember(db, g, requester) then Failure(AccessDenied)
    else match FindPayment(db, g, id)
      case None => Failure(PaymentNotFound)
      case Some(p) =>
        if p.toUser != requester then Failure(OnlyReceiver)
        else if p.status != Pending then Failure(AlreadyProcessed)
        else Success(db.(payments := SetStatus(db.payments, g, id, status)))
  }

  /**
   * Withdraws a pending payment. The requester must be a member and either
   * the payment's sender or a group admin.
   */
  function DeletePayment(db: Db, g: GroupId, requester: UserId, id: PaymentId): (r: Result<Db, Error>)
    ensures r.Failure? <==>
              || !IsMember(db, g, requester)
              || FindPayment(db, g, id).None?
              || (FindPayment(db, g, id).value.fromUser != requester && !IsAdmin(db, g, requester))
              || FindPayment(db, g, id).value.status != Pending
    ensures !IsMember(db, g, requester) ==> r == Failure(AccessDenied)
    ensures IsMember(db, g, requester) && FindPayment(db, g, id).None? ==> r == Failure(PaymentNotFound)
    ensures (IsMember(db, g, requester) && FindPayment(db, g, id).Some?
             && FindPayment(db, g, id).value.fromUser != requester && !IsAdmin(db, g, requester))
            ==> r == Failure(OnlySenderOrAdmin)
    ensures (IsMember(db, g, requester) && FindPayment(db, g, id).Some?
             && (FindPayment(db, g, id).value.fromUser == requester || IsAdmin(db, g, requester))
             && FindPayment(db, g, id).value.status != Pending) ==> r == Failure(CannotDeleteProcessed)
    ensures r.Success? ==>
              && (forall k :: 0 <= k < |r.value.payments| ==> r.value.payments[k] in db.payments
                                                               && !Selects(r.value.payments[k], g, id))
              && (forall k :: 0 <= k < |db.payments| && !Selects(db.payments[k], g, id) ==>
                                db.payments[k] in r.value.payments)
              && r.value.(payments := db.payments) == db
  {
    match FindMembership(db, g, requester)
    case None => Failure(AccessDenied)
    case Some(m) =>
      match FindPayment(db, g, id)
      case None => Failure(PaymentNotFound)
      case Some(p) =>
        if p.fromUser != requester && m.role != Admin then Failure(OnlySenderOrAdmin)
        else if p.status != Pending then Failure(CannotDeleteProcessed)
        else Success(db.(payments := WithoutPayment(db.payments, g, id)))
  }

  // ---------------------------------------------------------------------
  // Lookup after an update
  // ---------------------------------------------------------------------

  /** After a status change the lookup finds the same payment, now carrying the new status. */
  lemma FindAfterSetStatus(db: Db, g: GroupId, id: PaymentId, st: PaymentStatus)
    requires FindPayment(db, g, id).Some?
    ensures FindPayment(db.(payments := SetStatus(db.payments, g, id, st)), g, id)
            == Some(FindPayment(db, g, id).value.(status := st))
  {
    var ps := db.payments;
    var ps' := SetStatus(ps, g, id, st);
    var key := PaymentKey(g, id);
    assert forall x :: key(x) == Selects(x, g, id);
    FindMapped(ps, ps', key, (x: PaymentRow) => x.(status := st));
  }

  /**
   * A processed payment is final: no member can change its status again, and
   * nobody can delete it.
   */
  lemma ProcessedPaymentIsFinal(db: Db, g: GroupId, receiver: UserId, id: PaymentId, status: PaymentStatus,
                                requester: UserId, again: PaymentStatus)
    requires status != Pending && again != Pending
    requires UpdatePaymentStatus(db, g, receiver, id, status).Success?
    ensures UpdatePaymentStatus(UpdatePaymentStatus(db, g, receiver, id, status).value, g, requester, id, again).Failure?
    ensures DeletePayment(UpdatePaymentStatus(db, g, receiver, id, status).value, g, requester, id).Failure?
  {
    FindAfterSetStatus(db, g, id, status);
  }

  // ---------------------------------------------------------------------
  // Effect on balances
  // ---------------------------------------------------------------------

  lemma {:induction false} PaymentsOfGroupAppend(a: seq<PaymentRow>, b: seq<PaymentRow>, g: GroupId)
    ensures PaymentsOfGroup(a + b, g) == PaymentsOfGroup(a, g) + PaymentsOfGroup(b, g)
  {
    FilterAppend(a, b, (p: PaymentRow) => p.groupId == g);
  }

  /** Recording a payment leaves every group's balances as they were: it is pending. */
  lemma CreatePaymentKeepsBalances(db: Db, g: GroupId, requester: UserId, toUser: UserId, amount: Cents,
                                   id: PaymentId, h: GroupId)
    requires ValidAmount(amount)
    requires CreatePayment(db, g, requester, toUser, amount, id).Success?
    ensures GroupBalances(CreatePayment(db, g, requester, toUser, amount, id).value, h) == GroupBalances(db, h)
  {
    var row := PaymentRow(id, g, requester, toUser, amount, Pending);
    var db' := CreatePayment(db, g, requester, toUser, amount, id).value;
    PaymentsOfGroupAppend(db.payments, [row], h);
    var before := PaymentsOfGroup(db.payments, h);
    if g == h {
      assert PaymentsOfGroup([row], h) == [row] + PaymentsOfGroup([], h);
      assert GroupPayments(db', h) == before + [row] + [];
      UnconfirmedPaymentIgnored(Roster(db, h), GroupExpenses(db, h), db.shares, before, row, []);
      assert before + [] == before;
    } else {
      assert PaymentsOfGroup([row], h) == [] + PaymentsOfGroup([], h);
      assert GroupPayments(db', h) == before;
    }
  }

  /** What moving `p` to status `st` adds to the sender's confirmed total. */
  function SentDelta(p: PaymentRow, st: PaymentStatus, u: UserId): int {
    if st == Confirmed && p.fromUser == u then p.amount else 0
  }

  function ReceivedDelta(p: PaymentRow, st: PaymentStatus, u: UserId): int {
    if st == Confirmed && p.toUser == u then p.amount else 0
  }

  lemma SetStatusNoMatch(ps: seq<PaymentRow>, g: GroupId, id: PaymentId, st: PaymentStatus)
    requires forall k :: 0 <= k < |ps| ==> ps[k].id != id
    ensures SetStatus(ps, g, id, st) == ps
  {
  }

  lemma PaymentsOfGroupCons(p: PaymentRow, ps: seq<PaymentRow>, g: GroupId)
    ensures PaymentsOfGroup([p] + ps, g) == (if p.groupId == g then [p] else []) + PaymentsOfGroup(ps, g)
  {
    assert ([p] + ps)[1..] == ps;
  }

  /** The confirmed amounts a row adds to `u`'s sent and received totals within group `g`. */
  function SentRow(p: PaymentRow, g: GroupId, u: UserId): int {
    if p.groupId == g && p.status == Confirmed && p.fromUser == u then p.amount else 0
  }

  function ReceivedRow(p: PaymentRow, g: GroupId, u: UserId): int {
    if p.groupId == g && p.status == Confirmed && p.toUser == u then p.amount else 0
  }

  lemma GroupSumsCons(p: PaymentRow, ps: seq<PaymentRow>, g: GroupId, u: UserId)
    ensures SentBy(PaymentsOfGroup([p] + ps, g), u) == SentRow(p, g, u) + SentBy(PaymentsOfGroup(ps, g), u)
    ensures ReceivedBy(PaymentsOfGroup([p] + ps, g), u) == ReceivedRow(p, g, u) + ReceivedBy(PaymentsOfGroup(ps, g), u)
  {
    PaymentsOfGroupCons(p, ps, g);
    var hs := if p.groupId == g then [p] else [];
    SentByAppend(hs, PaymentsOfGroup(ps, g), u);
    if |hs| > 0 {
      assert hs[1..] == [];
    }
  }

  lemma UniqueTail(ps: seq<PaymentRow>)
    requires |ps| > 0 && UniquePaymentIds(ps)
    ensures UniquePaymentIds(ps[1..])
    ensures forall k :: 0 <= k < |ps[1..]| ==> ps[1..][k].id != ps[0].id
  {
    forall a, b | 0 <= a < b < |ps[1..]|
      ensures ps[1..][a].id != ps[1..][b].id
    {
      assert ps[1..][a] == ps[a + 1] && ps[1..][b] == ps[b + 1];
    }
    forall k | 0 <= k < |ps[1..]|
      ensures ps[1..][k].id != ps[0].id
    {
      assert ps[1..][k] == ps[k + 1];
    }
  }

  /**
   * Moving the pending payment `p` (the only one with its id) to status `st`
   * changes the group's sent and received sums by its amount exactly when
   * `st` is confirmed.
   */
  lemma {:induction false} SetStatusSums(ps: seq<PaymentRow>, g: GroupId, p: PaymentRow, st: PaymentStatus, u: UserId)
    requires UniquePaymentIds(ps)
    requires p in ps && p.groupId == g && p.status == Pending
    ensures SentBy(PaymentsOfGroup(SetStatus(ps, g, p.id, st), g), u)
            == SentBy(PaymentsOfGroup(ps, g), u) + SentDelta(p, st, u)
    ensures ReceivedBy(PaymentsOfGroup(SetStatus(ps, g, p.id, st), g), u)
            == ReceivedBy(PaymentsOfGroup(ps, g), u) + ReceivedDelta(p, st, u)
  {
    UniqueTail(ps);
    if ps[0] == p {
      SetStatusHeadSums(ps, g, p, st, u);
    } else {
      var k :| 0 <= k < |ps| && ps[k] == p;
      assert ps[1..][k - 1] == p;
      SetStatusSums(ps[1..], g, p, st, u);
      SetStatusTailSums(ps, g, p, st, u);
    }
  }

  /** The changed payment is the first row: the rest is left as it was. */
  lemma SetStatusHeadSums(ps: seq<PaymentRow>, g: GroupId, p: PaymentRow, st: PaymentStatus, u: UserId)
    requires |ps| > 0 && ps[0] == p && p.groupId == g && p.status == Pending
    requires forall k :: 0 <= k < |ps[1..]| ==> ps[1..][k].id != p.id
    ensures SentBy(PaymentsOfGroup(SetStatus(ps, g, p.id, st), g), u)
            == SentBy(PaymentsOfGroup(ps, g), u) + SentDelta(p, st, u)
    ensures ReceivedBy(PaymentsOfGroup(SetStatus(ps, g, p.id, st), g), u)
            == ReceivedBy(PaymentsOfGroup(ps, g), u) + ReceivedDelta(p, st, u)
  {
    SetStatusNoMatch(ps[1..], g, p.id, st);
    assert SetStatus(ps, g, p.id, st) == [p.(status := st)] + ps[1..];
    assert ps == [p] + ps[1..];
    GroupSumsCons(p.(status := st), ps[1..], g, u);
    GroupSumsCons(p, ps[1..], g, u);
  }

  /** The first row is some other payment: it is kept, and the change happens in the rest. */
  lemma SetStatusTailSums(ps: seq<PaymentRow>, g: GroupId, p: PaymentRow, st: PaymentStatus, u: UserId)
    requires |ps| > 0 && ps[0].id != p.id
    requires SentBy(PaymentsOfGroup(SetStatus(ps[1..], g, p.id, st), g), u)
             == SentBy(PaymentsOfGroup(ps[1..], g), u) + SentDelta(p, st, u)
    requires ReceivedBy(PaymentsOfGroup(SetStatus(ps[1..], g, p.id, st), g), u)
             == ReceivedBy(PaymentsOfGroup(ps[1..], g), u) + ReceivedDelta(p, st, u)
    ensures SentBy(PaymentsOfGroup(SetStatus(ps, g, p.id, st), g), u)
            == SentBy(PaymentsOfGroup(ps, g), u) + SentDelta(p, st, u)
    ensures ReceivedBy(PaymentsOfGroup(SetStatus(ps, g, p.id, st), g), u)
            == ReceivedBy(PaymentsOfGroup(ps, g), u) + ReceivedDelta(p, st, u)
  {
    assert SetStatus(ps, g, p.id, st) == [ps[0]] + SetStatus(ps[1..], g, p.id, st);
    assert ps == [ps[0]] + ps[1..];
    GroupSumsCons(ps[0], SetStatus(ps[1..], g, p.id, st), g, u);
    GroupSumsCons(ps[0], ps[1..], g, u);
  }


  /**
   * Confirming a payment raises the sender's balance and lowers the
   * receiver's by its amount; rejecting it changes no balance. Every other
   * member's balance is unchanged either way.
   */
  lemma StatusChangeEffect(db: Db, g: GroupId, requester: UserId, id: PaymentId, status: PaymentStatus)
    requires status != Pending
    requires UniquePaymentIds(db.payments)
    requires UpdatePaymentStatus(db, g, requester, id, status).Success?
    ensures forall i :: 0 <= i < |Roster(db, g)| ==>
              GroupBalances(UpdatePaymentStatus(db, g, requester, id, status).value, g)[i].balance
              == GroupBalances(db, g)[i].balance
                 + SentDelta(FindPayment(db, g, id).value, status, Roster(db, g)[i])
                 - ReceivedDelta(FindPayment(db, g, id).value, status, Roster(db, g)[i])
  {
    var p := FindPayment(db, g, id).value;
    var after := UpdatePaymentStatus(db, g, requester, id, status).value;
    forall i | 0 <= i < |Roster(db, g)|
      ensures GroupBalances(after, g)[i].balance
              == GroupBalances(db, g)[i].balance + SentDelta(p, status, Roster(db, g)[i])
                 - ReceivedDelta(p, status, Roster(db, g)[i])
    {
      BalanceAfterStatus(db, after, g, p, status, i);
    }
  }

  /** One member's balance once pending payment `p` of group `g` gets status `st`. */
  lemma BalanceAfterStatus(db: Db, after: Db, g: GroupId, p: PaymentRow, st: PaymentStatus, i: nat)
    requires UniquePaymentIds(db.payments)
    requires p in db.payments && p.groupId == g && p.status == Pending
    requires after == db.(payments := SetStatus(db.payments, g, p.id, st))
    requires i < |Roster(db, g)|
    ensures i < |Roster(after, g)|
    ensures GroupBalances(after, g)[i].balance
            == GroupBalances(db, g)[i].balance + SentDelta(p, st, Roster(db, g)[i]) - ReceivedDelta(p, st, Roster(db, g)[i])
  {
    assert Roster(after, g) == Roster(db, g);
    SetStatusSums(db.payments, g, p, st, Roster(db, g)[i]);
  }


  lemma {:induction false} WithoutPendingSums(ps: seq<PaymentRow>, g: GroupId, id: PaymentId, h: GroupId, u: UserId)
    requires forall k :: 0 <= k < |ps| && Selects(ps[k], g, id) ==> ps[k].status != Confirmed
    ensures SentBy(PaymentsOfGroup(WithoutPayment(ps, g, id), h), u) == SentBy(PaymentsOfGroup(ps, h), u)
    ensures ReceivedBy(PaymentsOfGroup(WithoutPayment(ps, g, id), h), u) == ReceivedBy(PaymentsOfGroup(ps, h), u)
  {
    if |ps| > 0 {
      var rest := WithoutPayment(ps[1..], g, id);
      assert forall k :: 0 <= k < |ps[1..]| ==> ps[1..][k] == ps[k + 1];
      WithoutPendingSums(ps[1..], g, id, h, u);
      assert ps == [ps[0]] + ps[1..];
      GroupSumsCons(ps[0], ps[1..], h, u);
      if Selects(ps[0], g, id) {
        assert WithoutPayment(ps, g, id) == rest;
      } else {
        assert WithoutPayment(ps, g, id) == [ps[0]] + rest;
        GroupSumsCons(ps[0], rest, h, u);
      }
    }
  }

  /** With unique ids, the payment the lookup finds is the only row it could have found. */
  lemma OnlyFoundSelected(db: Db, g: GroupId, id: PaymentId)
    requires UniquePaymentIds(db.payments) && FindPayment(db, g, id).Some?
    ensures forall k :: 0 <= k < |db.payments| && Selects(db.payments[k], g, id) ==>
              db.payments[k] == FindPayment(db, g, id).value
  {
    var ps := db.payments;
    var p := FindPayment(db, g, id).value;
    var j :| 0 <= j < |ps| && ps[j] == p;
    forall k | 0 <= k < |ps| && Selects(ps[k], g, id)
      ensures k == j
    {
    }
  }

  /** Payment lists with the same confirmed sums for everybody give the same balances. */
  lemma SamePaymentSums(roster: seq<UserId>, expenses: seq<ExpenseRow>, shareTable: seq<ShareRow>,
                        p1: seq<PaymentRow>, p2: seq<PaymentRow>)
    requires forall u :: SentBy(p1, u) == SentBy(p2, u) && ReceivedBy(p1, u) == ReceivedBy(p2, u)
    ensures CalculateBalances(roster, expenses, shareTable, p1) == CalculateBalances(roster, expenses, shareTable, p2)
  {
    var a := CalculateBalances(roster, expenses, shareTable, p1);
    var b := CalculateBalances(roster, expenses, shareTable, p2);
    forall i | 0 <= i < |roster|
      ensures a[i] == b[i]
    {
      assert SentBy(p1, roster[i]) == SentBy(p2, roster[i]);
    }
  }

  /** Withdrawing a payment changes no group's balances: only pending payments can go. */
  lemma DeletePaymentKeepsBalances(db: Db, g: GroupId, requester: UserId, id: PaymentId, h: GroupId)
    requires UniquePaymentIds(db.payments)
    requires DeletePayment(db, g, requester, id).Success?
    ensures GroupBalances(DeletePayment(db, g, requester, id).value, h) == GroupBalances(db, h)
  {
    var db' := DeletePayment(db, g, requester, id).value;
    var ps := db.payments;
    assert FindPayment(db, g, id).value.status == Pending;
    OnlyFoundSelected(db, g, id);
    assert forall k :: 0 <= k < |ps| && Selects(ps[k], g, id) ==> ps[k].status != Confirmed;
    assert db' == db.(payments := WithoutPayment(ps, g, id));
    forall u
      ensures SentBy(GroupPayments(db', h), u) == SentBy(GroupPayments(db, h), u)
      ensures ReceivedBy(GroupPayments(db', h), u) == ReceivedBy(GroupPayments(db, h), u)
    {
      WithoutPendingSums(ps, g, id, h, u);
    }
    assert Roster(db', h) == Roster(db, h) && GroupExpenses(db', h) == GroupExpenses(db, h);
    SamePaymentSums(Roster(db, h), GroupExpenses(db, h), db.shares, GroupPayments(db', h), GroupPayments(db, h));
  }
}

=== FILE: seqs.dfy ===
/** Generic sequence helpers: filtering, mapping and first-match lookup. */
module Seqs {
  import opened Wrappers

  /** The elements of `xs` that satisfy `p`, in their original order. */
  function Filter<T>(xs: seq<T>, p: T -> bool): (r: seq<T>)
    ensures |r| <= |xs|
    ensures forall i :: 0 <= i < |r| ==> r[i] in xs && p(r[i])
    ensures forall i :: 0 <= i < |xs| && p(xs[i]) ==> xs[i] in r
  {
    if |xs| == 0 then []
    else (if p(xs[0]) then [xs[0]] else []) + Filter(xs[1..], p)
  }

  lemma {:induction false} FilterAppend<T>(xs: seq<T>, ys: seq<T>, p: T -> bool)
    ensures Filter(xs + ys, p) == Filter(xs, p) + Filter(ys, p)
  {
    if |xs| == 0 {
      assert xs + ys == ys;
    } else {
      assert (xs + ys)[1..] == xs[1..] + ys;
      FilterAppend(xs[1..], ys, p);
    }
  }

  lemma {:induction false} FilterKeepsAll<T>(xs: seq<T>, p: T -> bool)
    requires forall i :: 0 <= i < |xs| ==> p(xs[i])
    ensures Filter(xs, p) == xs
  {
    if |xs| > 0 {
      FilterKeepsAll(xs[1..], p);
    }
  }

  /** `f` applied to every element of `xs`. */
  function Map<T, U>(xs: seq<T>, f: T -> U): (r: seq<U>)
    ensures |r| == |xs|
    ensures forall i :: 0 <= i < |xs| ==> r[i] == f(xs[i])
  {
    if |xs| == 0 then [] else [f(xs[0])] + Map(xs[1..], f)
  }

  /** The first element of `xs` that satisfies `p`, as `Array.prototype.find` does. */
  function Find<T>(xs: seq<T>, p: T -> bool): (r: Option<T>)
    ensures r.None? <==> forall i :: 0 <= i < |xs| ==> !p(xs[i])
    ensures r.Some? ==> exists i :: 0 <= i < |xs| && xs[i] == r.value && p(r.value)
                                    && forall j :: 0 <= j < i ==> !p(xs[j])
  {
    if |xs| == 0 then None
    else if p(xs[0]) then Some(xs[0])
    else
      var r := Find(xs[1..], p);
      if r.Some? then
        ghost var i :| 0 <= i < |xs[1..]| && xs[1..][i] == r.value && p(r.value)
                       && forall j :: 0 <= j < i ==> !p(xs[1..][j]);
        assert xs[i + 1] == r.value;
        r
      else r
  }

  /**
   * When `ys` agrees with `xs` on which positions satisfy `p`, and holds
   * `f` of the element at each such position, the lookup in `ys` finds `f`
   * of what the lookup in `xs` finds.
   */
  lemma {:induction false} FindMapped<T>(xs: seq<T>, ys: seq<T>, p: T -> bool, f: T -> T)
    requires |xs| == |ys|
    requires forall i :: 0 <= i < |xs| ==> (p(xs[i]) <==> p(ys[i]))
    requires forall i :: 0 <= i < |xs| && p(xs[i]) ==> ys[i] == f(xs[i])
    ensures Find(ys, p) == if Find(xs, p).Some? then Some(f(Find(xs, p).value)) else None
  {
    if |xs| > 0 && !p(xs[0]) {
      assert forall i :: 0 <= i < |xs[1..]| ==> xs[1..][i] == xs[i + 1] && ys[1..][i] == ys[i + 1];
      FindMapped(xs[1..], ys[1..], p, f);
    }
  }

  /** Two selected elements come from two distinct positions of the input. */
  lemma {:induction false} FilterTwo<T>(xs: seq<T>, p: T -> bool)
    requires |Filter(xs, p)| >= 2
    ensures exists i, j :: 0 <= i < j < |xs| && p(xs[i]) && p(xs[j])
  {
    var rest := Filter(xs[1..], p);
    if p(xs[0]) {
      assert |rest| >= 1;
      var k :| 0 <= k < |xs[1..]| && xs[1..][k] == rest[0];
      assert p(xs[0]) && p(xs[k + 1]);
    } else {
      FilterTwo(xs[1..], p);
      var i, j :| 0 <= i < j < |xs[1..]| && p(xs[1..][i]) && p(xs[1..][j]);
      assert p(xs[i + 1]) && p(xs[j + 1]);
    }
  }

  /** Filtering by `q` after a weaker filter `p` is filtering by `q` alone. */
  lemma {:induction false} FilterFilter<T>(xs: seq<T>, p: T -> bool, q: T -> bool)
    requires forall i :: 0 <= i < |xs| && q(xs[i]) ==> p(xs[i])
    ensures Filter(Filter(xs, p), q) == Filter(xs, q)
  {
    if |xs| > 0 {
      assert forall i :: 0 <= i < |xs[1..]| ==> xs[1..][i] == xs[i + 1];
      FilterFilter(xs[1..], p, q);
      var head := if p(xs[0]) then [xs[0]] else [];
      assert Filter(xs, p) == head + Filter(xs[1..], p);
      FilterAppend(head, Filter(xs[1..], p), q);
      if p(xs[0]) {
        assert head[1..] == [];
      }
    }
  }

  lemma {:induction false} FilterNone<T>(xs: seq<T>, p: T -> bool)
    requires forall i :: 0 <= i < |xs| ==> !p(xs[i])
    ensures Filter(xs, p) == []
  {
    if |xs| > 0 {
      assert forall i :: 0 <= i < |xs[1..]| ==> xs[1..][i] == xs[i + 1];
      FilterNone(xs[1..], p);
    }
  }
}

=== FILE: settlement.dfy ===
/**
 * Settlement: the greedy reduction of balances to suggested payments.
 * Creditors (balance above 0.01) and debtors (below -0.01) are each sorted
 * by descending amount, and the two largest remaining parties are matched
 * repeatedly for the smaller of their amounts.
 */
module Settlement {
  import opened Money
  import opened Seqs
  import opened Domain
  import opened Balances
  import opened Sorting

  /** A creditor's claim or a debtor's debt, as a positive amount. */
  datatype Party = Party(user: UserId, amount: Cents)

  /** A suggested payment from a debtor to a creditor. */
  datatype Edge = Edge(from: UserId, to: UserId, amount: Cents)

  function PartyAmount(p: Party): int {
    p.amount
  }

  predicate HasParty(ps: seq<Party>, u: UserId) {
    exists j :: 0 <= j < |ps| && ps[j].user == u
  }

  predicate Positive(ps: seq<Party>) {
    forall j :: 0 <= j < |ps| ==> ps[j].amount >= 1
  }

  function Total(ps: seq<Party>): Cents {
    if |ps| == 0 then 0 else ps[0].amount + Total(ps[1..])
  }

  /** What the parties list holds for `u`. */
  function AmountOf(ps: seq<Party>, u: UserId): Cents {
    if |ps| == 0 then 0 else (if ps[0].user == u then ps[0].amount else 0) + AmountOf(ps[1..], u)
  }

  /** Total `u` pays over the edges. */
  function Out(es: seq<Edge>, u: UserId): Cents {
    if |es| == 0 then 0 else (if es[0].from == u then es[0].amount else 0) + Out(es[1..], u)
  }

  /** Total `u` receives over the edges. */
  function In(es: seq<Edge>, u: UserId): Cents {
    if |es| == 0 then 0 else (if es[0].to == u then es[0].amount else 0) + In(es[1..], u)
  }

  function EdgeTotal(es: seq<Edge>): Cents {
    if |es| == 0 then 0 else es[0].amount + EdgeTotal(es[1..])
  }

  // ---------------------------------------------------------------------
  // Partition
  // ---------------------------------------------------------------------

  /** A member's balance read as a claim. */
  function AsCreditor(b: Balance): Party {
    Party(b.user, b.balance)
  }

  /** A member's balance read as a debt. */
  function AsDebtor(b: Balance): Party {
    Party(b.user, -b.balance)
  }

  /** Members whose balance is above 0.01, with that balance, in input order. */
  function Creditors(bs: seq<Balance>): (r: seq<Party>)
    ensures |r| <= |bs|
    ensures forall j :: 0 <= j < |r| ==> r[j].amount > 1
  {
    if |bs| == 0 then []
    else (if bs[0].balance > 1 then [AsCreditor(bs[0])] else []) + Creditors(bs[1..])
  }

  /** Members whose balance is below -0.01, with the size of their debt, in input order. */
  function Debtors(bs: seq<Balance>): (r: seq<Party>)
    ensures |r| <= |bs|
    ensures forall j :: 0 <= j < |r| ==> r[j].amount > 1
  {
    if |bs| == 0 then []
    else (if bs[0].balance < -1 then [AsDebtor(bs[0])] else []) + Debtors(bs[1..])
  }

  predicate IsCreditor(bs: seq<Balance>, u: UserId) {
    exists i :: 0 <= i < |bs| && bs[i].user == u && bs[i].balance > 1
  }

  predicate IsDebtor(bs: seq<Balance>, u: UserId) {
    exists i :: 0 <= i < |bs| && bs[i].user == u && bs[i].balance < -1
  }

  /** Exactly the members above 0.01 are creditors, each with its balance. */
  lemma {:induction false} CreditorsSound(bs: seq<Balance>)
    ensures forall j :: 0 <= j < |Creditors(bs)| ==>
              exists i :: 0 <= i < |bs| && Creditors(bs)[j] == AsCreditor(bs[i])
    ensures forall i :: 0 <= i < |bs| && bs[i].balance > 1 ==> AsCreditor(bs[i]) in Creditors(bs)
  {
    if |bs| == 0 {
      assert Creditors(bs) == [];
    } else {
      CreditorsSound(bs[1..]);
      var ch := if bs[0].balance > 1 then [AsCreditor(bs[0])] else [];
      var cr := Creditors(bs[1..]);
      var all := Creditors(bs);
      assert all == ch + cr;
      forall j | 0 <= j < |all|
        ensures exists i :: 0 <= i < |bs| && all[j] == AsCreditor(bs[i])
      {
        if j >= |ch| {
          assert all[j] == cr[j - |ch|];
          var i :| 0 <= i < |bs[1..]| && cr[j - |ch|] == AsCreditor(bs[1..][i]);
          assert bs[i + 1] == bs[1..][i];
        } else {
          assert all[j] == AsCreditor(bs[0]);
        }
      }
      forall i | 0 <= i < |bs| && bs[i].balance > 1
        ensures AsCreditor(bs[i]) in all
      {
        if i > 0 {
          assert bs[1..][i - 1] == bs[i];
        }
      }
    }
  }

  /** Exactly the members below -0.01 are debtors, each with the size of its debt. */
  lemma {:induction false} DebtorsSound(bs: seq<Balance>)
    ensures forall j :: 0 <= j < |Debtors(bs)| ==>
              exists i :: 0 <= i < |bs| && Debtors(bs)[j] == AsDebtor(bs[i])
    ensures forall i :: 0 <= i < |bs| && bs[i].balance < -1 ==> AsDebtor(bs[i]) in Debtors(bs)
  {
    if |bs| == 0 {
      assert Debtors(bs) == [];
    } else {
      DebtorsSound(bs[1..]);
      var dh := if bs[0].balance < -1 then [AsDebtor(bs[0])] else [];
      var dr := Debtors(bs[1..]);
      var all := Debtors(bs);
      assert all == dh + dr;
      forall j | 0 <= j < |all|
        ensures exists i :: 0 <= i < |bs| && all[j] == AsDebtor(bs[i])
      {
        if j >= |dh| {
          assert all[j] == dr[j - |dh|];
          var i :| 0 <= i < |bs[1..]| && dr[j - |dh|] == AsDebtor(bs[1..][i]);
          assert bs[i + 1] == bs[1..][i];
        } else {
          assert all[j] == AsDebtor(bs[0]);
        }
      }
      forall i | 0 <= i < |bs| && bs[i].balance < -1
        ensures AsDebtor(bs[i]) in all
      {
        if i > 0 {
          assert bs[1..][i - 1] == bs[i];
        }
      }
    }
  }

  // ---------------------------------------------------------------------
  // Greedy matching
  // ---------------------------------------------------------------------

  /** A party after paying or receiving `amount`: dropped once less than 0.01 remains. */
  function Remaining(p: Party, amount: Cents): (r: seq<Party>)
    ensures |r| <= 1
    ensures forall j :: 0 <= j < |r| ==> r[j].user == p.user && r[j].amount >= 1
  {
    if p.amount - amount < 1 then [] else [Party(p.user, p.amount - amount)]
  }

  /**
   * The suggested payments, matching the two list heads each round. A round
   * whose amount is not above 0.01 still consumes both remainders but emits
   * no edge.
   */
  function Settle(cs: seq<Party>, ds: seq<Party>): (r: seq<Edge>)
    ensures forall k :: 0 <= k < |r| ==> r[k].amount > 1
    ensures forall k :: 0 <= k < |r| ==> HasParty(ds, r[k].from) && HasParty(cs, r[k].to)
    ensures |cs| > 0 && |ds| > 0 ==> |r| <= |cs| + |ds| - 1
    ensures |cs| == 0 || |ds| == 0 ==> r == []
    decreases |cs| + |ds|
  {
    if |cs| == 0 || |ds| == 0 then []
    else
      var amount := Min(cs[0].amount, ds[0].amount);
      var cs' := Remaining(cs[0], amount) + cs[1..];
      var ds' := Remaining(ds[0], amount) + ds[1..];
      var rest := Settle(cs', ds');
      StepUsers(cs, amount);
      StepUsers(ds, amount);
      (if amount > 1 then [Edge(ds[0].user, cs[0].user, amount)] else []) + rest
  }

  /** Every round of the matching, including the silent ones of 0.01 or less. */
  function Matches(cs: seq<Party>, ds: seq<Party>): (r: seq<Edge>)
    decreases |cs| + |ds|
  {
    if |cs| == 0 || |ds| == 0 then []
    else
      var amount := Min(cs[0].amount, ds[0].amount);
      [Edge(ds[0].user, cs[0].user, amount)]
      + Matches(Remaining(cs[0], amount) + cs[1..], Remaining(ds[0], amount) + ds[1..])
  }

  lemma StepUsers(ps: seq<Party>, amount: Cents)
    requires |ps| > 0
    ensures forall u :: HasParty(Remaining(ps[0], amount) + ps[1..], u) ==> HasParty(ps, u)
  {
    var next := Remaining(ps[0], amount) + ps[1..];
    forall u | HasParty(next, u)
      ensures HasParty(ps, u)
    {
      var j :| 0 <= j < |next| && next[j].user == u;
      if j < |Remaining(ps[0], amount)| {
        assert ps[0].user == u;
      } else {
        assert ps[j - |Remaining(ps[0], amount)| + 1].user == u;
      }
    }
  }

  predicate IsEmitted(e: Edge) {
    e.amount > 1
  }

  /** The edges are exactly the rounds whose amount is above 0.01, in order. */
  lemma {:induction false} SettleIsEmittedMatches(cs: seq<Party>, ds: seq<Party>)
    ensures Settle(cs, ds) == Filter(Matches(cs, ds), IsEmitted)
    decreases |cs| + |ds|
  {
    if |cs| > 0 && |ds| > 0 {
      var amount := Min(cs[0].amount, ds[0].amount);
      var cs' := Remaining(cs[0], amount) + cs[1..];
      var ds' := Remaining(ds[0], amount) + ds[1..];
      SettleIsEmittedMatches(cs', ds');
      var m := [Edge(ds[0].user, cs[0].user, amount)];
      FilterAppend(m, Matches(cs', ds'), IsEmitted);
      assert m[1..] == [];
    }
  }

  lemma AmountOfStep(ps: seq<Party>, amount: Cents, u: UserId)
    requires |ps| > 0 && 0 <= amount <= ps[0].amount
    ensures AmountOf(Remaining(ps[0], amount) + ps[1..], u)
            == AmountOf(ps, u) - (if ps[0].user == u then amount else 0)
    ensures Total(Remaining(ps[0], amount) + ps[1..]) == Total(ps) - amount
  {
    var rem := Remaining(ps[0], amount);
    if |rem| == 0 {
      assert rem + ps[1..] == ps[1..];
    } else {
      assert (rem + ps[1..])[1..] == ps[1..];
    }
  }

  lemma PositiveStep(ps: seq<Party>, amount: Cents)
    requires |ps| > 0 && Positive(ps)
    ensures Positive(Remaining(ps[0], amount) + ps[1..])
  {
    var next := Remaining(ps[0], amount) + ps[1..];
    forall j | 0 <= j < |next|
      ensures next[j].amount >= 1
    {
      if j >= |Remaining(ps[0], amount)| {
        assert next[j] == ps[j - |Remaining(ps[0], amount)| + 1];
      }
    }
  }

  /**
   * No debtor pays more than its debt and no creditor receives more than its
   * claim, counting the suggested payments only.
   */
  lemma {:induction false} SettleBounded(cs: seq<Party>, ds: seq<Party>, u: UserId)
    requires Positive(cs) && Positive(ds)
    ensures Out(Settle(cs, ds), u) <= AmountOf(ds, u)
    ensures In(Settle(cs, ds), u) <= AmountOf(cs, u)
    decreases |cs| + |ds|
  {
    if |cs| == 0 || |ds| == 0 {
      AmountOfNonNegative(cs, u);
      AmountOfNonNegative(ds, u);
    } else {
      var amount := Min(cs[0].amount, ds[0].amount);
      var cs' := Remaining(cs[0], amount) + cs[1..];
      var ds' := Remaining(ds[0], amount) + ds[1..];
      PositiveStep(cs, amount);
      PositiveStep(ds, amount);
      AmountOfStep(cs, amount, u);
      AmountOfStep(ds, amount, u);
      SettleBounded(cs', ds', u);
      var emitted := if amount > 1 then [Edge(ds[0].user, cs[0].user, amount)] else [];
      EdgeSumsAppend(emitted, Settle(cs', ds'), u);
      if amount > 1 {
        assert emitted[1..] == [];
      }
    }
  }

  lemma {:induction false} AmountOfNonNegative(ps: seq<Party>, u: UserId)
    requires Positive(ps)
    ensures AmountOf(ps, u) >= 0
    ensures Total(ps) >= |ps|
  {
    if |ps| > 0 {
      AmountOfNonNegative(ps[1..], u);
    }
  }

  lemma {:induction false} EdgeSumsAppend(a: seq<Edge>, b: seq<Edge>, u: UserId)
    ensures Out(a + b, u) == Out(a, u) + Out(b, u)
    ensures In(a + b, u) == In(a, u) + In(b, u)
    ensures EdgeTotal(a + b) == EdgeTotal(a) + EdgeTotal(b)
  {
    if |a| == 0 {
      assert a + b == b;
    } else {
      assert (a + b)[1..] == a[1..] + b;
      EdgeSumsAppend(a[1..], b, u);
    }
  }

  /**
   * Counting every round, the matching moves exactly the smaller of the two
   * sides' totals; when the totals are equal every party is matched in full.
   */
  lemma {:induction false} MatchesExact(cs: seq<Party>, ds: seq<Party>, u: UserId)
    requires Positive(cs) && Positive(ds)
    ensures EdgeTotal(Matches(cs, ds)) == Min(Total(cs), Total(ds))
    ensures Total(cs) == Total(ds) ==>
              Out(Matches(cs, ds), u) == AmountOf(ds, u) && In(Matches(cs, ds), u) == AmountOf(cs, u)
    decreases |cs| + |ds|
  {
    AmountOfNonNegative(cs, u);
    AmountOfNonNegative(ds, u);
    if |cs| > 0 && |ds| > 0 {
      var amount := Min(cs[0].amount, ds[0].amount);
      var cs' := Remaining(cs[0], amount) + cs[1..];
      var ds' := Remaining(ds[0], amount) + ds[1..];
      PositiveStep(cs, amount);
      PositiveStep(ds, amount);
      AmountOfStep(cs, amount, u);
      AmountOfStep(ds, amount, u);
      MatchesExact(cs', ds', u);
      var m := [Edge(ds[0].user, cs[0].user, amount)];
      EdgeSumsAppend(m, Matches(cs', ds'), u);
      assert m[1..] == [];
    } else if Total(cs) == Total(ds) {
      assert |cs| == 0 && |ds| == 0;
    }
  }

  // ---------------------------------------------------------------------
  // calculateDebts: partition, sort, match
  // ---------------------------------------------------------------------

  function SortedCreditors(bs: seq<Balance>): seq<Party> {
    SortDesc(Creditors(bs), PartyAmount)
  }

  function SortedDebtors(bs: seq<Balance>): seq<Party> {
    SortDesc(Debtors(bs), PartyAmount)
  }

  /** The suggested payments for a set of balances. */
  function CalculateDebts(bs: seq<Balance>): (r: seq<Edge>)
    ensures forall k :: 0 <= k < |r| ==> r[k].amount > 1
    ensures |Creditors(bs)| > 0 && |Debtors(bs)| > 0 ==> |r| <= |Creditors(bs)| + |Debtors(bs)| - 1
    ensures |Creditors(bs)| == 0 || |Debtors(bs)| == 0 ==> r == []
  {
    Settle(SortedCreditors(bs), SortedDebtors(bs))
  }

  lemma SortedPositive(ps: seq<Party>)
    requires forall j :: 0 <= j < |ps| ==> ps[j].amount > 1
    ensures Positive(SortDesc(ps, PartyAmount))
  {
    var s := SortDesc(ps, PartyAmount);
    forall j | 0 <= j < |s|
      ensures s[j].amount >= 1
    {
      assert s[j] in multiset(ps);
      var k :| 0 <= k < |ps| && ps[k] == s[j];
    }
  }

  /** A party of the sorted debtors is a member below -0.01. */
  lemma SortedDebtorIsDebtor(bs: seq<Balance>, a: nat)
    requires a < |SortedDebtors(bs)|
    ensures IsDebtor(bs, SortedDebtors(bs)[a].user)
  {
    var d := SortedDebtors(bs)[a];
    DebtorsSound(bs);
    assert d in multiset(Debtors(bs));
    var j :| 0 <= j < |Debtors(bs)| && Debtors(bs)[j] == d;
    var i :| 0 <= i < |bs| && Debtors(bs)[j] == AsDebtor(bs[i]);
    assert bs[i].user == d.user && bs[i].balance < -1;
  }

  /** A party of the sorted creditors is a member above 0.01. */
  lemma SortedCreditorIsCreditor(bs: seq<Balance>, b: nat)
    requires b < |SortedCreditors(bs)|
    ensures IsCreditor(bs, SortedCreditors(bs)[b].user)
  {
    var c := SortedCreditors(bs)[b];
    CreditorsSound(bs);
    assert c in multiset(Creditors(bs));
    var j :| 0 <= j < |Creditors(bs)| && Creditors(bs)[j] == c;
    var i :| 0 <= i < |bs| && Creditors(bs)[j] == AsCreditor(bs[i]);
    assert bs[i].user == c.user && bs[i].balance > 1;
  }

  /** Every suggested payment goes from a member below -0.01 to a member above 0.01. */
  lemma DebtsJoinDebtorsToCreditors(bs: seq<Balance>)
    ensures forall k :: 0 <= k < |CalculateDebts(bs)| ==>
              IsDebtor(bs, CalculateDebts(bs)[k].from) && IsCreditor(bs, CalculateDebts(bs)[k].to)
  {
    var cs := SortedCreditors(bs);
    var ds := SortedDebtors(bs);
    var r := CalculateDebts(bs);
    forall k | 0 <= k < |r|
      ensures IsDebtor(bs, r[k].from) && IsCreditor(bs, r[k].to)
    {
      var a :| 0 <= a < |ds| && ds[a].user == r[k].from;
      SortedDebtorIsDebtor(bs, a);
      var b :| 0 <= b < |cs| && cs[b].user == r[k].to;
      SortedCreditorIsCreditor(bs, b);
    }
  }

  /** Every member has a sorted position: sorting keeps the parties, only reorders them. */
  lemma {:induction false} AmountOfInsert(x: Party, s: seq<Party>, u: UserId)
    ensures AmountOf(Insert(x, s, PartyAmount), u) == (if x.user == u then x.amount else 0) + AmountOf(s, u)
    ensures Total(Insert(x, s, PartyAmount)) == x.amount + Total(s)
  {
    if |s| > 0 && s[0].amount > x.amount {
      var rest := Insert(x, s[1..], PartyAmount);
      assert Insert(x, s, PartyAmount) == [s[0]] + rest;
      assert ([s[0]] + rest)[1..] == rest;
      AmountOfInsert(x, s[1..], u);
    } else if |s| > 0 {
      assert ([x] + s)[1..] == s;
    } else {
      assert [x][1..] == [];
    }
  }

  lemma {:induction false} AmountOfSort(ps: seq<Party>, u: UserId)
    ensures AmountOf(SortDesc(ps, PartyAmount), u) == AmountOf(ps, u)
    ensures Total(SortDesc(ps, PartyAmount)) == Total(ps)
  {
    if |ps| > 0 {
      AmountOfSort(ps[1..], u);
      AmountOfInsert(ps[0], SortDesc(ps[1..], PartyAmount), u);
    }
  }

  /** The debt the debtor list records for the member at position i (users without repeats). */
  lemma {:induction false} AmountOfDebtors(bs: seq<Balance>, i: nat)
    requires DistinctUsers(bs) && i < |bs|
    ensures AmountOf(Debtors(bs), bs[i].user) == (if bs[i].balance < -1 then -bs[i].balance else 0)
    ensures AmountOf(Creditors(bs), bs[i].user) == (if bs[i].balance > 1 then bs[i].balance else 0)
  {
    var head := if bs[0].balance < -1 then [AsDebtor(bs[0])] else [];
    var chead := if bs[0].balance > 1 then [AsCreditor(bs[0])] else [];
    assert Debtors(bs) == head + Debtors(bs[1..]);
    assert Creditors(bs) == chead + Creditors(bs[1..]);
    AmountOfAppend(head, Debtors(bs[1..]), bs[i].user);
    AmountOfAppend(chead, Creditors(bs[1..]), bs[i].user);
    if |head| > 0 {
      assert head[1..] == [];
    }
    if |chead| > 0 {
      assert chead[1..] == [];
    }
    if i == 0 {
      AmountOfAbsent(bs[1..], bs[0].user);
    } else {
      assert bs[1..][i - 1] == bs[i];
      AmountOfDebtors(bs[1..], i - 1);
    }
  }

  lemma {:induction false} AmountOfAbsent(bs: seq<Balance>, u: UserId)
    requires forall i :: 0 <= i < |bs| ==> bs[i].user != u
    ensures AmountOf(Debtors(bs), u) == 0
    ensures AmountOf(Creditors(bs), u) == 0
  {
    if |bs| > 0 {
      var head := if bs[0].balance < -1 then [AsDebtor(bs[0])] else [];
      var chead := if bs[0].balance > 1 then [AsCreditor(bs[0])] else [];
      assert Debtors(bs) == head + Debtors(bs[1..]);
      assert Creditors(bs) == chead + Creditors(bs[1..]);
      AmountOfAppend(head, Debtors(bs[1..]), u);
      AmountOfAppend(chead, Creditors(bs[1..]), u);
      if |head| > 0 {
        assert head[1..] == [];
      }
      if |chead| > 0 {
        assert chead[1..] == [];
      }
      AmountOfAbsent(bs[1..], u);
    }
  }

  lemma {:induction false} AmountOfAppend(a: seq<Party>, b: seq<Party>, u: UserId)
    ensures AmountOf(a + b, u) == AmountOf(a, u) + AmountOf(b, u)
    ensures Total(a + b) == Total(a) + Total(b)
  {
    if |a| == 0 {
      assert a + b == b;
    } else {
      assert (a + b)[1..] == a[1..] + b;
      AmountOfAppend(a[1..], b, u);
    }
  }

  /**
   * A member pays at most its debt and receives at most its claim; a member
   * within 0.01 of zero takes part in no suggested payment.
   */
  lemma DebtsBounded(bs: seq<Balance>, i: nat)
    requires DistinctUsers(bs) && i < |bs|
    ensures Out(CalculateDebts(bs), bs[i].user) <= (if bs[i].balance < -1 then -bs[i].balance else 0)
    ensures In(CalculateDebts(bs), bs[i].user) <= (if bs[i].balance > 1 then bs[i].balance else 0)
  {
    var u := bs[i].user;
    var cs := SortedCreditors(bs);
    var ds := SortedDebtors(bs);
    SortedPositive(Creditors(bs));
    SortedPositive(Debtors(bs));
    SettleBounded(cs, ds, u);
    assert Out(CalculateDebts(bs), u) <= AmountOf(ds, u);
    assert In(CalculateDebts(bs), u) <= AmountOf(cs, u);
    AmountOfSort(Creditors(bs), u);
    AmountOfSort(Debtors(bs), u);
    AmountOfDebtors(bs, i);
  }

  // ---------------------------------------------------------------------
  // Completeness and the first round
  // ---------------------------------------------------------------------

  /** No member sits exactly 0.01 away from zero, so the partition drops only zero balances. */
  predicate NoMarginal(bs: seq<Balance>) {
    forall i :: 0 <= i < |bs| ==> bs[i].balance != 1 && bs[i].balance != -1
  }

  lemma {:induction false} PartitionTotals(bs: seq<Balance>)
    requires NoMarginal(bs)
    ensures Total(Creditors(bs)) - Total(Debtors(bs)) == BalanceTotal(bs)
  {
    if |bs| > 0 {
      var ch := if bs[0].balance > 1 then [AsCreditor(bs[0])] else [];
      var dh := if bs[0].balance < -1 then [AsDebtor(bs[0])] else [];
      assert Creditors(bs) == ch + Creditors(bs[1..]);
      assert Debtors(bs) == dh + Debtors(bs[1..]);
      AmountOfAppend(ch, Creditors(bs[1..]), bs[0].user);
      AmountOfAppend(dh, Debtors(bs[1..]), bs[0].user);
      if |ch| > 0 {
        assert ch[1..] == [];
      }
      if |dh| > 0 {
        assert dh[1..] == [];
      }
      PartitionTotals(bs[1..]);
    }
  }

  /** Every round of the matching on the balances, including the silent ones. */
  function AllRounds(bs: seq<Balance>): seq<Edge> {
    Matches(SortedCreditors(bs), SortedDebtors(bs))
  }

  /**
   * When the balances sum to zero and none is exactly 0.01 from zero, the
   * rounds of the matching settle every member completely; the suggested
   * payments are those rounds above 0.01.
   */
  lemma DebtsSettleEverything(bs: seq<Balance>, i: nat)
    requires DistinctUsers(bs) && i < |bs|
    requires BalanceTotal(bs) == 0 && NoMarginal(bs)
    ensures bs[i].balance + Out(AllRounds(bs), bs[i].user) - In(AllRounds(bs), bs[i].user) == 0
    ensures CalculateDebts(bs) == Filter(AllRounds(bs), IsEmitted)
  {
    RoundsMatchClaims(bs, bs[i].user);
    AmountOfDebtors(bs, i);
    SettleIsEmittedMatches(SortedCreditors(bs), SortedDebtors(bs));
  }

  /** With zero total and no marginal balance, every round pays out each party's claim exactly. */
  lemma RoundsMatchClaims(bs: seq<Balance>, u: UserId)
    requires BalanceTotal(bs) == 0 && NoMarginal(bs)
    ensures Out(AllRounds(bs), u) == AmountOf(Debtors(bs), u)
    ensures In(AllRounds(bs), u) == AmountOf(Creditors(bs), u)
  {
    var cs := SortedCreditors(bs);
    var ds := SortedDebtors(bs);
    SortedPositive(Creditors(bs));
    SortedPositive(Debtors(bs));
    PartitionTotals(bs);
    AmountOfSort(Creditors(bs), u);
    AmountOfSort(Debtors(bs), u);
    MatchesExact(cs, ds, u);
  }

  /** The largest amount among the parties bounds every party's amount. */
  lemma SortedHeadIsMax(ps: seq<Party>)
    requires |ps| > 0
    ensures forall j :: 0 <= j < |ps| ==> ps[j].amount <= SortDesc(ps, PartyAmount)[0].amount
    ensures SortDesc(ps, PartyAmount)[0] in ps
  {
    var s := SortDesc(ps, PartyAmount);
    assert s[0] in multiset(ps);
    forall j | 0 <= j < |ps|
      ensures ps[j].amount <= s[0].amount
    {
      assert ps[j] in multiset(s);
      var k :| 0 <= k < |s| && s[k] == ps[j];
      if k > 0 {
        assert PartyAmount(s[0]) >= PartyAmount(s[k]);
      }
    }
  }

  /**
   * The first suggested payment goes from the largest debtor to the largest
   * creditor, for the smaller of their two amounts.
   */
  lemma FirstDebtPairsLargest(bs: seq<Balance>)
    requires |Creditors(bs)| > 0 && |Debtors(bs)| > 0
    ensures |CalculateDebts(bs)| > 0
    ensures CalculateDebts(bs)[0].from == SortedDebtors(bs)[0].user
    ensures CalculateDebts(bs)[0].to == SortedCreditors(bs)[0].user
    ensures CalculateDebts(bs)[0].amount == Min(SortedCreditors(bs)[0].amount, SortedDebtors(bs)[0].amount)
    ensures forall j :: 0 <= j < |Debtors(bs)| ==> Debtors(bs)[j].amount <= SortedDebtors(bs)[0].amount
    ensures forall j :: 0 <= j < |Creditors(bs)| ==> Creditors(bs)[j].amount <= SortedCreditors(bs)[0].amount
  {
    var cs := SortedCreditors(bs);
    var ds := SortedDebtors(bs);
    SortedHeadIsMax(Creditors(bs));
    SortedHeadIsMax(Debtors(bs));
    var amount := Min(cs[0].amount, ds[0].amount);
    assert amount > 1;
    var rest := Settle(Remaining(cs[0], amount) + cs[1..], Remaining(ds[0], amount) + ds[1..]);
    assert Settle(cs, ds) == [Edge(ds[0].user, cs[0].user, amount)] + rest;
  }

  // ---------------------------------------------------------------------
  // One member's view
  // ---------------------------------------------------------------------

  /** The payments one member is suggested to make and to receive. */
  datatype UserDebts = UserDebts(owes: seq<Edge>, owedBy: seq<Edge>, totalOwes: Cents, totalOwedBy: Cents, netBalance: Cents)

  function Owes(es: seq<Edge>, u: UserId): seq<Edge> {
    Filter(es, (e: Edge) => e.from == u)
  }

  function OwedBy(es: seq<Edge>, u: UserId): seq<Edge> {
    Filter(es, (e: Edge) => e.to == u)
  }

  lemma {:induction false} OwesTotal(es: seq<Edge>, u: UserId)
    ensures EdgeTotal(Owes(es, u)) == Out(es, u)
    ensures EdgeTotal(OwedBy(es, u)) == In(es, u)
  {
    if |es| > 0 {
      OwesTotal(es[1..], u);
      var oh := if es[0].from == u then [es[0]] else [];
      var ih := if es[0].to == u then [es[0]] else [];
      assert Owes(es, u) == oh + Owes(es[1..], u);
      assert OwedBy(es, u) == ih + OwedBy(es[1..], u);
      EdgeSumsAppend(oh, Owes(es[1..], u), u);
      EdgeSumsAppend(ih, OwedBy(es[1..], u), u);
      if |oh| > 0 {
        assert oh[1..] == [];
      }
      if |ih| > 0 {
        assert ih[1..] == [];
      }
    }
  }

  /** The member's outgoing and incoming suggestions, their totals and the net of the two. */
  function GetUserDebts(es: seq<Edge>, u: UserId): (r: UserDebts)
    ensures forall k :: 0 <= k < |r.owes| ==> r.owes[k] in es && r.owes[k].from == u
    ensures forall k :: 0 <= k < |es| && es[k].from == u ==> es[k] in r.owes
    ensures forall k :: 0 <= k < |r.owedBy| ==> r.owedBy[k] in es && r.owedBy[k].to == u
    ensures forall k :: 0 <= k < |es| && es[k].to == u ==> es[k] in r.owedBy
    ensures r.owes == Owes(es, u) && r.owedBy == OwedBy(es, u)
    ensures r.totalOwes == EdgeTotal(r.owes) && r.totalOwedBy == EdgeTotal(r.owedBy)
    ensures r.totalOwes == Out(es, u) && r.totalOwedBy == In(es, u)
    ensures r.netBalance == In(es, u) - Out(es, u)
  {
    var owes := Owes(es, u);
    var owedBy := OwedBy(es, u);
    OwesTotal(es, u);
    UserDebts(owes, owedBy, EdgeTotal(owes), EdgeTotal(owedBy), EdgeTotal(owedBy) - EdgeTotal(owes))
  }

  /** A member is never told to pay more than its debt nor to expect more than its claim. */
  lemma UserDebtsBounded(bs: seq<Balance>, i: nat)
    requires DistinctUsers(bs) && i < |bs|
    ensures GetUserDebts(CalculateDebts(bs), bs[i].user).totalOwes <= (if bs[i].balance < -1 then -bs[i].balance else 0)
    ensures GetUserDebts(CalculateDebts(bs), bs[i].user).totalOwedBy <= (if bs[i].balance > 1 then bs[i].balance else 0)
  {
    DebtsBounded(bs, i);
  }

  // ---------------------------------------------------------------------
  // A worked example
  // ---------------------------------------------------------------------

  /** One member paid 66.66 for three; each of the other two owes 22.22 to that member. */
  lemma ThreeWaySplitExample()
    ensures CalculateDebts([Balance(1, 6666, 2222, 4444), Balance(2, 0, 2222, -2222), Balance(3, 0, 2222, -2222)])
            == [Edge(2, 1, 2222), Edge(3, 1, 2222)]
  {
    var bs := [Balance(1, 6666, 2222, 4444), Balance(2, 0, 2222, -2222), Balance(3, 0, 2222, -2222)];
    ExamplePartition(bs);
    ExampleSettle();
  }

  lemma ExamplePartition(bs: seq<Balance>)
    requires bs == [Balance(1, 6666, 2222, 4444), Balance(2, 0, 2222, -2222), Balance(3, 0, 2222, -2222)]
    ensures SortedCreditors(bs) == [Party(1, 4444)]
    ensures SortedDebtors(bs) == [Party(2, 2222), Party(3, 2222)]
  {
    ExampleSplit(bs);
    SortSingleton(Party(1, 4444));
    SortPair(Party(2, 2222), Party(3, 2222));
  }

  lemma ExampleSplit(bs: seq<Balance>)
    requires bs == [Balance(1, 6666, 2222, 4444), Balance(2, 0, 2222, -2222), Balance(3, 0, 2222, -2222)]
    ensures Creditors(bs) == [Party(1, 4444)]
    ensures Debtors(bs) == [Party(2, 2222), Party(3, 2222)]
  {
    var tail := [Balance(3, 0, 2222, -2222)];
    assert bs[1..][1..] == tail;
    assert tail[1..] == [];
    assert Creditors(tail) == [];
    assert Debtors(tail) == [Party(3, 2222)];
  }

  lemma SortSingleton(p: Party)
    ensures SortDesc([p], PartyAmount) == [p]
  {
    assert [p][1..] == [];
  }

  lemma SortPair(p: Party, q: Party)
    requires p.amount >= q.amount
    ensures SortDesc([p, q], PartyAmount) == [p, q]
  {
    assert [p, q][1..] == [q];
    SortSingleton(q);
    assert Insert(p, [q], PartyAmount) == [p] + [q];
  }

  lemma ExampleSettle()
    ensures Settle([Party(1, 4444)], [Party(2, 2222), Party(3, 2222)]) == [Edge(2, 1, 2222), Edge(3, 1, 2222)]
  {
    var cs := [Party(1, 4444)];
    var ds := [Party(2, 2222), Party(3, 2222)];
    var cs1 := [Party(1, 2222)];
    var ds1 := [Party(3, 2222)];
    assert Remaining(cs[0], 2222) + cs[1..] == cs1;
    assert Remaining(ds[0], 2222) + ds[1..] == ds1;
    assert Remaining(cs1[0], 2222) + cs1[1..] == [];
    assert Settle(cs1, ds1) == [Edge(3, 1, 2222)] + Settle([], Remaining(ds1[0], 2222) + ds1[1..]);
    assert Settle(cs, ds) == [Edge(2, 1, 2222)] + Settle(cs1, ds1);
  }
}

=== FILE: sorting.dfy ===
/**
 * Stable descending sort by an integer key: the behaviour of
 * `Array.prototype.sort((a, b) => key(b) - key(a))`, which keeps elements of
 * equal key in their original order.
 */
module Sorting {

  ghost predicate SortedDesc<T>(xs: seq<T>, key: T -> int) {
    forall i, j :: 0 <= i < j < |xs| ==> key(xs[i]) >= key(xs[j])
  }

  /** Places `x` before the first element whose key is not above its own. */
  function Insert<T(==)>(x: T, s: seq<T>, key: T -> int): (r: seq<T>)
    ensures |r| == |s| + 1
    ensures multiset(r) == multiset(s) + multiset{x}
  {
    if |s| == 0 then [x]
    else if key(s[0]) <= key(x) then [x] + s
    else
      assert s == [s[0]] + s[1..];
      [s[0]] + Insert(x, s[1..], key)
  }

  /** Inserting into a sorted sequence keeps it sorted. */
  lemma {:induction false} InsertSorted<T>(x: T, s: seq<T>, key: T -> int)
    requires SortedDesc(s, key)
    ensures SortedDesc(Insert(x, s, key), key)
  {
    if |s| > 0 && key(s[0]) > key(x) {
      var tail := s[1..];
      var rest := Insert(x, tail, key);
      InsertSorted(x, tail, key);
      forall j | 0 <= j < |rest|
        ensures key(s[0]) >= key(rest[j])
      {
        assert rest[j] in multiset(rest);
        if rest[j] != x {
          assert rest[j] in multiset(tail);
          var m :| 0 <= m < |tail| && tail[m] == rest[j];
          assert tail[m] == s[m + 1];
        }
      }
      assert Insert(x, s, key) == [s[0]] + rest;
    }
  }

  /** Sorts by descending key; among equal keys the original order is kept. */
  function SortDesc<T(==)>(xs: seq<T>, key: T -> int): (r: seq<T>)
    ensures |r| == |xs|
    ensures multiset(r) == multiset(xs)
    ensures SortedDesc(r, key)
  {
    if |xs| == 0 then []
    else
      assert xs == [xs[0]] + xs[1..];
      InsertSorted(xs[0], SortDesc(xs[1..], key), key);
      Insert(xs[0], SortDesc(xs[1..], key), key)
  }

  /** The elements whose key is `k`, in order. */
  function WithKey<T>(xs: seq<T>, key: T -> int, k: int): seq<T> {
    if |xs| == 0 then []
    else (if key(xs[0]) == k then [xs[0]] else []) + WithKey(xs[1..], key, k)
  }

  lemma WithKeyCons<T>(y: T, s: seq<T>, key: T -> int, k: int)
    ensures WithKey([y] + s, key, k) == (if key(y) == k then [y] else []) + WithKey(s, key, k)
  {
    assert ([y] + s)[1..] == s;
  }

  lemma {:induction false} InsertWithKey<T>(x: T, s: seq<T>, key: T -> int, k: int)
    ensures WithKey(Insert(x, s, key), key, k) == (if key(x) == k then [x] else []) + WithKey(s, key, k)
  {
    if |s| == 0 {
      assert Insert(x, s, key) == [x] + s;
      WithKeyCons(x, s, key, k);
    } else if key(s[0]) <= key(x) {
      WithKeyCons(x, s, key, k);
    } else {
      var tail := s[1..];
      var rest := Insert(x, tail, key);
      assert Insert(x, s, key) == [s[0]] + rest;
      assert s == [s[0]] + tail;
      InsertWithKey(x, tail, key, k);
      WithKeyCons(s[0], rest, key, k);
      WithKeyCons(s[0], tail, key, k);
      if key(x) == k {
        assert WithKey(Insert(x, s, key), key, k) == [x] + WithKey(tail, key, k);
        assert WithKey(s, key, k) == WithKey(tail, key, k);
      } else {
        assert WithKey(rest, key, k) == WithKey(tail, key, k);
      }
    }
  }

  /** Stability: the elements of each key appear in the same order before and after sorting. */
  lemma {:induction false} SortDescStable<T>(xs: seq<T>, key: T -> int, k: int)
    ensures WithKey(SortDesc(xs, key), key, k) == WithKey(xs, key, k)
  {
    if |xs| > 0 {
      SortDescStable(xs[1..], key, k);
      InsertWithKey(xs[0], SortDesc(xs[1..], key), key, k);
    }
  }
}

=== FILE: statistics.dfy ===
/**
 * The statistics endpoints: the arithmetic the application does after its
 * aggregate queries. Grouping by category and by payer is modelled from the
 * expense rows; the per-month totals come from a query over dates, which
 * the model takes as given rows. Date filters are not modelled: every
 * report covers all of the group's expenses.
 */
module Statistics {
  import opened Wrappers
  import opened Money
  import opened Seqs
  import opened Domain
  import opened Balances
  import opened Sorting
  import opened Payments

  // ---------------------------------------------------------------------
  // Overall summary
  // ---------------------------------------------------------------------

  datatype Spender = Spender(user: UserId, totalSpent: Cents)

  datatype Summary = Summary(
    totalExpenses: Cents,
    expenseCount: nat,
    averageExpense: Cents,
    memberCount: nat,
    averagePerPerson: Cents,
    totalPayments: Cents,
    topSpender: Option<Spender>)

  function ExpenseTotal(expenses: seq<ExpenseRow>): Cents {
    if |expenses| == 0 then 0 else expenses[0].amount + ExpenseTotal(expenses[1..])
  }

  /** Total of the confirmed payments; pending and rejected ones do not count. */
  function ConfirmedTotal(payments: seq<PaymentRow>): Cents {
    if |payments| == 0 then 0
    else (if payments[0].status == Confirmed then payments[0].amount else 0) + ConfirmedTotal(payments[1..])
  }

  /** `avg` is `total / n` to the nearest cent, or 0 when `n` is 0. */
  predicate RoundedAverage(avg: Cents, total: Cents, n: int) {
    && (n == 0 ==> avg == 0)
    && (n > 0 ==> -n <= 2 * (total - avg * n) <= n)
  }

  /** `total / n` to the cent, or 0 when there is nothing to divide by. */
  function Average(total: Cents, n: nat): (r: Cents)
    ensures RoundedAverage(r, total, n)
  {
    if n > 0 then RoundDiv(total, n) else 0
  }

  /** The candidate who paid the most, the earliest one among equals. */
  function Richest(expenses: seq<ExpenseRow>, candidates: seq<UserId>): (r: UserId)
    requires |candidates| > 0
    ensures r in candidates
    ensures forall k :: 0 <= k < |candidates| ==> PaidFor(expenses, candidates[k]) <= PaidFor(expenses, r)
  {
    if |candidates| == 1 then candidates[0]
    else
      var best := Richest(expenses, candidates[1..]);
      if PaidFor(expenses, candidates[0]) >= PaidFor(expenses, best) then candidates[0] else best
  }

  /** The payer with the largest total, if the group has any expense. */
  function TopSpender(expenses: seq<ExpenseRow>): (r: Option<Spender>)
    ensures r.None? <==> |expenses| == 0
    ensures r.Some? ==>
              && r.value.totalSpent == PaidFor(expenses, r.value.user)
              && (exists k :: 0 <= k < |expenses| && expenses[k].paidBy == r.value.user)
              && forall k :: 0 <= k < |expenses| ==> PaidFor(expenses, expenses[k].paidBy) <= r.value.totalSpent
  {
    if |expenses| == 0 then None
    else
      var payers := Map(expenses, (e: ExpenseRow) => e.paidBy);
      var u := Richest(expenses, payers);
      assert forall k :: 0 <= k < |expenses| ==> payers[k] == expenses[k].paidBy;
      Some(Spender(u, PaidFor(expenses, u)))
  }

  /** The overall statistics of group `g`, for one of its members. */
  function GroupStatistics(db: Db, g: GroupId, requester: UserId): (r: Result<Summary, Error>)
    ensures r.Failure? <==> !IsMember(db, g, requester)
    ensures r.Failure? ==> r.error == AccessDenied
    ensures r.Success? ==>
              && r.value.expenseCount == |GroupExpenses(db, g)|
              && r.value.memberCount == |MembersOf(db, g)|
              && RoundedAverage(r.value.averageExpense, r.value.totalExpenses, r.value.expenseCount)
              && RoundedAverage(r.value.averagePerPerson, r.value.totalExpenses, r.value.memberCount)
              && (r.value.topSpender.None? <==> r.value.expenseCount == 0)
    ensures r.Success? ==>
              && r.value.totalExpenses == ExpenseTotal(GroupExpenses(db, g))
              && r.value.totalPayments == ConfirmedTotal(GroupPayments(db, g))
              && r.value.topSpender == TopSpender(GroupExpenses(db, g))
  {
    if !IsMember(db, g, requester) then Failure(AccessDenied)
    else
      var es := GroupExpenses(db, g);
      var total := ExpenseTotal(es);
      var members := |MembersOf(db, g)|;
      Success(Summary(total, |es|, Average(total, |es|), members, Average(total, members),
                      ConfirmedTotal(GroupPayments(db, g)), TopSpender(es)))
  }

  /** When every expense has the same amount, the average is that amount. */
  lemma AverageOfEqualAmounts(a: Cents, n: nat)
    requires n > 0
    ensures Average(a * n, n) == a
  {
    RoundedMultiple(a, n, Average(a * n, n));
  }

  lemma RoundedMultiple(a: int, n: int, r: int)
    requires n > 0 && RoundedAverage(r, a * n, n)
    ensures r == a
  {
    assert a * n - r * n == (a - r) * n;
    NearZeroMultiple(a - r, n);
  }

  lemma NearZeroMultiple(d: int, n: int)
    requires n > 0
    requires -n <= 2 * (d * n) <= n
    ensures d == 0
  {
    assert (2 * d - 1) * n <= 0 && (2 * d + 1) * n >= 0;
  }

  lemma {:induction false} ConfirmedTotalAppend(p1: seq<PaymentRow>, p2: seq<PaymentRow>)
    ensures ConfirmedTotal(p1 + p2) == ConfirmedTotal(p1) + ConfirmedTotal(p2)
  {
    if |p1| == 0 {
      assert p1 + p2 == p2;
    } else {
      assert (p1 + p2)[1..] == p1[1..] + p2;
      ConfirmedTotalAppend(p1[1..], p2);
    }
  }

  /** A new payment is pending, so recording it leaves the confirmed total unchanged. */
  lemma CreatePaymentKeepsTotalPayments(db: Db, g: GroupId, requester: UserId, toUser: UserId,
                                        amount: Cents, id: PaymentId, h: GroupId)
    requires ValidAmount(amount)
    requires CreatePayment(db, g, requester, toUser, amount, id).Success?
    requires IsMember(db, h, requester)
    ensures GroupStatistics(CreatePayment(db, g, requester, toUser, amount, id).value, h, requester).Success?
    ensures GroupStatistics(CreatePayment(db, g, requester, toUser, amount, id).value, h, requester).value.totalPayments
            == GroupStatistics(db, h, requester).value.totalPayments
  {
    var after := CreatePayment(db, g, requester, toUser, amount, id).value;
    var p := PaymentRow(id, g, requester, toUser, amount, Pending);
    assert after.payments == db.payments + [p];
    assert after.members == db.members;
    FilterAppend(db.payments, [p], (q: PaymentRow) => q.groupId == h);
    var added := Filter([p], (q: PaymentRow) => q.groupId == h);
    ConfirmedTotalAppend(GroupPayments(db, h), added);
    assert ConfirmedTotal(added) == 0 by {
      if p.groupId == h {
        assert added == [p];
      } else {
        assert added == [];
      }
    }
  }

  /** What a confirmed row of group `g` adds to the group's confirmed total. */
  function ConfirmedRow(p: PaymentRow, g: GroupId): Cents {
    if p.groupId == g && p.status == Confirmed then p.amount else 0
  }

  lemma ConfirmedTotalCons(p: PaymentRow, ps: seq<PaymentRow>, g: GroupId)
    ensures ConfirmedTotal(PaymentsOfGroup([p] + ps, g)) == ConfirmedRow(p, g) + ConfirmedTotal(PaymentsOfGroup(ps, g))
  {
    PaymentsOfGroupCons(p, ps, g);
    var hs := if p.groupId == g then [p] else [];
    ConfirmedTotalAppend(hs, PaymentsOfGroup(ps, g));
    if |hs| > 0 {
      assert hs[1..] == [];
    }
  }

  /**
   * Moving the pending payment `p` (the only one with its id) to status `st`
   * raises the group's confirmed total by its amount when `st` is confirmed,
   * and leaves it as it was otherwise.
   */
  lemma {:induction false} SetStatusConfirmedTotal(ps: seq<PaymentRow>, g: GroupId, p: PaymentRow, st: PaymentStatus)
    requires UniquePaymentIds(ps)
    requires p in ps && p.groupId == g && p.status == Pending
    ensures ConfirmedTotal(PaymentsOfGroup(SetStatus(ps, g, p.id, st), g))
            == ConfirmedTotal(PaymentsOfGroup(ps, g)) + (if st == Confirmed then p.amount else 0)
  {
    UniqueTail(ps);
    assert ps == [ps[0]] + ps[1..];
    if ps[0] == p {
      SetStatusNoMatch(ps[1..], g, p.id, st);
      assert SetStatus(ps, g, p.id, st) == [p.(status := st)] + ps[1..];
      ConfirmedTotalCons(p.(status := st), ps[1..], g);
      ConfirmedTotalCons(p, ps[1..], g);
    } else {
      var k :| 0 <= k < |ps| && ps[k] == p;
      assert ps[1..][k - 1] == p;
      SetStatusConfirmedTotal(ps[1..], g, p, st);
      assert SetStatus(ps, g, p.id, st) == [ps[0]] + SetStatus(ps[1..], g, p.id, st);
      ConfirmedTotalCons(ps[0], SetStatus(ps[1..], g, p.id, st), g);
      ConfirmedTotalCons(ps[0], ps[1..], g);
    }
  }

  /**
   * Confirming a pending payment raises the group's confirmed payment total
   * by its amount; rejecting it leaves the total unchanged.
   */
  lemma StatusChangeTotalPayments(db: Db, g: GroupId, requester: UserId, id: PaymentId, status: PaymentStatus)
    requires status != Pending
    requires UniquePaymentIds(db.payments)
    requires UpdatePaymentStatus(db, g, requester, id, status).Success?
    ensures GroupStatistics(UpdatePaymentStatus(db, g, requester, id, status).value, g, requester).Success?
    ensures GroupStatistics(UpdatePaymentStatus(db, g, requester, id, status).value, g, requester).value.totalPayments
            == GroupStatistics(db, g, requester).value.totalPayments
               + (if status == Confirmed then FindPayment(db, g, id).value.amount else 0)
  {
    var p := FindPayment(db, g, id).value;
    var after := UpdatePaymentStatus(db, g, requester, id, status).value;
    assert after.members == db.members && after.expenses == db.expenses;
    SetStatusConfirmedTotal(db.payments, g, p, status);
  }

  // ---------------------------------------------------------------------
  // By category
  // ---------------------------------------------------------------------

  /** One row of the grouped query: a category with its total and number of expenses. */
  datatype CategoryRow = CategoryRow(category: string, total: Cents, count: nat)

  /** A category row with its share of the grand total, in tenths of a percent. */
  datatype CategoryStat = CategoryStat(category: string, total: Cents, count: nat, percentage: int)

  function CategoryTotal(expenses: seq<ExpenseRow>, c: string): Cents {
    if |expenses| == 0 then 0
    else (if expenses[0].category == c then expenses[0].amount else 0) + CategoryTotal(expenses[1..], c)
  }

  function CategoryCount(expenses: seq<ExpenseRow>, c: string): nat {
    if |expenses| == 0 then 0
    else (if expenses[0].category == c then 1 else 0) + CategoryCount(expenses[1..], c)
  }

  /** The values of `xs` once each, keeping each value's last occurrence. */
  function Dedup<T(==,!new)>(xs: seq<T>): (r: seq<T>)
    ensures Distinct(r)
    ensures forall x :: x in r <==> x in xs
  {
    if |xs| == 0 then []
    else if xs[0] in xs[1..] then Dedup(xs[1..])
    else [xs[0]] + Dedup(xs[1..])
  }

  /** The categories used by some expense, each once. */
  function Categories(expenses: seq<ExpenseRow>): (r: seq<string>)
    ensures Distinct(r)
    ensures forall c :: c in r <==> exists k :: 0 <= k < |expenses| && expenses[k].category == c
  {
    var cs := Map(expenses, (e: ExpenseRow) => e.category);
    assert forall k :: 0 <= k < |expenses| ==> cs[k] == expenses[k].category;
    Dedup(cs)
  }

  function CategoryRows(cs: seq<string>, expenses: seq<ExpenseRow>): (r: seq<CategoryRow>)
    ensures |r| == |cs|
    ensures forall i :: 0 <= i < |cs| ==>
              r[i] == CategoryRow(cs[i], CategoryTotal(expenses, cs[i]), CategoryCount(expenses, cs[i]))
  {
    if |cs| == 0 then []
    else [CategoryRow(cs[0], CategoryTotal(expenses, cs[0]), CategoryCount(expenses, cs[0]))]
         + CategoryRows(cs[1..], expenses)
  }

  /** The grouped query: one row per category, by descending total. */
  function GroupByCategory(expenses: seq<ExpenseRow>): (r: seq<CategoryRow>)
    ensures SortedDesc(r, (row: CategoryRow) => row.total)
    ensures multiset(r) == multiset(CategoryRows(Categories(expenses), expenses))
  {
    SortDesc(CategoryRows(Categories(expenses), expenses), (row: CategoryRow) => row.total)
  }

  function RowTotal(rows: seq<CategoryRow>): Cents {
    if |rows| == 0 then 0 else rows[0].total + RowTotal(rows[1..])
  }

  function RowCount(rows: seq<CategoryRow>): int {
    if |rows| == 0 then 0 else rows[0].count + RowCount(rows[1..])
  }

  /** Adds the percentage column; all percentages are 0 when the grand total is not positive. */
  function CategoryShares(rows: seq<CategoryRow>): (r: seq<CategoryStat>)
    ensures |r| == |rows|
    ensures forall i :: 0 <= i < |rows| ==>
              && r[i].category == rows[i].category && r[i].total == rows[i].total && r[i].count == rows[i].count
              && (RowTotal(rows) <= 0 ==> r[i].percentage == 0)
              && (RowTotal(rows) > 0 ==>
                    -RowTotal(rows) <= 2 * (1000 * rows[i].total - r[i].percentage * RowTotal(rows)) <= RowTotal(rows))
  {
    var grand := RowTotal(rows);
    seq(|rows|, i requires 0 <= i < |rows| =>
      CategoryStat(rows[i].category, rows[i].total, rows[i].count,
                   if grand > 0 then RoundDiv(1000 * rows[i].total, grand) else 0))
  }

  /** The per-category statistics of group `g`, for one of its members. */
  function CategoryStatistics(db: Db, g: GroupId, requester: UserId): (r: Result<seq<CategoryStat>, Error>)
    ensures r.Failure? <==> !IsMember(db, g, requester)
    ensures r.Failure? ==> r.error == AccessDenied
    ensures r.Success? ==> |r.value| == |Categories(GroupExpenses(db, g))|
    ensures r.Success? ==> r.value == CategoryShares(GroupByCategory(GroupExpenses(db, g)))
    ensures r.Success? ==> SortedDesc(r.value, (c: CategoryStat) => c.total)
  {
    if !IsMember(db, g, requester) then Failure(AccessDenied)
    else Success(CategoryShares(GroupByCategory(GroupExpenses(db, g))))
  }

  /** Percentages of non-negative totals lie between 0 and 100.0. */
  lemma {:induction false} PercentageBounds(rows: seq<CategoryRow>, i: nat)
    requires i < |rows|
    requires 0 <= rows[i].total <= RowTotal(rows)
    ensures 0 <= CategoryShares(rows)[i].percentage <= 1000
  {
    if RowTotal(rows) > 0 {
      RoundedPercentage(rows[i].total, RowTotal(rows), CategoryShares(rows)[i].percentage);
    }
  }

  lemma RoundedPercentage(t: int, grand: int, p: int)
    requires 0 <= t <= grand && grand > 0
    requires -grand <= 2 * (1000 * t - p * grand) <= grand
    ensures 0 <= p <= 1000
  {
    assert (2 * p + 1) * grand >= 0;
    assert (2 * (p - 1000) - 1) * grand <= 0;
  }

  lemma {:induction false} CategoryRowsCons(cs: seq<string>, e: ExpenseRow, expenses: seq<ExpenseRow>)
    requires Distinct(cs)
    ensures RowTotal(CategoryRows(cs, [e] + expenses))
            == (if e.category in cs then e.amount else 0) + RowTotal(CategoryRows(cs, expenses))
    ensures RowCount(CategoryRows(cs, [e] + expenses))
            == (if e.category in cs then 1 else 0) + RowCount(CategoryRows(cs, expenses))
  {
    var all := [e] + expenses;
    assert all[1..] == expenses;
    if |cs| > 0 {
      CategoryRowsCons(cs[1..], e, expenses);
      assert CategoryRows(cs, all)[1..] == CategoryRows(cs[1..], all);
      assert CategoryRows(cs, expenses)[1..] == CategoryRows(cs[1..], expenses);
      assert e.category in cs <==> e.category == cs[0] || e.category in cs[1..] by {
        assert cs == [cs[0]] + cs[1..];
      }
      assert e.category == cs[0] ==> e.category !in cs[1..];
    }
  }

  /** Rows over categories that cover every expense add up to all the expenses. */
  lemma {:induction false} CategoryRowsCover(cs: seq<string>, expenses: seq<ExpenseRow>)
    requires Distinct(cs)
    requires forall k :: 0 <= k < |expenses| ==> expenses[k].category in cs
    ensures RowTotal(CategoryRows(cs, expenses)) == ExpenseTotal(expenses)
    ensures RowCount(CategoryRows(cs, expenses)) == |expenses|
  {
    if |expenses| > 0 {
      CategoryRowsCover(cs, expenses[1..]);
      assert expenses == [expenses[0]] + expenses[1..];
      CategoryRowsCons(cs, expenses[0], expenses[1..]);
    } else {
      assert forall i :: 0 <= i < |cs| ==> CategoryTotal(expenses, cs[i]) == 0 && CategoryCount(expenses, cs[i]) == 0;
      RowsOfEmpty(cs, expenses);
    }
  }

  lemma {:induction false} RowsOfEmpty(cs: seq<string>, expenses: seq<ExpenseRow>)
    requires |expenses| == 0
    ensures RowTotal(CategoryRows(cs, expenses)) == 0 && RowCount(CategoryRows(cs, expenses)) == 0
  {
    if |cs| > 0 {
      RowsOfEmpty(cs[1..], expenses);
      assert CategoryRows(cs, expenses)[1..] == CategoryRows(cs[1..], expenses);
    }
  }

  lemma {:induction false} RowTotalInsert(x: CategoryRow, s: seq<CategoryRow>, key: CategoryRow -> int)
    ensures RowTotal(Insert(x, s, key)) == x.total + RowTotal(s)
    ensures RowCount(Insert(x, s, key)) == x.count + RowCount(s)
  {
    if |s| == 0 {
      assert Insert(x, s, key) == [x];
    } else if key(s[0]) <= key(x) {
      assert Insert(x, s, key) == [x] + s;
      assert ([x] + s)[1..] == s;
    } else {
      var rest := Insert(x, s[1..], key);
      assert Insert(x, s, key) == [s[0]] + rest;
      assert ([s[0]] + rest)[1..] == rest;
      RowTotalInsert(x, s[1..], key);
    }
  }

  lemma {:induction false} RowTotalSort(rows: seq<CategoryRow>, key: CategoryRow -> int)
    ensures RowTotal(SortDesc(rows, key)) == RowTotal(rows)
    ensures RowCount(SortDesc(rows, key)) == RowCount(rows)
  {
    if |rows| > 0 {
      RowTotalSort(rows[1..], key);
      RowTotalInsert(rows[0], SortDesc(rows[1..], key), key);
    }
  }

  /**
   * The category report and the summary agree: the category totals add up
   * to the summary's total and the category counts to its expense count,
   * so the percentages are shares of the group's whole spending.
   */
  lemma CategoriesAddUpToSummary(db: Db, g: GroupId, requester: UserId)
    requires IsMember(db, g, requester)
    ensures RowTotal(GroupByCategory(GroupExpenses(db, g))) == GroupStatistics(db, g, requester).value.totalExpenses
    ensures RowCount(GroupByCategory(GroupExpenses(db, g))) == GroupStatistics(db, g, requester).value.expenseCount
  {
    var es := GroupExpenses(db, g);
    var cs := Categories(es);
    CategoryRowsCover(cs, es);
    RowTotalSort(CategoryRows(cs, es), (row: CategoryRow) => row.total);
  }

  /**
   * Each category's percentage is its total over the group's expense total,
   * in tenths of a percent, rounded to the nearest; all are 0 when the group
   * has spent nothing.
   */
  lemma CategoryPercentages(db: Db, g: GroupId, requester: UserId)
    requires IsMember(db, g, requester)
    ensures forall i :: 0 <= i < |CategoryStatistics(db, g, requester).value| ==>
              var c := CategoryStatistics(db, g, requester).value[i];
              var grand := ExpenseTotal(GroupExpenses(db, g));
              && (grand <= 0 ==> c.percentage == 0)
              && (grand > 0 ==> -grand <= 2 * (1000 * c.total - c.percentage * grand) <= grand)
  {
    CategoriesAddUpToSummary(db, g, requester);
  }


  // ---------------------------------------------------------------------
  // By month
  // ---------------------------------------------------------------------

  const MonthNames: seq<string> := ["January", "February", "March", "April", "May", "June",
                                    "July", "August", "September", "October", "November", "December"]

  /** One row of the monthly query: a two-digit month with its total and count. */
  datatype MonthRow = MonthRow(month: string, total: Cents, count: nat)

  datatype MonthStat = MonthStat(month: nat, name: string, total: Cents, count: nat)

  function Digit(d: nat): char
    requires d < 10
  {
    (48 + d) as char
  }

  /** Month `m` written with two digits, as the monthly query reports it. */
  function MonthKey(m: nat): (r: string)
    requires 1 <= m <= 12
    ensures |r| == 2
    ensures '0' <= r[0] <= '9' && '0' <= r[1] <= '9'
    ensures 10 * (r[0] as int - '0' as int) + (r[1] as int - '0' as int) == m
  {
    if m < 10 then [Digit(0), Digit(m)] else [Digit(1), Digit(m - 10)]
  }

  lemma MonthKeyInjective(m: nat, n: nat)
    requires 1 <= m <= 12 && 1 <= n <= 12
    requires MonthKey(m) == MonthKey(n)
    ensures m == n
  {
    assert MonthKey(m)[0] == MonthKey(n)[0] && MonthKey(m)[1] == MonthKey(n)[1];
  }

  /**
   * Month `m` with the totals of the first query row for it, or zeros when
   * the query has no row for it.
   */
  function MonthEntry(rows: seq<MonthRow>, m: nat): (r: MonthStat)
    requires 1 <= m <= 12
    ensures r.month == m && r.name == MonthNames[m - 1]
    ensures (forall k :: 0 <= k < |rows| ==> rows[k].month != MonthKey(m)) ==> r.total == 0 && r.count == 0
    ensures forall k :: 0 <= k < |rows| && rows[k].month == MonthKey(m)
                        && (forall j :: 0 <= j < k ==> rows[j].month != MonthKey(m)) ==>
              r.total == rows[k].total && r.count == rows[k].count
  {
    match Find(rows, (row: MonthRow) => row.month == MonthKey(m))
    case None => MonthStat(m, MonthNames[m - 1], 0, 0)
    case Some(row) => MonthStat(m, MonthNames[m - 1], row.total, row.count)
  }

  /** The twelve months of the year in order. */
  function FillMonths(rows: seq<MonthRow>): (r: seq<MonthStat>)
    ensures |r| == 12
    ensures forall i :: 0 <= i < 12 ==> r[i].month == i + 1 && r[i].name == MonthNames[i]
    ensures forall i :: 0 <= i < 12 ==> r[i] == MonthEntry(rows, i + 1)
  {
    seq(12, i requires 0 <= i < 12 => MonthEntry(rows, i + 1))
  }

  /**
   * With one query row per month, every row for a real month is reported
   * under that month.
   */
  lemma MonthRowReported(rows: seq<MonthRow>, k: nat, m: nat)
    requires forall a, b :: 0 <= a < b < |rows| ==> rows[a].month != rows[b].month
    requires k < |rows| && 1 <= m <= 12 && rows[k].month == MonthKey(m)
    ensures FillMonths(rows)[m - 1].total == rows[k].total
    ensures FillMonths(rows)[m - 1].count == rows[k].count
  {
    assert FillMonths(rows)[m - 1] == MonthEntry(rows, m);
  }

  /** The monthly statistics of group `g`, for one of its members. */
  function MonthlyStatistics(db: Db, g: GroupId, requester: UserId, rows: seq<MonthRow>)
    : (r: Result<seq<MonthStat>, Error>)
    ensures r.Failure? <==> !IsMember(db, g, requester)
    ensures r.Failure? ==> r.error == AccessDenied
    ensures r.Success? ==> |r.value| == 12
    ensures r.Success? ==> r.value == FillMonths(rows)
  {
    if !IsMember(db, g, requester) then Failure(AccessDenied) else Success(FillMonths(rows))
  }

  // ---------------------------------------------------------------------
  // By member
  // ---------------------------------------------------------------------

  datatype MemberStat = MemberStat(user: UserId, totalPaid: Cents, totalOwed: Cents, expenseCount: nat, balance: Cents)

  /** Whether some expense of the list has id `id`. */
  predicate HasExpense(expenses: seq<ExpenseRow>, id: ExpenseId) {
    exists k :: 0 <= k < |expenses| && expenses[k].id == id
  }

  /** Total of `u`'s share rows whose expense is among `expenses`, read from the share table. */
  function OwedIn(shares: seq<ShareRow>, expenses: seq<ExpenseRow>, u: UserId): Cents {
    if |shares| == 0 then 0
    else (if shares[0].userId == u && HasExpense(expenses, shares[0].expenseId) then shares[0].amount else 0)
         + OwedIn(shares[1..], expenses, u)
  }

  function PaidCount(expenses: seq<ExpenseRow>, u: UserId): nat {
    if |expenses| == 0 then 0 else (if expenses[0].paidBy == u then 1 else 0) + PaidCount(expenses[1..], u)
  }

  function MemberEntry(db: Db, g: GroupId, u: UserId): MemberStat {
    var es := GroupExpenses(db, g);
    var paid := PaidFor(es, u);
    var owed := OwedIn(db.shares, es, u);
    MemberStat(u, paid, owed, PaidCount(es, u), paid - owed)
  }

  /** One entry per member, in roster order. */
  function MemberEntries(db: Db, g: GroupId): (r: seq<MemberStat>)
    ensures |r| == |Roster(db, g)|
    ensures forall i :: 0 <= i < |r| ==>
              && r[i].user == Roster(db, g)[i]
              && r[i].totalPaid == PaidFor(GroupExpenses(db, g), Roster(db, g)[i])
              && r[i].totalOwed == OwedIn(db.shares, GroupExpenses(db, g), Roster(db, g)[i])
              && r[i].expenseCount == PaidCount(GroupExpenses(db, g), Roster(db, g)[i])
              && r[i].balance == r[i].totalPaid - r[i].totalOwed
  {
    var roster := Roster(db, g);
    seq(|roster|, i requires 0 <= i < |roster| => MemberEntry(db, g, roster[i]))
  }

  /** The sort key of the member report: what the member paid. */
  function PaidKey(m: MemberStat): int {
    m.totalPaid
  }

  /**
   * The per-member statistics of group `g`, by descending amount paid;
   * members who paid the same keep their roster order (the sort is stable).
   */
  function MemberStatistics(db: Db, g: GroupId, requester: UserId): (r: Result<seq<MemberStat>, Error>)
    ensures r.Failure? <==> !IsMember(db, g, requester)
    ensures r.Failure? ==> r.error == AccessDenied
    ensures r.Success? ==>
              && multiset(r.value) == multiset(MemberEntries(db, g))
              && SortedDesc(r.value, PaidKey)
    ensures r.Success? ==> forall k :: WithKey(r.value, PaidKey, k) == WithKey(MemberEntries(db, g), PaidKey, k)
  {
    if !IsMember(db, g, requester) then Failure(AccessDenied)
    else
      var sorted := SortDesc(MemberEntries(db, g), PaidKey);
      assert forall k :: WithKey(sorted, PaidKey, k) == WithKey(MemberEntries(db, g), PaidKey, k) by {
        forall k { SortDescStable(MemberEntries(db, g), PaidKey, k); }
      }
      Success(sorted)
  }

  lemma {:induction false} OwedInCons(shares: seq<ShareRow>, e: ExpenseRow, expenses: seq<ExpenseRow>, u: UserId)
    requires forall k :: 0 <= k < |expenses| ==> expenses[k].id != e.id
    ensures OwedIn(shares, [e] + expenses, u) == ShareTotalFor(SharesOf(shares, e.id), u) + OwedIn(shares, expenses, u)
  {
    var all := [e] + expenses;
    if |shares| > 0 {
      var s := shares[0];
      OwedInCons(shares[1..], e, expenses, u);
      assert HasExpense(all, s.expenseId) <==> s.expenseId == e.id || HasExpense(expenses, s.expenseId) by {
        assert all[0] == e;
        if HasExpense(expenses, s.expenseId) {
          var k :| 0 <= k < |expenses| && expenses[k].id == s.expenseId;
          assert all[k + 1] == expenses[k];
        }
        if HasExpense(all, s.expenseId) && s.expenseId != e.id {
          var k :| 0 <= k < |all| && all[k].id == s.expenseId;
          assert expenses[k - 1] == all[k];
        }
      }
      assert s.expenseId == e.id ==> !HasExpense(expenses, s.expenseId);
      if s.expenseId == e.id {
        assert SharesOf(shares, e.id) == [s] + SharesOf(shares[1..], e.id);
        assert ([s] + SharesOf(shares[1..], e.id))[1..] == SharesOf(shares[1..], e.id);
      } else {
        assert SharesOf(shares, e.id) == SharesOf(shares[1..], e.id);
      }
    } else {
      assert SharesOf(shares, e.id) == [];
    }
  }

  /**
   * Reading a member's shares from the share table gives the same total as
   * the balance engine's expense-by-expense sum, when expense ids are unique.
   */
  lemma {:induction false} OwedInMatchesOwedFor(shares: seq<ShareRow>, expenses: seq<ExpenseRow>, u: UserId)
    requires UniqueExpenseIds(expenses)
    ensures OwedIn(shares, expenses, u) == OwedFor(expenses, shares, u)
  {
    if |expenses| == 0 {
      OwedInNone(shares, expenses, u);
    } else {
      var rest := expenses[1..];
      assert UniqueExpenseIds(rest) by {
        forall i, j | 0 <= i < j < |rest| ensures rest[i].id != rest[j].id {
          assert rest[i] == expenses[i + 1] && rest[j] == expenses[j + 1];
        }
      }
      forall k | 0 <= k < |rest| ensures rest[k].id != expenses[0].id {
        assert rest[k] == expenses[k + 1];
      }
      OwedInMatchesOwedFor(shares, rest, u);
      assert expenses == [expenses[0]] + rest;
      OwedInCons(shares, expenses[0], rest, u);
    }
  }

  lemma {:induction false} OwedInNone(shares: seq<ShareRow>, expenses: seq<ExpenseRow>, u: UserId)
    requires |expenses| == 0
    ensures OwedIn(shares, expenses, u) == 0
  {
    if |shares| > 0 {
      OwedInNone(shares[1..], expenses, u);
    }
  }

  /**
   * Each member's entry agrees with the balance engine with payments left
   * out: the member report ignores payments, so it differs from the group
   * balances by exactly the member's confirmed payments.
   */
  lemma MemberEntriesIgnorePayments(db: Db, g: GroupId, i: nat)
    requires UniqueExpenseIds(GroupExpenses(db, g))
    requires i < |Roster(db, g)|
    ensures MemberEntries(db, g)[i].totalPaid == CalculateBalances(Roster(db, g), GroupExpenses(db, g), db.shares, [])[i].totalPaid
    ensures MemberEntries(db, g)[i].totalOwed == CalculateBalances(Roster(db, g), GroupExpenses(db, g), db.shares, [])[i].totalOwed
    ensures MemberEntries(db, g)[i].balance
            == GroupBalances(db, g)[i].balance - SentBy(GroupPayments(db, g), Roster(db, g)[i])
                                               + ReceivedBy(GroupPayments(db, g), Roster(db, g)[i])
  {
    var u := Roster(db, g)[i];
    OwedInMatchesOwedFor(db.shares, GroupExpenses(db, g), u);
  }
}

=== FILE: wrappers.dfy ===
/** An optional value and a success-or-error result. */
module Wrappers {

  datatype Option<+T> = None | Some(value: T) {

    /** The wrapped value, or `default` when there is none. */
    function GetOr(default: T): T {
      match this
      case Some(v) => v
      case None => default
    }
  }

  datatype Result<+R, +E> = Success(value: R) | Failure(error: E)
}
